=== FILE: README.md ===
# Calorie counter: authentication and food-entry core, in Dafny

This project models the parts of the calorie-counter application that carry its
authentication and its food log:

- **Token lifecycle.** The backend issues two kinds of JSON Web Token (RFC 7519)
  signed with HMAC-SHA256: access tokens that live 900 s under `JWT_SECRET`, and
  refresh tokens that live 604800 s under `REFRESH_SECRET`. Decoding maps an
  expired access token to a 401 and lets every other failure through. The earlier
  server's token module is modelled too. It copies the caller's user record into
  the claims, minus the password, and adds an expiry check of its own.
- **Bearer gates.** There is one middleware for each server. Each reads
  `Authorization: Bearer <token>` and attaches the decoded claims.
- **Token endpoints.** Sign-up, sign-in, token-refresh and forgot-password take
  a request body, a user store, the signing secrets and the clock. Sign-up and
  sign-in canonicalise the email: lower case, and no dots before the `@`. The
  address check admits only ASCII text, so lowercasing ASCII letters is all of
  `toLowerCase` that an accepted address can need.
- **User stores.** There is the backend's MongoDB collection and the earlier
  server's key-value store. Password hashing is symbolic, down to the 72 key
  bytes bcrypt reads.
- **Food entries.** Entries are validated, stored with their owner and creation
  time, listed per user, and listed for one local day, newest first.
- **Client session.** The browser's persisted session store covers sign-up,
  login, refresh, logout and rehydration. The API client attaches the bearer
  header, and its 401 interceptor refreshes once and retries once.

Everything is a pure function over immutable data. The clock, the HTTP server the
client talks to, the bcrypt salt and fresh ids are parameters.

Modules follow the program's files:

| file | module | models |
|---|---|---|
| `wrappers.dfy` | `Wrappers`, `Errors` | results, and the three kinds of thrown error: plain `Error`, `PlatformError(message, status)`, `ZodError` |
| `text.dfy`, `frames.dfy` | `Text`, `Frames` | string helpers, decimal text, and a length-prefixed framing used as the token wire format |
| `json.dfy`, `json_wire.dfy` | `Json`, `JsonWire` | JSON values with last-binding-wins lookup; `JSON.stringify` / `JSON.parse` as an exact round trip |
| `codec.dfy` | `TokenCodec` | `jwt.encode` / `jwt.decode` of the jwt-simple library |
| `jwt.dfy` | `Jwt` | backend/src/auth/jwt.ts |
| `legacy_jwt.dfy` | `LegacyJwt` | src/auth/jwt.ts |
| `middleware.dfy` | `AuthMiddleware`, `LegacyAuthMiddleware` | backend/src/auth/auth.middleware.ts, src/middleware/auth.middleware.ts |
| `email.dfy` | `Email` | the email field of `authRequestSchema` |
| `accounts.dfy` | `Accounts` | roles and bcrypt, shared by both stores |
| `user_service.dfy` | `UserService` | backend/src/db/UserService.ts |
| `legacy_db.dfy` | `LegacyDb` | src/db/db.ts |
| `auth_routes.dfy` | `AuthRoutes` | backend/src/auth/auth.routes.ts |
| `food_entries.dfy` | `FoodEntryService` | backend/src/db/FoodEntryService.ts |
| `session_store.dfy` | `Http`, `SessionStore` | frontend/src/data-stores/auth.ts |
| `api_client.dfy` | `ApiClient` | frontend/src/data-stores/api.ts |

Modelling choices that a reader of the source should know:

- **Time is in milliseconds.** Every clock value is `Date.now()` as a `nat` in
  milliseconds. `iat` is that value divided by 1000. This is needed because
  jwt-simple rejects a token when `Date.now() > exp * 1000`, so a token stays
  valid up to and including the first millisecond of its expiry second. A model
  in whole seconds could not state that boundary.
- **jwt-simple's checks.** `jwt.decode` makes its checks in the library's order:
  1. an empty token gives "No token supplied";
  2. a malformed token gives "Not enough or too many segments";
  3. an unparseable payload gives "Unexpected token in JSON";
  4. a wrong signature gives "Signature verification failed";
  5. a `null` payload throws on reading its `nbf`, with "Cannot read properties
     of null (reading 'nbf')";
  6. a non-zero `nbf` in the future gives "Token not yet active";
  7. a non-zero `exp` in the past gives "Token expired".

  `jwt.encode` with an empty key throws "Require key".
- **One clock reading per `Date.now()`.** Each call of `Date.now()` is its own
  parameter. Issuing a token pair takes two readings, one per token. The earlier
  server's decoders take two as well: the library's reading, and the later one
  of the module's own `exp` test. When a second boundary falls between those
  two, the module's own message can appear.
- **bcrypt's key bytes.** A digest records its cost, its salt and the 72 bytes
  bcrypt keys Blowfish with. These are the password's UTF-8 bytes and a zero,
  repeated to fill 72. Comparing succeeds exactly when the candidate has the
  same key bytes. So everything after a password's first 72 bytes is ignored.
- **Idealised signature.** The signature is a tag that determines both the key
  and the signed text. So a token verifies under exactly one key.
- **ObjectIds.** An ObjectId is a natural number, and its string form is its
  canonical decimal text. A fresh ObjectId comes from a counter in the store.
- **Errors.** An operation that throws returns `Failure(error)`. A 401 is
  `Platform("Unauthorized", 401)` and a 400 is `Platform("Bad Request", 400)`.

Two behaviours of the client's code worth knowing:

- With no refresh token stored, both refresh helpers return `false` and leave the
  session as it is. They do not log out (frontend/src/data-stores/api.ts:32,
  frontend/src/data-stores/auth.ts:72). The interceptor then rejects with the
  original 401.
- The API client's helper does not set `isAuthenticated` after a successful
  refresh. The store's own helper does.

## Model

| member | source | states |
|---|---|---|
| TokenCodec.Encode | backend/src/auth/jwt.ts:21 | signing fails exactly when the key is empty, with "Require key"; a token starts with the JSON-object header |
| TokenCodec.Verdict | backend/src/auth/jwt.ts:31 | a well-formed payload is returned exactly when it is not `null`, not before its `nbf` and not past its `exp`; otherwise one of the three matching errors |
| TokenCodec.Decode | backend/src/auth/jwt.ts:31 | an empty token is "No token supplied" and a malformed one the segments error; a success is a correctly signed, parseable payload that passes its verdict; a correctly signed, parseable token gets exactly that verdict |
| TokenCodec.DecodeEncode | backend/src/auth/jwt.ts:21-31 | a token decodes, under the key that signed it, to exactly the verdict on its payload: the payload itself unless it is `null`, not yet active or expired |
| TokenCodec.NullPayloadNeverDecodes | backend/src/auth/jwt.ts:31 | a correctly signed `null` payload is never returned; decoding throws on reading its `nbf` |
| TokenCodec.DecodeUnderOtherKey | backend/src/auth/jwt.ts:27-31 | a token signed with one key fails under any other key with the signature error, before any time check |
| TokenCodec.DecodeSound | backend/src/auth/jwt.ts:31 | a successful decode under a key means the token is exactly the signing of the returned payload with that key, the payload is not `null`, and it is inside its time window |
| TokenCodec.SegmentsInverse | backend/src/auth/jwt.ts:31 | a token that splits into payload and signature is exactly the header and those two segments encoded again |
| TokenCodec.SegmentsOfEncode | backend/src/auth/jwt.ts:21 | an encoded token splits back into its serialised payload and that payload's signature |
| TokenCodec.TagDeterminesKey | backend/src/auth/jwt.ts:21-27 | different keys give different signatures for the same payload text |
| TokenCodec.DecodeOnlyIssued | backend/src/auth/jwt.ts:31-41 | any successful decode under a non-empty key returns a non-null payload whose signing is that token and that has not expired |
| JsonWire.DeserializeSerialize | backend/src/auth/jwt.ts:21-31 | parsing the serialised payload gives the payload back |
| JsonWire.SerializeDeserialize | backend/src/auth/jwt.ts:31 | every text that parses is the serialisation of its value, so payload text and payload are in one-to-one correspondence |
| JsonWire.ParseFlatten | backend/src/auth/jwt.ts:21-31 | reading a flattened value off the front of any text gives the value and leaves the rest |
| JsonWire.FlattenParse | backend/src/auth/jwt.ts:31 | a value read from a text, flattened again, is exactly the text consumed |
| Jwt.ClaimsAreIssued | backend/src/auth/jwt.ts:18-21 | the claims object holds exactly the keys id, iat, exp, with iat the current second and exp iat plus the lifetime |
| Jwt.IssuedClaimsWindow | backend/src/auth/jwt.ts:19-31 | issued claims have no `nbf` and a positive `exp`, so decoding accepts them up to the expiry millisecond and reports "Token expired" after it |
| Jwt.IssuedTokenVerdict | backend/src/auth/jwt.ts:21-31 | a token made from issued claims decodes to those claims until its expiry millisecond and to the expiry error after it |
| Jwt.IssuedTokenStaysValid | backend/src/auth/jwt.ts:41 | a token that decodes to issued claims when issued decodes to the same claims at every later time up to its expiry |
| Jwt.FreshTokenVerdict | backend/src/auth/jwt.ts:18-28 | fresh claims are issued claims, and their signed token is accepted until expiry and rejected after it |
| Jwt.Issue | backend/src/auth/jwt.ts:18-28 | issuing fails exactly when the secret is empty; otherwise the token decodes at once to the issued claims of that id and lifetime |
| Jwt.GenerateAccessToken | backend/src/auth/jwt.ts:7-22 | fails exactly when `JWT_SECRET` is empty; otherwise decodes under `JWT_SECRET` to `{id, iat, exp}` with `exp = iat + 900` |
| Jwt.GenerateRefreshToken | backend/src/auth/jwt.ts:8-28 | fails exactly when `REFRESH_SECRET` is empty; otherwise decodes under `REFRESH_SECRET` to `{id, iat, exp}` with `exp = iat + 604800` |
| Jwt.DecodeAccessToken | backend/src/auth/jwt.ts:30-38 | the library's success is returned as it is; a library failure whose message starts with "Token expired" becomes the 401, and every other one is rethrown unchanged |
| Jwt.UnauthorizedExactlyWhenExpired | backend/src/auth/jwt.ts:30-38 | the 401 comes exactly from a token the library finds expired; any other library error is the decoder's error |
| Jwt.DecodeRefreshToken | backend/src/auth/jwt.ts:40-43 | success only for an unexpired token signed under `REFRESH_SECRET`; every failure is the library's own thrown error, unmapped |
| Jwt.AccessTokenRoundTrip | backend/src/auth/jwt.ts:18-38 | an issued access token decodes to its claims up to and including its expiry millisecond and to the 401 after it |
| Jwt.RefreshTokenRoundTrip | backend/src/auth/jwt.ts:24-43 | an issued refresh token decodes to its claims until expiry, then to the library's "Token expired", unmapped |
| Jwt.SignatureErrorIsNotExpiry | backend/src/auth/jwt.ts:33 | the signature error message does not start with "Token expired", so it is never mapped to 401 |
| Jwt.RefreshTokenIsNoAccessToken | backend/src/auth/jwt.ts:21-31 | with distinct secrets a refresh token is never accepted as an access token, at any time; the failure is the unmapped signature error |
| Jwt.AccessTokenIsNoRefreshToken | backend/src/auth/jwt.ts:21-41 | with distinct secrets an access token is never accepted as a refresh token |
| LegacyJwt.LegacyClaimsFields | src/auth/jwt.ts:18-28 | the claims hold no password, `iat` the current second, `exp` iat plus the lifetime, and every other payload field unchanged |
| LegacyJwt.GenerateAccessToken | src/auth/jwt.ts:17-22 | fails exactly when `JWT_SECRET` is empty; otherwise decodes under it to the password-free claims with a 900 s lifetime |
| LegacyJwt.GenerateRefreshToken | src/auth/jwt.ts:24-29 | fails exactly when `REFRESH_SECRET` is empty; otherwise decodes under it to the password-free claims with a 604800 s lifetime |
| LegacyJwt.DecodeWith | src/auth/jwt.ts:31-41 | the library decodes at its own clock reading and the module re-checks `exp` at a later one; success is the library's success not expired by the re-check, a library failure is passed on as it is, and any other failure carries the module's own message |
| LegacyJwt.DecodeAccessToken | src/auth/jwt.ts:31-35 | success is the library's success whose `exp` is not before the module's own second; a failure is the library's or "Token expired" |
| LegacyJwt.DecodeRefreshToken | src/auth/jwt.ts:37-41 | success is the library's success whose `exp` is not before the module's own second; a failure is the library's, or "Refresh token expired" for a library-accepted payload that the re-check finds expired |
| LegacyJwt.ExpiredBySecondIsPastExpiry | src/auth/jwt.ts:33-39 | the module's own `exp < now` test, for any non-zero `exp`, only fires when the library's millisecond test has already fired |
| LegacyJwt.OwnExpiryNeedsLateCheck | src/auth/jwt.ts:31-39 | the module's own expiry message is produced only for a token the library accepted, whose `exp` is 0 or whose expiry second ended between the library's clock reading and the module's |
| LegacyJwt.RefreshExpiredNeedsLateCheck | src/auth/jwt.ts:37-40 | "Refresh token expired" comes only from a library-accepted token whose `exp` is 0 or whose expiry second ended between the two clock readings |
| LegacyJwt.IssuedTokenVerdict | src/auth/jwt.ts:31-41 | claims without `nbf` and with a positive lifetime decode to themselves until the expiry millisecond, to the library's "Token expired" after it, and to the module's message when only the later re-check has passed the expiry second |
| LegacyJwt.AccessTokenRoundTrip | src/auth/jwt.ts:17-35 | a legacy access token decodes to the password-free claims until expiry, and to "Token expired" once the library's reading or the module's re-check is past it |
| LegacyJwt.RefreshTokenRoundTrip | src/auth/jwt.ts:24-41 | a legacy refresh token decodes to the password-free claims until expiry; after it the library's "Token expired", and "Refresh token expired" when only the re-check has passed it |
| LegacyJwt.RefreshExpiredAcrossSecond | src/auth/jwt.ts:37-40 | a refresh token read by the library in its last valid millisecond and re-checked a second later gets "Refresh token expired" |
| LegacyJwt.ExpirySecondBoundary | src/auth/jwt.ts:31-35 | inside the expiry second a token is accepted exactly at its first millisecond and only while the re-check is still inside that second, although the module's own test would accept the whole second |
| AuthMiddleware.BearerToken | backend/src/auth/auth.middleware.ts:19 | a leading "Bearer " is removed and nothing else; a header without it is passed on unchanged |
| AuthMiddleware.JwtAuth | backend/src/auth/auth.middleware.ts:15-24 | a missing or empty header is a 401; otherwise the request proceeds exactly when the stripped token decodes as an access token, carrying its claims, and fails with the decoder's error otherwise |
| AuthMiddleware.BearerTokenOfPrefixed | backend/src/auth/auth.middleware.ts:19 | "Bearer " followed by a token strips back to that token |
| AuthMiddleware.TokenIsNotBearer | backend/src/auth/auth.middleware.ts:19 | no token the codec makes starts with "Bearer " |
| AuthMiddleware.AcceptsIssuedBearer | backend/src/auth/auth.middleware.ts:15-24 | a fresh access token sent as a bearer header lets the request through with its claims until expiry, and is a 401 after |
| AuthMiddleware.AcceptsBareToken | backend/src/auth/auth.middleware.ts:19 | the bare token without the scheme is treated exactly like the bearer header |
| LegacyAuthMiddleware.JwtAuth | src/middleware/auth.middleware.ts:4-15 | a missing header or one not starting with "Bearer " is answered 401 `{message: "Unauthorized"}` and nothing is decoded; otherwise the request proceeds exactly when the token decodes |
| LegacyAuthMiddleware.BearerToken | src/middleware/auth.middleware.ts:11 | the first "Bearer " is cut out wherever it occurs, and the header is the token with it put back in that place; a header without one is kept whole |
| LegacyAuthMiddleware.SameTokenAsBackend | src/middleware/auth.middleware.ts:11 | on a "Bearer " header, replacing the first occurrence reads the same token as the backend's anchored strip |
| LegacyAuthMiddleware.IssuedBearerAndBareToken | src/middleware/auth.middleware.ts:7-14 | an issued legacy access token as a bearer header passes with its claims until expiry, at either clock reading, and raises "Token expired" after; the same token bare is always answered 401 |
| Email.ParseEmail | backend/src/auth/auth.routes.ts:7-18 | fails exactly when the address is malformed (non-ASCII text included) or contains a quote, as a validation error; an accepted address is its canonical form (lowercased, dots removed before the '@'), which is well-formed ASCII text without capitals or quotes |
| Email.Normalise | backend/src/auth/auth.routes.ts:13-18 | the result has one "@", its local part is the lowercased local part with every dot removed, and its domain is the lowercased text after the first "@" up to any second one |
| Email.NormaliseParts | backend/src/auth/auth.routes.ts:15-17 | the canonical address is the lowercased local part without dots, "@", and the lowercased domain |
| Email.NormalisedForm | backend/src/auth/auth.routes.ts:13-18 | the canonical address is still well-formed, has no capitals, has no dot before the "@", and has no quote unless the input had one |
| Email.NormaliseIdempotent | backend/src/auth/auth.routes.ts:13-18 | canonicalising twice is canonicalising once |
| Email.ParseEmailIdempotent | backend/src/auth/auth.routes.ts:7-18 | the schema accepts its own output and maps it to itself |
| Email.DotsAndCaseIgnored | backend/src/auth/auth.routes.ts:14-17 | addresses differing only in case or in dots before the "@" get the same account key |
| Email.ToLowerSplit | backend/src/auth/auth.routes.ts:15 | lowercasing keeps the "@" in place, so it commutes with the split |
| Accounts.HashPassword | backend/src/db/UserService.ts:58 | the digest has cost 10 and the drawn salt, and matches the password it was made from |
| Accounts.MatchesSameKey | backend/src/db/UserService.ts:38 | a digest matches exactly the passwords with the same 72 key bytes as its own password |
| Accounts.Matches | backend/src/db/UserService.ts:38 | a digest matches a password exactly when hashing it with the digest's cost and salt reproduces the digest's 72 key bytes |
| Accounts.SharedPrefixSharesKey | backend/src/db/UserService.ts:38 | passwords that share their first 72 UTF-8 bytes have the same key, whatever follows |
| Accounts.SameKeyBytes | backend/src/db/UserService.ts:38 | two passwords without NUL have the same key exactly when they are equal or both have 72 bytes or more and agree on the first 72 |
| Accounts.WrongSuffixAccepted | backend/src/db/UserService.ts:38 | 72 letters followed by "Y" are accepted against the digest of the same letters followed by "X" |
| Accounts.Utf8Injective | backend/src/db/UserService.ts:38 | different passwords have different UTF-8 bytes |
| UserService.FindByEmail | backend/src/db/UserService.ts:35-55 | finds a stored document with that email, and finds none exactly when no document has it |
| UserService.FindById | backend/src/db/UserService.ts:45 | finds a stored document with that id, and finds none exactly when no document has it |
| UserService.ReadUser | backend/src/db/UserService.ts:11-15 | reading succeeds exactly for a present document with a well-formed email; the result's id text parses back to the document's id, and email and role are kept |
| UserService.ComparePassword | backend/src/db/UserService.ts:34-42 | a 401 exactly when no user has the email or the password does not match; success reads the matching user |
| UserService.GetUserById | backend/src/db/UserService.ts:44-47 | text that is not an ObjectId throws; otherwise the read of the document with that id |
| UserService.GetUserByEmail | backend/src/db/UserService.ts:49-52 | succeeds exactly when a document has the email and the email is well-formed, reading that document's id, email and role; an absent user is the read schema's error on null, never a null result |
| UserService.CreateUser | backend/src/db/UserService.ts:54-68 | a 400 exactly when the email is taken, with the store unchanged; otherwise one document is appended with the next id, that email, role user and a digest of the password, and the reply is that user read back: the id as text, the email, role user |
| UserService.FindByEmailAppend | backend/src/db/UserService.ts:55-66 | after appending a document with a new email, lookups find it by that email and are otherwise unchanged |
| UserService.FindByIdAppend | backend/src/db/UserService.ts:45-66 | after appending a document with a new id, lookups find it by that id and are otherwise unchanged |
| UserService.CreateUserKeepsValid | backend/src/db/UserService.ts:54-68 | creation keeps emails and ids unique and ids below the counter |
| UserService.CreateThenCompare | backend/src/db/UserService.ts:34-68 | a new user signs in with exactly the passwords that share its password's 72 key bytes, reading the user the creation returned; every other password is the 401 |
| UserService.CreateThenGetById | backend/src/db/UserService.ts:44-68 | the id the creation returns finds the same user |
| UserService.CreateTwice | backend/src/db/UserService.ts:55-56 | an email registers once; the second attempt is a 400 and leaves the store alone |
| UserService.AbsentUserThrows | backend/src/db/UserService.ts:44-52 | lookups of an absent user fail instead of returning null |
| LegacyDb.GetUser | src/db/db.ts:19-22 | succeeds exactly when the exact email is a key; an absent key is the schema's error on null |
| LegacyDb.CreateUser | src/db/db.ts:24-35 | "User already exists" exactly when the email is a key, leaving the store alone; otherwise a record with the drawn id, that email, role user and a matching digest, under that key |
| LegacyDb.CreateThenGet | src/db/db.ts:19-35 | after creation the exact email reads the created record and every other email reads as before |
| LegacyDb.SpellingsAreDistinctUsers | src/db/db.ts:20-32 | keys are exact strings, so two spellings of an address become two users |
| AuthRoutes.ParseAuthRequest | backend/src/auth/auth.routes.ts:6-20 | succeeds exactly when the email passes the email schema and a string password is present, giving the canonical form of the raw email and the password unchanged |
| AuthRoutes.IssuePair | backend/src/auth/auth.routes.ts:31-34 | fails exactly when a secret is empty; otherwise both tokens are issued to the same id, each at its own clock reading |
| AuthRoutes.SignUp | backend/src/auth/auth.routes.ts:25-35 | an invalid body is its parse error and changes nothing; a taken canonical email is the 400 with the store unchanged; a new one is stored by creation and answered with the pair for the new id |
| AuthRoutes.SignIn | backend/src/auth/auth.routes.ts:37-47 | an invalid body is its parse error; a failed comparison is its 401; otherwise the pair for the stored user with that canonical email, whose digest the password matches |
| AuthRoutes.RefreshSubject | backend/src/auth/auth.routes.ts:61-63 | the subject is the `id` claim of a refresh token that decodes |
| AuthRoutes.TokenRefresh | backend/src/auth/auth.routes.ts:59-72 | success is always a token pair for the refresh token's subject |
| AuthRoutes.TokenRefreshChecked | backend/src/auth/auth.routes.ts:59-72 | as intended: a rejected refresh token is its error; a subject that is missing, or that names no stored user, is answered "User not found"; a stored user gets what the written handler gives, and a pair always names a stored user |
| AuthRoutes.ForgotPassword | backend/src/auth/auth.routes.ts:49-57 | success is always `{status: "ok"}`, exactly when the raw email reads a user |
| AuthRoutes.ForgotPasswordChecked | backend/src/auth/auth.routes.ts:49-57 | as intended: a missing field fails, an unknown email gets "User not found", and "ok" only for a stored email |
| AuthRoutes.ForgotPasswordNeverNotFound | backend/src/auth/auth.routes.ts:53-54 | no body and no store produce the "User not found" reply |
| AuthRoutes.ForgotPasswordUnknownEmail | backend/src/auth/auth.routes.ts:53-54 | an unknown address makes the handler throw, where the corrected one replies "User not found" |
| AuthRoutes.TokenRefreshNeverNotFound | backend/src/auth/auth.routes.ts:65-66 | no input produces the "User not found" reply of token-refresh |
| AuthRoutes.TokenRefreshUnknownUser | backend/src/auth/auth.routes.ts:65-66 | a valid refresh token whose user is gone makes the handler throw, where the corrected one replies "User not found" |
| AuthRoutes.ForgotPasswordCheckedAgrees | backend/src/auth/auth.routes.ts:49-57 | the corrected forgot-password handler answers like the written one whenever that one replies or the email is stored |
| AuthRoutes.TokenRefreshCheckedAgrees | backend/src/auth/auth.routes.ts:59-72 | the corrected token-refresh handler answers like the written one whenever that one replies, the refresh token is rejected, or the subject names a stored user |
| AuthRoutes.ForgotPasswordSkipsCanonicalisation | backend/src/auth/auth.routes.ts:27-53 | after signing up with an address that has a capital, the same address is unknown to forgot-password |
| AuthRoutes.SignUpStoresUser | backend/src/auth/auth.routes.ts:25-35 | after sign-up the store is still valid and holds the user under the canonical email and the new id, with a matching digest |
| AuthRoutes.SignUpThenSignIn | backend/src/auth/auth.routes.ts:25-47 | signing in with the sign-up body gives a pair for the same user |
| AuthRoutes.RefreshIssuedToken | backend/src/auth/auth.routes.ts:59-72 | a refresh token issued to a stored user, presented before it expires, gets a fresh pair for that user |
| AuthRoutes.SignUpThenRefresh | backend/src/auth/auth.routes.ts:25-72 | the refresh token from sign-up, presented before expiry, gets a fresh pair for the same user |
| FoodEntryService.ParseIngredient | backend/src/db/FoodEntryService.ts:5-9 | an accepted ingredient has the body's name, calories and percentage |
| FoodEntryService.ParseIngredients | backend/src/db/FoodEntryService.ts:15 | the array is accepted exactly when every element is, element by element |
| FoodEntryService.ParseImageUrl | backend/src/db/FoodEntryService.ts:16 | an absent image URL and a string are accepted; anything else is not |
| FoodEntryService.ParseFoodBase | backend/src/db/FoodEntryService.ts:12-17 | an accepted entry has the body's name, calories, ingredients and image URL; a rejection is a validation error |
| FoodEntryService.ParseFoodBaseJson | backend/src/db/FoodEntryService.ts:12-17 | validation accepts the JSON form of every entry and gives that entry back |
| FoodEntryService.ParseIngredientJson | backend/src/db/FoodEntryService.ts:5-9 | validation accepts the JSON form of every ingredient and gives it back |
| FoodEntryService.Project | backend/src/db/FoodEntryService.ts:27-31 | both ids become text that parses back to them, and every other field is kept |
| FoodEntryService.UnprojectProject | backend/src/db/FoodEntryService.ts:27-31 | the stored document is recovered from its read form |
| FoodEntryService.ProjectUnproject | backend/src/db/FoodEntryService.ts:27-31 | every read form whose ids are ObjectId text is the projection of a document |
| FoodEntryService.ProjectInjective | backend/src/db/FoodEntryService.ts:27-31 | distinct documents read as distinct entries |
| FoodEntryService.ParseUserId | backend/src/db/FoodEntryService.ts:34-36 | accepted exactly for ObjectId text, which is the text of the id it names; otherwise "Invalid user ID format" |
| FoodEntryService.CreateFoodEntry | backend/src/db/FoodEntryService.ts:57-73 | fails, storing nothing, exactly when the user id or the data is invalid; otherwise exactly one document is appended, with the caller as owner, the validated data and the current time, and its read form is returned |
| FoodEntryService.OfUser | backend/src/db/FoodEntryService.ts:80-81 | holds exactly the stored documents of that owner |
| FoodEntryService.GetFoodEntries | backend/src/db/FoodEntryService.ts:75-86 | fails exactly for an invalid user id; every listed entry belongs to the caller |
| FoodEntryService.GetFoodEntriesMembers | backend/src/db/FoodEntryService.ts:75-86 | an entry is listed exactly when it is stored under the caller's id |
| FoodEntryService.DayStart | backend/src/db/FoodEntryService.ts:91-92 | the day's start is a local midnight at or before the date, less than a day before it |
| FoodEntryService.OfUserOnDay | backend/src/db/FoodEntryService.ts:97-104 | holds exactly the owner's documents created within the day, both ends included |
| FoodEntryService.Insert | backend/src/db/FoodEntryService.ts:105 | inserting adds the entry and keeps every other one |
| FoodEntryService.InsertNewestFirst | backend/src/db/FoodEntryService.ts:105 | inserting into a newest-first list keeps it newest first |
| FoodEntryService.SortNewestFirst | backend/src/db/FoodEntryService.ts:105 | the sort is a permutation of its input |
| FoodEntryService.SortIsNewestFirst | backend/src/db/FoodEntryService.ts:105 | the sort's output is newest first |
| FoodEntryService.GetFoodEntriesByDate | backend/src/db/FoodEntryService.ts:88-109 | fails exactly for an invalid user id; otherwise newest first and a permutation of the caller's entries of that day |
| FoodEntryService.ByDateMembers | backend/src/db/FoodEntryService.ts:88-109 | an entry is listed exactly when it is the caller's and was created from the day's first to its last millisecond |
| Http.TokenPair | frontend/src/data-stores/auth.ts:76-79 | a body is accepted exactly when both tokens are strings, and gives them |
| SessionStore.ParseUser | frontend/src/data-stores/auth.ts:37-41 | accepted exactly when id and email are strings and the role is "admin" or "user"; the user then has the body's id, email and role |
| SessionStore.Authenticate | frontend/src/data-stores/auth.ts:23-44 | posts the credentials to the given URL first; succeeds exactly when the answer held a token pair and `/me`, asked with the new access token, answered a valid user; the user and both tokens are then those answers |
| SessionStore.SignIn | frontend/src/data-stores/auth.ts:53-68 | fails, with the state unchanged, exactly when authentication fails, with its error; otherwise user and both tokens are set together, authenticated and persisted |
| SessionStore.SignUp | frontend/src/data-stores/auth.ts:53-60 | a failure leaves the client as it was; success means the sign-up endpoint accepted the credentials and the session is authenticated with a user and persisted |
| SessionStore.Login | frontend/src/data-stores/auth.ts:61-68 | a failure leaves the client as it was; success means the sign-in endpoint accepted the credentials and the session is authenticated with a user and persisted |
| SessionStore.Logout | frontend/src/data-stores/auth.ts:89-97 | everything is cleared, `isAuthenticated` is false, and the persisted record is removed |
| SessionStore.Refresh | frontend/src/data-stores/auth.ts:69-88 | succeeds exactly when a non-empty refresh token is stored and the server answers 2xx with a token pair; success: both tokens replaced, the same user, authenticated and persisted; no refresh token: false and nothing changes; any other failure logs out |
| SessionStore.Rehydrate | frontend/src/data-stores/auth.ts:102-106 | the persisted fields are restored, and `isAuthenticated` is raised exactly when a user and a non-empty access token are present; it is never lowered |
| SessionStore.InitialIsSignedOut | frontend/src/data-stores/auth.ts:49-52 | the initial state is signed out and a reload with nothing persisted keeps it so |
| SessionStore.LogoutSurvivesReload | frontend/src/data-stores/auth.ts:89-106 | after logout a reload stays signed out, and logging out twice is logging out once |
| SessionStore.SignInSurvivesReload | frontend/src/data-stores/auth.ts:53-106 | a signed-in session is restored as it was by a reload |
| SessionStore.RefreshSurvivesReload | frontend/src/data-stores/auth.ts:69-106 | a refreshed session is restored, authenticated, by a reload |
| SessionStore.SignedInUserIsMe | frontend/src/data-stores/auth.ts:31-59 | the signed-in user is what `/me` returns for the session's own access token |
| ApiClient.Refresh | frontend/src/data-stores/api.ts:29-49 | succeeds exactly when a non-empty refresh token is stored and the server answers 2xx with a token pair; success: both tokens replaced, the same user, `isAuthenticated` untouched; no refresh token: false and nothing changes; any other failure logs out |
| ApiClient.RefreshHelpersAgree | frontend/src/data-stores/api.ts:29-49 | the client's refresh and the store's refresh agree on the outcome and the state, except that only the store's sets `isAuthenticated` |
| ApiClient.AuthHeader | frontend/src/data-stores/api.ts:62-65 | the bearer header is present exactly when a non-empty access token is stored, and carries it |
| ApiClient.OnError | frontend/src/data-stores/api.ts:68-92 | a failure other than a 401, or a request already retried, is rejected unchanged; a first 401 refreshes, and then either re-sends the request once with the new token and settles with that answer, or rejects with the 401 |
| ApiClient.Call | frontend/src/data-stores/api.ts:52-65 | the first request sent is the call with the stored bearer header |
| ApiClient.AtMostOneRetry | frontend/src/data-stores/api.ts:74-86 | a call sends the request, at most one refresh, and at most one retry with the new token |
| ApiClient.OnlyUnauthorizedRefreshes | frontend/src/data-stores/api.ts:74-90 | any answer other than a 401 settles the call as it came, with one request sent and the store untouched |
| ApiClient.FailedRefreshKeepsOriginalError | frontend/src/data-stores/api.ts:79-90 | when the refresh does not succeed the call rejects with the original 401, logged out unless there was no refresh token |
| ApiClient.RetryUsesNewToken | frontend/src/data-stores/api.ts:80-86 | after a successful refresh the retry carries the new access token and its answer, even another 401, settles the call |
| ApiClient.RetriedRequestIsSettled | frontend/src/data-stores/api.ts:74-76 | a request already marked `_retry` is never refreshed again |

## Left out

- HMAC-SHA256 and base64url are not computed. The signature is an idealised tag
  that depends only on the key and the signed text, and the token text is a
  length-framed encoding rather than base64url. Secrecy and forgery resistance are
  not modelled.
- jwt-simple's algorithm argument and header checks are left out. The code always
  uses the default HS256.
- The `nbf` and `exp` checks apply only to numeric claims. A non-numeric `exp` or
  `nbf`, which JavaScript would coerce, is treated as absent.
- JSON numbers are integers. Floating-point calories and percentages are not
  modelled.
- Email.EmailShape: approximates zod's `.email()` pattern. It requires ASCII
  text, exactly one `@`, a local part that neither starts nor ends with `.`, and a
  non-empty domain. zod's full character classes are not modelled.
- Email.ParseEmail: the messages of the validation errors are placeholders. A
  ZodError's real message is its list of issues.
- FoodEntryService.ParseFoodBase: the message of the validation error is a
  placeholder, as for emails.
- FoodEntryService.ParseUserId: `ObjectId.isValid` also accepts 24-digit hex text
  and any 12-character string. Here only the canonical text of an id is valid.
- UserService.GetUserById: the same restriction to canonical id text applies.
- A fresh ObjectId is the store's counter, not a random or time-based value.
- The minimum password length of 6 in `userWriteSchema` is not modelled, because
  the code never applies that schema. It serves only as a type.
- `createUser` inserts the document and then parses it. An email the read schema
  rejects would leave the document stored and the call failed. Sign-up always
  passes a canonical, well-formed email, so this never happens on that path.
- FoodEntryService.GetFoodEntries: the code sorts on a field `date` that no
  entry has, so every entry ties and MongoDB leaves the order unspecified. The
  model fixes it to storage order. No contract about it depends on that
  order.
- FoodEntryService.SortNewestFirst: entries with equal `createdAt` keep storage
  order. MongoDB leaves their order unspecified.
- FoodEntryService.DayStart: the server's offset from UTC is a parameter, constant
  over the day. A daylight-saving change inside the day is not modelled.
- How the MongoDB driver stores an absent `imageUrl` is not modelled. Stored
  entries keep it absent.
- `foodEntryReadSchema` re-validating documents that other writers put in the
  collection is not modelled. Every stored document here came from
  `createFoodEntry`.
- LegacyJwt.LegacyClaims: `delete payload.password` also mutates the caller's
  object, and that side effect is not modelled. Key order in the claims is not
  tracked either.
- LegacyJwt.AccessTokenRoundTrip: assumes the caller's payload has no `nbf`.
  Such a field would be copied into the claims and checked by the library.
- `Try` in src/db/db.ts is taken to await the promise it wraps, so a missing
  user counts as absent.
- The earlier server's routes and the random UUID of its users are outside this
  model. The UUID is a parameter.
- The application's error handler, which turns thrown errors into HTTP
  responses, is outside this model. Handlers return the error they throw.
- A request body that is not JSON at all is not modelled. Handlers receive a
  parsed JSON value.
- Passwords are sequences of Unicode scalar values. A JavaScript string with a
  lone UTF-16 surrogate, which UTF-8 encoding replaces by U+FFFD, is not
  modelled.
- Blowfish is idealised: different key bytes give different digests. bcrypt's
  own collisions are not modelled.
- Concurrency is not modelled. That covers overlapping refreshes of several
  failing requests, the `FoodEntryService` singleton, and the fact that zustand
  writes storage asynchronously.
- Logging is not modelled.
- The `foodApi` wrappers of the API client and the client-side `foodEntrySchema`
  are not modelled. Each is one call through `getApiClient` followed by a parse.
- The server the client talks to is a function from request to response. A
  server whose answers change between two identical requests is not modelled.
- Vision analysis and the food routes are outside this model.

## Findings

| source | as written | input that shows it | evidently intended | confidence | as-written member | corrected member |
|---|---|---|---|---|---|---|
| backend/src/auth/auth.routes.ts:49-57 | `getUserByEmail` parses the lookup result with the read schema, which throws on null, so `if (!user)` never runs and "User not found" is never replied | body `{email: "a@b.co"}` with no such user: the handler throws a ZodError instead of replying | an unknown email is answered `{status: "error", message: "User not found"}` | high; not executed | AuthRoutes.ForgotPassword, AuthRoutes.ForgotPasswordNeverNotFound, AuthRoutes.ForgotPasswordUnknownEmail | AuthRoutes.ForgotPasswordChecked |
| backend/src/auth/auth.routes.ts:59-72 | `getUserById` parses the lookup result the same way, so a valid refresh token whose user no longer exists throws instead of getting "User not found" | a refresh token issued to an id with no stored user: the handler throws a ZodError | a missing user is answered `{status: "error", message: "User not found"}` | high; not executed | AuthRoutes.TokenRefresh, AuthRoutes.TokenRefreshNeverNotFound, AuthRoutes.TokenRefreshUnknownUser | AuthRoutes.TokenRefreshChecked |

=== FILE: accounts.dfy ===
/** What both user stores share: the role enum and password hashing.

    bcrypt is modelled symbolically, down to the bytes it keys Blowfish with:
    the password's UTF-8 bytes and a terminating zero (the "$2a$"/"$2b$"
    variants bcryptjs generates), repeated cyclically to fill the 72 bytes
    the key schedule reads. A digest records its cost, its salt and those key
    bytes, and comparing re-hashes the candidate with the digest's own cost
    and salt. Blowfish itself is idealised: different key bytes give
    different digests. The salt is random in the program and a parameter
    here. */
module Accounts {
  datatype Role = Admin | User

  type Byte = b: int | 0 <= b < 256

  /** How many key bytes the bcrypt key schedule reads. */
  const KeyLength: nat := 72

  /** `bcrypt.hash(password, rounds)` with the salt it drew, reduced to what
      decides it. */
  datatype Hash = Digest(rounds: nat, salt: string, key: seq<Byte>)

  /** The cost factor both stores hash with. */
  const Rounds: nat := 10

  // ---------------------------------------------------------------------------
  // UTF-8
  // ---------------------------------------------------------------------------

  /** The UTF-8 encoding of one character (a Unicode scalar value). */
  function Utf8Char(c: char): (bs: seq<Byte>)
    ensures 1 <= |bs| <= 4
    ensures bs[0] == 0 <==> c == '\0'
    ensures |bs| > 1 ==> forall i :: 0 <= i < |bs| ==> bs[i] >= 0x80
  {
    var n := c as int;
    if n < 0x80 then [n]
    else if n < 0x800 then [0xC0 + n / 64, 0x80 + n % 64]
    else if n < 0x10000 then [0xE0 + n / 4096, 0x80 + n / 64 % 64, 0x80 + n % 64]
    else [0xF0 + n / 262144, 0x80 + n / 4096 % 64, 0x80 + n / 64 % 64, 0x80 + n % 64]
  }

  /** The UTF-8 encoding of a string, as bcryptjs makes it before hashing. */
  function Utf8(s: string): (bs: seq<Byte>)
    ensures |bs| >= |s|
    ensures '\0' !in s ==> 0 !in bs
  {
    if s == [] then [] else Utf8Char(s[0]) + Utf8(s[1..])
  }

  /** The length of an encoded character, read off its first byte. */
  function LeadLength(b: Byte): nat {
    if b < 0x80 then 1 else if b < 0xE0 then 2 else if b < 0xF0 then 3 else 4
  }

  /** The code point a one- to four-byte sequence encodes. */
  function DecodeChar(bs: seq<Byte>): int
    requires 1 <= |bs| <= 4
  {
    var b: seq<int> := bs;
    if |b| == 1 then b[0]
    else if |b| == 2 then (b[0] - 0xC0) * 64 + (b[1] - 0x80)
    else if |b| == 3 then (b[0] - 0xE0) * 4096 + (b[1] - 0x80) * 64 + (b[2] - 0x80)
    else (b[0] - 0xF0) * 262144 + (b[1] - 0x80) * 4096 + (b[2] - 0x80) * 64 + (b[3] - 0x80)
  }

  /** A character's encoding announces its own length and decodes back to it. */
  lemma Utf8CharInverse(c: char)
    ensures LeadLength(Utf8Char(c)[0]) == |Utf8Char(c)|
    ensures DecodeChar(Utf8Char(c)) == c as int
  {
    var n := c as int;
    if n < 0x80 {
    } else if n < 0x800 {
      assert n == n / 64 * 64 + n % 64;
    } else if n < 0x10000 {
      ThreeByteDigits(n);
    } else {
      FourByteDigits(n);
    }
  }

  lemma ThreeByteDigits(n: int)
    requires 0x800 <= n < 0x10000
    ensures 0 <= n / 4096 < 16
    ensures n == n / 4096 * 4096 + n / 64 % 64 * 64 + n % 64
  {
    assert n / 64 == n / 4096 * 64 + n / 64 % 64;
    assert n == n / 64 * 64 + n % 64;
  }

  lemma FourByteDigits(n: int)
    requires 0x10000 <= n <= 0x10FFFF
    ensures 0 <= n / 262144 < 5
    ensures n == n / 262144 * 262144 + n / 4096 % 64 * 4096 + n / 64 % 64 * 64 + n % 64
  {
    assert n / 4096 == n / 262144 * 64 + n / 4096 % 64;
    assert n / 64 == n / 4096 * 64 + n / 64 % 64;
    assert n == n / 64 * 64 + n % 64;
  }

  /** Different strings have different encodings. */
  lemma {:induction false} Utf8Injective(s: string, t: string)
    requires Utf8(s) == Utf8(t)
    ensures s == t
    decreases |s|
  {
    if s != [] && t != [] {
      var a, b := Utf8Char(s[0]), Utf8Char(t[0]);
      assert Utf8(s) == a + Utf8(s[1..]) && Utf8(t) == b + Utf8(t[1..]);
      assert a[0] == Utf8(s)[0] == b[0];
      Utf8CharInverse(s[0]);
      Utf8CharInverse(t[0]);
      assert a == Utf8(s)[..|a|] == Utf8(t)[..|b|] == b;
      assert Utf8(s[1..]) == Utf8(s)[|a|..] == Utf8(t[1..]);
      Utf8Injective(s[1..], t[1..]);
      assert s == [s[0]] + s[1..] && t == [t[0]] + t[1..];
    }
  }

  lemma {:induction false} Utf8Append(s: string, t: string)
    ensures Utf8(s + t) == Utf8(s) + Utf8(t)
    decreases |s|
  {
    if s != [] {
      assert (s + t)[0] == s[0] && (s + t)[1..] == s[1..] + t;
      Utf8Append(s[1..], t);
    } else {
      assert s + t == t;
    }
  }

  // ---------------------------------------------------------------------------
  // Hashing and comparing
  // ---------------------------------------------------------------------------

  /** The first `n` bytes of `z` repeated without end. */
  function Cycle(z: seq<Byte>, n: nat): (k: seq<Byte>)
    requires |z| > 0
    ensures |k| == n
    ensures n <= |z| ==> k == z[..n]
    ensures n > |z| ==> k[..|z|] == z
    decreases n
  {
    if n <= |z| then z[..n] else z + Cycle(z, n - |z|)
  }

  /** The 72 key bytes bcrypt reads for `password`: its UTF-8 bytes and a
      zero, cycled. */
  function KeyBytes(password: string): (k: seq<Byte>)
    ensures |k| == KeyLength
    ensures |Utf8(password)| >= KeyLength ==> k == Utf8(password)[..KeyLength]
    ensures |Utf8(password)| < KeyLength ==>
              k[..|Utf8(password)|] == Utf8(password) && k[|Utf8(password)|] == 0
  {
    var u := Utf8(password);
    var k := Cycle(u + [0], KeyLength);
    assert |u| < KeyLength ==> k[..|u|] == k[..|u| + 1][..|u|];
    k
  }

  function HashPassword(password: string, salt: string): (h: Hash)
    ensures Matches(password, h)
    ensures h.rounds == Rounds && h.salt == salt
  {
    Digest(Rounds, salt, KeyBytes(password))
  }

  /** `bcrypt.compare(password, h)`: hashing the candidate with the digest's
      own cost and salt reproduces it, which happens exactly when the
      candidate has the digest's key bytes. */
  predicate Matches(password: string, h: Hash)
    ensures Matches(password, h) <==> h.key == KeyBytes(password)
  {
    Digest(h.rounds, h.salt, KeyBytes(password)) == h
  }

  /** A digest matches exactly the passwords with its password's key bytes. */
  lemma MatchesSameKey(p: string, q: string, salt: string)
    ensures Matches(q, HashPassword(p, salt)) <==> KeyBytes(q) == KeyBytes(p)
  {
  }

  /** Everything after the first 72 bytes is ignored: two passwords that
      begin with the same 72 bytes or more have the same key. */
  lemma SharedPrefixSharesKey(w: string, x: string, y: string)
    requires |Utf8(w)| >= KeyLength
    ensures KeyBytes(w + x) == KeyBytes(w + y)
  {
    Utf8Append(w, x);
    Utf8Append(w, y);
    PrefixOfConcat(Utf8(w), Utf8(x), KeyLength);
    PrefixOfConcat(Utf8(w), Utf8(y), KeyLength);
  }

  lemma PrefixOfConcat(a: seq<Byte>, b: seq<Byte>, n: nat)
    requires n <= |a|
    ensures (a + b)[..n] == a[..n]
  {
  }

  /** The input that shows it: 72 letters followed by "X" are hashed, and
      the same letters followed by "Y" are accepted by the comparison. */
  lemma WrongSuffixAccepted(salt: string)
    ensures var w := seq(KeyLength, _ => 'a');
            w + "X" != w + "Y" && Matches(w + "Y", HashPassword(w + "X", salt))
  {
    var w := seq(KeyLength, _ => 'a');
    assert (w + "X")[KeyLength] != (w + "Y")[KeyLength];
    SharedPrefixSharesKey(w, "Y", "X");
  }

  /** For passwords without a NUL character, two share their key bytes
      exactly when they are equal or both run to 72 bytes or more and agree
      on the first 72. */
  lemma SameKeyBytes(p: string, q: string)
    requires '\0' !in p && '\0' !in q
    ensures KeyBytes(p) == KeyBytes(q) <==>
              p == q
              || (&& |Utf8(p)| >= KeyLength && |Utf8(q)| >= KeyLength
                  && Utf8(p)[..KeyLength] == Utf8(q)[..KeyLength])
  {
    if KeyBytes(p) == KeyBytes(q) && (|Utf8(p)| < KeyLength || |Utf8(q)| < KeyLength) {
      if |Utf8(p)| <= |Utf8(q)| {
        ShortKeyDeterminesPassword(p, q);
      } else {
        ShortKeyDeterminesPassword(q, p);
      }
    }
  }

  /** A NUL-free password shorter than 72 bytes is the only NUL-free
      password with its key bytes: the zero marks where it ends. */
  lemma ShortKeyDeterminesPassword(p: string, q: string)
    requires '\0' !in p && '\0' !in q
    requires |Utf8(p)| < KeyLength && |Utf8(p)| <= |Utf8(q)|
    requires KeyBytes(p) == KeyBytes(q)
    ensures p == q
  {
    var u, v := Utf8(p), Utf8(q);
    if |v| > |u| {
      KeyByteBeforeEnd(q, |u|);
    }
    assert u == KeyBytes(p)[..|u|] == KeyBytes(q)[..|v|] == v;
    Utf8Injective(p, q);
  }

  /** Before a NUL-free password's bytes run out, its key bytes are not zero. */
  lemma KeyByteBeforeEnd(p: string, i: nat)
    requires '\0' !in p && i < |Utf8(p)| && i < KeyLength
    ensures KeyBytes(p)[i] == Utf8(p)[i] != 0
  {
    var u := Utf8(p);
    if |u| < KeyLength {
      assert KeyBytes(p)[i] == KeyBytes(p)[..|u|][i];
    }
    assert u[i] in u;
  }
}

=== FILE: api_client.dfy ===
/** The API client of the browser app (frontend/src/data-stores/api.ts):
    each call sends the stored access token as a bearer header, and a 401
    answer to a request not yet retried triggers one token refresh and one
    re-send with the new token. */
module ApiClient {
  import opened Wrappers
  import opened Json
  import opened Http
  import opened SessionStore

  /** The helper `refreshTokens` of the API client. Unlike the store's own,
      a success writes the user and the new pair but leaves
      `isAuthenticated` as it was. */
  function Refresh(c: Client, server: Server): (out: (bool, Client))
    ensures !Truthy(c.state.refreshToken) ==> out == (false, c)
    ensures Truthy(c.state.refreshToken) && !out.0 ==> out.1 == Logout(c)
    ensures out.0 <==>
              && Truthy(c.state.refreshToken)
              && server(RefreshRequest(c.state.refreshToken.value)).Ok?
              && TokenPair(server(RefreshRequest(c.state.refreshToken.value)).data).Some?
    ensures out.0 ==>
              var response := server(RefreshRequest(c.state.refreshToken.value));
              && Truthy(c.state.refreshToken)
              && response.Ok? && TokenPair(response.data).Some?
              && out.1.stored == Some(out.1.state)
              && out.1.state.user == c.state.user
              && out.1.state.isAuthenticated == c.state.isAuthenticated
              && out.1.state.accessToken == Some(TokenPair(response.data).value.0)
              && out.1.state.refreshToken == Some(TokenPair(response.data).value.1)
  {
    if !Truthy(c.state.refreshToken) then (false, c)
    else
      match server(RefreshRequest(c.state.refreshToken.value))
      case Ok(data) =>
        (match TokenPair(data)
         case Some((access, refresh)) =>
           (true, Set(c.state.(accessToken := Some(access), refreshToken := Some(refresh))))
         case None => (false, Logout(c)))
      case _ => (false, Logout(c))
  }

  /** The two refresh helpers agree on everything but `isAuthenticated`,
      which only the store's sets. */
  lemma RefreshHelpersAgree(c: Client, server: Server)
    ensures Refresh(c, server).0 == SessionStore.Refresh(c, server).0
    ensures var (ok, c') := Refresh(c, server);
            var (_, d) := SessionStore.Refresh(c, server);
            if ok then c'.state == d.state.(isAuthenticated := c.state.isAuthenticated)
            else c' == d
  {
  }

  /** The default Authorization header of `getApiClient`: present exactly
      when a non-empty access token is stored. */
  function AuthHeader(s: Session): (h: Option<string>)
    ensures h.Some? <==> Truthy(s.accessToken)
    ensures h.Some? ==> h.value == Bearer(s.accessToken.value)
  {
    if Truthy(s.accessToken) then Some(Bearer(s.accessToken.value)) else None
  }

  /** The response interceptor's error handler, for `req` failing with
      `failure`. `retried` is the request's `_retry` flag. Gives what the call
      settles with, the store afterwards, and the requests it sent. */
  function OnError(c: Client, req: Request, retried: bool, failure: Response, server: Server)
    : (out: (Response, Client, seq<Request>))
    requires !failure.Ok?
    ensures failure != Status(401) || retried ==> out == (failure, c, [])
    ensures failure == Status(401) && !retried ==>
              var (ok, c') := Refresh(c, server);
              && out.1 == c'
              && (!ok ==> out.0 == failure && |out.2| <= 1)
              && (ok ==> out.2 == [RefreshRequest(c.state.refreshToken.value),
                                   req.(authorization := Some(Bearer(c'.state.accessToken.value)))]
                         && out.0 == server(out.2[1]))
  {
    if failure == Status(401) && !retried then
      var (ok, c') := Refresh(c, server);
      var sent := if Truthy(c.state.refreshToken) then [RefreshRequest(c.state.refreshToken.value)] else [];
      if ok then
        var again := req.(authorization := Some(Bearer(c'.state.accessToken.value)));
        (server(again), c', sent + [again])
      else (failure, c', sent)
    else (failure, c, [])
  }

  /** One call through a fresh `getApiClient()`: the request goes out with
      the stored token; a success settles the call; a failure goes through
      the interceptor with `_retry` not yet set. */
  function Call(c: Client, verb: Method, path: string, body: Option<Json>, server: Server)
    : (out: (Response, Client, seq<Request>))
    ensures |out.2| >= 1 && out.2[0] == Request(verb, BaseUrl + path, AuthHeader(c.state), body)
  {
    var req := Request(verb, BaseUrl + path, AuthHeader(c.state), body);
    match server(req)
    case Ok(data) => (Ok(data), c, [req])
    case failure =>
      var (r, c', sent) := OnError(c, req, false, failure, server);
      (r, c', [req] + sent)
  }

  /** At most one refresh and one retry per call: the request, then possibly
      the refresh, then possibly the request once more. */
  lemma AtMostOneRetry(c: Client, verb: Method, path: string, body: Option<Json>, server: Server)
    ensures var (_, _, sent) := Call(c, verb, path, body, server);
            var req := Request(verb, BaseUrl + path, AuthHeader(c.state), body);
            || sent == [req]
            || sent == [req, RefreshRequest(c.state.refreshToken.value)]
            || sent == [req, RefreshRequest(c.state.refreshToken.value),
                        req.(authorization := Some(Bearer(Call(c, verb, path, body, server).1.state.accessToken.value)))]
  {
    var req := Request(verb, BaseUrl + path, AuthHeader(c.state), body);
    var response := server(req);
    if !response.Ok? {
      var (r, c', sent) := OnError(c, req, false, response, server);
      if response == Status(401) && Truthy(c.state.refreshToken) {
        assert sent == [RefreshRequest(c.state.refreshToken.value)] ||
               sent == [RefreshRequest(c.state.refreshToken.value),
                        req.(authorization := Some(Bearer(c'.state.accessToken.value)))];
      } else {
        assert sent == [];
      }
    }
  }

  /** Only a 401 leads to a refresh; any other failure settles the call as
      it came, with the store untouched. */
  lemma OnlyUnauthorizedRefreshes(c: Client, verb: Method, path: string, body: Option<Json>, server: Server)
    requires server(Request(verb, BaseUrl + path, AuthHeader(c.state), body)) != Status(401)
    ensures var (r, c', sent) := Call(c, verb, path, body, server);
            && r == server(Request(verb, BaseUrl + path, AuthHeader(c.state), body))
            && c' == c && |sent| == 1
  {
  }

  /** When the refresh does not succeed, the call settles with the original
      401; the store is logged out unless there was no refresh token. */
  lemma FailedRefreshKeepsOriginalError(c: Client, verb: Method, path: string, body: Option<Json>, server: Server)
    requires server(Request(verb, BaseUrl + path, AuthHeader(c.state), body)) == Status(401)
    requires !Refresh(c, server).0
    ensures var (r, c', _) := Call(c, verb, path, body, server);
            && r == Status(401)
            && c' == (if Truthy(c.state.refreshToken) then Logout(c) else c)
  {
  }

  /** After a successful refresh the retry carries the new access token, and
      its answer, whatever it is, settles the call: a second 401 is not
      refreshed again. */
  lemma RetryUsesNewToken(c: Client, verb: Method, path: string, body: Option<Json>, server: Server)
    requires server(Request(verb, BaseUrl + path, AuthHeader(c.state), body)) == Status(401)
    requires Refresh(c, server).0
    ensures var (r, c', sent) := Call(c, verb, path, body, server);
            var retry := Request(verb, BaseUrl + path,
                                 Some(Bearer(TokenPair(server(RefreshRequest(c.state.refreshToken.value)).data).value.0)),
                                 body);
            && |sent| == 3 && sent[2] == retry
            && r == server(retry)
            && c' == Refresh(c, server).1
  {
  }

  /** A request already marked `_retry` is never refreshed again. */
  lemma RetriedRequestIsSettled(c: Client, req: Request, failure: Response, server: Server)
    requires !failure.Ok?
    ensures OnError(c, req, true, failure, server) == (failure, c, [])
  {
  }
}

=== FILE: auth_routes.dfy ===
/** The token endpoints of the backend (backend/src/auth/auth.routes.ts).
    A handler takes the request body, the user store, the signing secrets and
    the clock, and gives the reply or the error it throws; sign-up also gives
    the store afterwards. Every `Date.now()` the handler makes is a reading
    of its own. */
module AuthRoutes {
  import opened Wrappers
  import opened Text
  import opened Json
  import opened Errors
  import opened UserService
  import TokenCodec
  import Jwt
  import Email

  const MissingField: string := "Required"

  /** The JSON replies: `{accessToken, refreshToken}`, `{status: "ok"}` and
      `{status: "error", message: "User not found"}`. */
  datatype Reply = Tokens(accessToken: string, refreshToken: string) | StatusOk | UserNotFound

  /** The clock readings of issuing a pair: the one inside
      `generateAccessToken`, then the one inside `generateRefreshToken`. */
  datatype IssueTimes = IssueTimes(accessMs: nat, refreshMs: nat)

  /** `reply` carries an access token issued to `id` at `at.accessMs` and a
      refresh token issued to `id` at `at.refreshMs`, each under its own
      secret. */
  ghost predicate PairFor(reply: Reply, id: string, env: Jwt.Env, at: IssueTimes) {
    && reply.Tokens?
    && (var a := TokenCodec.Decode(reply.accessToken, env.jwtSecret, at.accessMs);
        a.Success? && Jwt.IssuedClaims(a.value, id, at.accessMs, Jwt.AccessTokenExpiry))
    && (var r := TokenCodec.Decode(reply.refreshToken, env.refreshSecret, at.refreshMs);
        r.Success? && Jwt.IssuedClaims(r.value, id, at.refreshMs, Jwt.RefreshTokenExpiry))
  }

  /** `authRequestSchema.parse(json)`: the canonical email and the password. */
  function ParseAuthRequest(body: Json): (r: Result<(string, string), Error>)
    ensures r.Success? <==>
              && StrField(body, "email").Some?
              && Email.ParseEmail(StrField(body, "email").value).Success?
              && StrField(body, "password").Some?
    ensures r.Success? ==>
              && r.value.0 == Email.ParseEmail(StrField(body, "email").value).value
              && r.value.1 == StrField(body, "password").value
    ensures r.Success? ==>
              && Email.EmailShape(StrField(body, "email").value)
              && r.value.0 == Email.Normalise(StrField(body, "email").value)
    ensures r.Failure? ==> r.error.Invalid?
  {
    match StrField(body, "email")
    case None => Failure(Invalid(MissingField))
    case Some(raw) =>
      match Email.ParseEmail(raw)
      case Failure(e) => Failure(e)
      case Success(email) =>
        match StrField(body, "password")
        case None => Failure(Invalid(MissingField))
        case Some(password) => Success((email, password))
  }

  /** `generateAccessToken(user)` then `generateRefreshToken(user)`: both
      tokens or the first error. */
  function IssuePair(id: string, env: Jwt.Env, at: IssueTimes): (r: Result<Reply, Error>)
    ensures r.Failure? <==> env.jwtSecret == "" || env.refreshSecret == ""
    ensures r.Success? ==> PairFor(r.value, id, env, at)
  {
    match Jwt.GenerateAccessToken(id, env, at.accessMs)
    case Failure(e) => Failure(e)
    case Success(a) =>
      match Jwt.GenerateRefreshToken(id, env, at.refreshMs)
      case Failure(e) => Failure(e)
      case Success(t) => Success(Tokens(a, t))
  }

  /** POST /sign-up: the reply and the store afterwards. A valid body with
      an unused canonical email stores the user and answers with a pair for
      its new id (an error only when a secret is empty); a taken email is the
      400 with the store unchanged. */
  function SignUp(body: Json, s: Store, env: Jwt.Env, at: IssueTimes, salt: string)
    : (out: (Result<Reply, Error>, Store))
    ensures out.0.Success? ==>
              && ParseAuthRequest(body).Success?
              && var email := ParseAuthRequest(body).value.0;
                 && FindByEmail(s.docs, email).None?
                 && FindByEmail(out.1.docs, email).Some?
                 && PairFor(out.0.value, NatText(s.nextId), env, at)
    ensures ParseAuthRequest(body).Failure? ==> out == (Failure(ParseAuthRequest(body).error), s)
    ensures ParseAuthRequest(body).Success? ==>
              var (email, password) := ParseAuthRequest(body).value;
              && (FindByEmail(s.docs, email).Some? ==> out == (Failure(BadRequest), s))
              && (FindByEmail(s.docs, email).None? ==>
                    && out.0 == IssuePair(NatText(s.nextId), env, at)
                    && out.1 == CreateUser(s, email, password, salt).1)
  {
    match ParseAuthRequest(body)
    case Failure(e) => (Failure(e), s)
    case Success((email, password)) =>
      var (u, s') := CreateUser(s, email, password, salt);
      match u
      case Failure(e) =>
        (Failure(e), s')
      case Success(user) =>
        assert FindByEmail(s.docs, email).None?;
        ParseNatOnlyText(user.id, s.nextId);
        FindByEmailAppend(s.docs, s'.docs[|s.docs|], email);
        assert s'.docs == s.docs + [s'.docs[|s.docs|]];
        (IssuePair(user.id, env, at), s')
  }

  /** POST /sign-in: a pair for the stored user whose digest the password
      matches; the comparison's error otherwise. */
  function SignIn(body: Json, s: Store, env: Jwt.Env, at: IssueTimes): (r: Result<Reply, Error>)
    ensures r.Success? ==>
              && ParseAuthRequest(body).Success?
              && var (email, password) := ParseAuthRequest(body).value;
                 && FindByEmail(s.docs, email).Some?
                 && var doc := FindByEmail(s.docs, email).value;
                    && Accounts.Matches(password, doc.password)
                    && PairFor(r.value, NatText(doc.id), env, at)
    ensures ParseAuthRequest(body).Failure? ==> r == Failure(ParseAuthRequest(body).error)
    ensures ParseAuthRequest(body).Success? ==>
              var (email, password) := ParseAuthRequest(body).value;
              && (ComparePassword(s, email, password).Failure? ==>
                    r == Failure(ComparePassword(s, email, password).error))
              && (ComparePassword(s, email, password).Success? ==>
                    r == IssuePair(NatText(FindByEmail(s.docs, email).value.id), env, at))
  {
    match ParseAuthRequest(body)
    case Failure(e) => Failure(e)
    case Success((email, password)) =>
      match ComparePassword(s, email, password)
      case Failure(e) => Failure(e)
      case Success(user) =>
        ParseNatOnlyText(user.id, FindByEmail(s.docs, email).value.id);
        IssuePair(user.id, env, at)
  }

  /** `decodeRefreshToken(refreshToken).id` inside the body's transform. A
      payload without a string `id` gives `new ObjectId(undefined)`, a fresh
      id that matches no user; it is `None` here. */
  function RefreshSubject(body: Json, env: Jwt.Env, nowMs: nat): (r: Result<Option<string>, Error>)
    ensures r.Success? ==>
              StrField(body, "refreshToken").Some?
              && var d := Jwt.DecodeRefreshToken(StrField(body, "refreshToken").value, env, nowMs);
                 d.Success? && r.value == StrField(d.value, "id")
  {
    match StrField(body, "refreshToken")
    case None => Failure(Invalid(MissingField))
    case Some(token) =>
      match Jwt.DecodeRefreshToken(token, env, nowMs)
      case Failure(e) => Failure(e)
      case Success(p) => Success(StrField(p, "id"))
  }

  /** POST /token-refresh as written: the lookup throws for an absent user,
      so its `if (!user)` reply is never given. */
  function TokenRefresh(body: Json, s: Store, env: Jwt.Env, nowMs: nat, at: IssueTimes)
    : (r: Result<Reply, Error>)
    ensures r.Success? ==> r.value.Tokens?
    ensures r.Success? ==>
              && RefreshSubject(body, env, nowMs).Success?
              && RefreshSubject(body, env, nowMs).value.Some?
              && PairFor(r.value, RefreshSubject(body, env, nowMs).value.value, env, at)
  {
    match RefreshSubject(body, env, nowMs)
    case Failure(e) => Failure(e)
    case Success(None) => Failure(Invalid(NullUser))
    case Success(Some(id)) =>
      match GetUserById(s, id)
      case Failure(e) => Failure(e)
      case Success(user) =>
        ParseNatOnlyText(id, FindById(s.docs, ParseNat(id).value).value.id);
        IssuePair(user.id, env, at)
  }

  /** POST /token-refresh as evidently intended: an id that names no user
      is answered with "User not found". */
  function TokenRefreshChecked(body: Json, s: Store, env: Jwt.Env, nowMs: nat, at: IssueTimes)
    : (r: Result<Reply, Error>)
    ensures r.Success? ==> r.value.Tokens? || r.value == UserNotFound
    ensures r.Success? && r.value.Tokens? ==>
              && RefreshSubject(body, env, nowMs).Success?
              && RefreshSubject(body, env, nowMs).value.Some?
              && var id := RefreshSubject(body, env, nowMs).value.value;
                 && ParseNat(id).Some? && FindById(s.docs, ParseNat(id).value).Some?
                 && PairFor(r.value, id, env, at)
    ensures RefreshSubject(body, env, nowMs).Failure? ==> r == Failure(RefreshSubject(body, env, nowMs).error)
    ensures RefreshSubject(body, env, nowMs) == Success(None) ==> r == Success(UserNotFound)
    ensures RefreshSubject(body, env, nowMs).Success? && RefreshSubject(body, env, nowMs).value.Some? ==>
              var id := RefreshSubject(body, env, nowMs).value.value;
              && (ParseNat(id).None? ==> r == Failure(Thrown(InvalidObjectId)))
              && (ParseNat(id).Some? && FindById(s.docs, ParseNat(id).value).None? ==>
                    r == Success(UserNotFound))
              && (ParseNat(id).Some? && FindById(s.docs, ParseNat(id).value).Some? ==>
                    r == TokenRefresh(body, s, env, nowMs, at))
  {
    match RefreshSubject(body, env, nowMs)
    case Failure(e) => Failure(e)
    case Success(None) => Success(UserNotFound)
    case Success(Some(id)) =>
      match ParseNat(id)
      case None => Failure(Thrown(InvalidObjectId))
      case Some(n) =>
        match FindById(s.docs, n)
        case None => Success(UserNotFound)
        case Some(_) =>
          match GetUserById(s, id)
          case Failure(e) => Failure(e)
          case Success(user) =>
            ParseNatOnlyText(id, n);
            IssuePair(user.id, env, at)
  }

  /** POST /forgot-password as written: the raw email, not canonicalised, and
      a lookup that throws for an absent user. */
  function ForgotPassword(body: Json, s: Store): (r: Result<Reply, Error>)
    ensures r.Success? ==> r.value == StatusOk
    ensures r.Success? <==>
              StrField(body, "email").Some? && GetUserByEmail(s, StrField(body, "email").value).Success?
  {
    match StrField(body, "email")
    case None => Failure(Invalid(MissingField))
    case Some(email) =>
      match GetUserByEmail(s, email)
      case Failure(e) => Failure(e)
      case Success(_) => Success(StatusOk)
  }

  /** POST /forgot-password as evidently intended: an unknown email is
      answered with "User not found". */
  function ForgotPasswordChecked(body: Json, s: Store): (r: Result<Reply, Error>)
    ensures StrField(body, "email").None? ==> r == Failure(Invalid(MissingField))
    ensures StrField(body, "email").Some? ==>
              var email := StrField(body, "email").value;
              FindByEmail(s.docs, email).None? ==> r == Success(UserNotFound)
    ensures r == Success(StatusOk) ==>
              StrField(body, "email").Some? && FindByEmail(s.docs, StrField(body, "email").value).Some?
  {
    match StrField(body, "email")
    case None => Failure(Invalid(MissingField))
    case Some(email) =>
      match FindByEmail(s.docs, email)
      case None => Success(UserNotFound)
      case Some(_) =>
        match GetUserByEmail(s, email)
        case Failure(e) => Failure(e)
        case Success(_) => Success(StatusOk)
  }

  /** The "User not found" reply of the forgot-password handler is dead
      code: no body and no store produce it. */
  lemma ForgotPasswordNeverNotFound(body: Json, s: Store)
    ensures ForgotPassword(body, s) != Success(UserNotFound)
  {
  }

  /** The input that shows it: an unknown address on an empty store. The
      handler throws the read schema's error instead of replying, while the
      corrected one replies "User not found". */
  lemma ForgotPasswordUnknownEmail()
    ensures var body := JObj([Member("email", JStr("a@b.co"))]);
            && ForgotPassword(body, Store([], 0)) == Failure(Invalid(NullUser))
            && ForgotPasswordChecked(body, Store([], 0)) == Success(UserNotFound)
  {
    var body := JObj([Member("email", JStr("a@b.co"))]);
    assert Get(body.members, "email") == Some(JStr("a@b.co"));
  }

  /** The "User not found" reply of the token-refresh handler is dead code
      too. */
  lemma TokenRefreshNeverNotFound(body: Json, s: Store, env: Jwt.Env, nowMs: nat, at: IssueTimes)
    ensures TokenRefresh(body, s, env, nowMs, at) != Success(UserNotFound)
  {
  }

  /** A valid refresh token whose user has gone: the handler throws, the
      corrected one replies "User not found". */
  lemma TokenRefreshUnknownUser(id: nat, env: Jwt.Env, nowMs: nat, at: IssueTimes)
    requires env.refreshSecret != ""
    ensures var t := Jwt.GenerateRefreshToken(NatText(id), env, nowMs).value;
            var body := JObj([Member("refreshToken", JStr(t))]);
            && TokenRefresh(body, Store([], 0), env, nowMs, at) == Failure(Invalid(NullUser))
            && TokenRefreshChecked(body, Store([], 0), env, nowMs, at) == Success(UserNotFound)
  {
    var t := Jwt.GenerateRefreshToken(NatText(id), env, nowMs).value;
    var body := JObj([Member("refreshToken", JStr(t))]);
    assert Get(body.members, "refreshToken") == Some(JStr(t));
    Jwt.RefreshTokenRoundTrip(NatText(id), env, nowMs, nowMs);
    ParseNatText(id);
  }

  /** The corrected handler differs from the one as written only where that
      one throws for an absent user: every reply the written handler gives,
      the corrected one gives too. */
  lemma ForgotPasswordCheckedAgrees(body: Json, s: Store)
    requires ForgotPassword(body, s).Success? || FindByEmail(s.docs, StrField(body, "email").GetOr("")).Some?
    ensures ForgotPasswordChecked(body, s) == ForgotPassword(body, s)
  {
  }

  /** The same for token-refresh: whenever the written handler replies, the
      refresh token is rejected, or the subject names a stored user, both
      handlers answer alike. */
  lemma TokenRefreshCheckedAgrees(body: Json, s: Store, env: Jwt.Env, nowMs: nat, at: IssueTimes)
    requires || TokenRefresh(body, s, env, nowMs, at).Success?
             || RefreshSubject(body, env, nowMs).Failure?
             || (&& RefreshSubject(body, env, nowMs).Success?
                 && RefreshSubject(body, env, nowMs).value.Some?
                 && var id := RefreshSubject(body, env, nowMs).value.value;
                    ParseNat(id).Some? && FindById(s.docs, ParseNat(id).value).Some?)
    ensures TokenRefreshChecked(body, s, env, nowMs, at) == TokenRefresh(body, s, env, nowMs, at)
  {
    if TokenRefresh(body, s, env, nowMs, at).Success? {
      var id := RefreshSubject(body, env, nowMs).value.value;
      assert ParseNat(id).Some? && FindById(s.docs, ParseNat(id).value).Some?;
    }
  }

  /** The forgot-password lookup skips the sign-up canonicalisation: after
      signing up with an address that has a capital letter, that same
      address is not found, even by the corrected handler. */
  lemma ForgotPasswordSkipsCanonicalisation(raw: string, password: string, s: Store,
                                            env: Jwt.Env, at: IssueTimes, salt: string)
    requires !NoUpper(raw) && FindByEmail(s.docs, raw).None?
    ensures var up := JObj([Member("email", JStr(raw)), Member("password", JStr(password))]);
            var s' := SignUp(up, s, env, at, salt).1;
            ForgotPasswordChecked(JObj([Member("email", JStr(raw))]), s') == Success(UserNotFound)
  {
    var up := JObj([Member("email", JStr(raw)), Member("password", JStr(password))]);
    assert Get(up.members, "password") == Some(JStr(password));
    assert up.members[..1] == [Member("email", JStr(raw))];
    assert Get(up.members, "email") == Some(JStr(raw));
    var found := JObj([Member("email", JStr(raw))]);
    assert Get(found.members, "email") == Some(JStr(raw));
    var s' := SignUp(up, s, env, at, salt).1;
    if ParseAuthRequest(up).Success? {
      var email := ParseAuthRequest(up).value.0;
      Email.NormalisedForm(raw);
      assert email != raw;
      if FindByEmail(s.docs, email).None? {
        var doc := s'.docs[|s.docs|];
        assert s'.docs == s.docs + [doc];
        FindByEmailAppend(s.docs, doc, raw);
      }
    }
  }

  /** The sign-up's store holds the new user under the canonical email and
      the counter's id, with an email the read schema accepts. */
  lemma SignUpStoresUser(body: Json, s: Store, env: Jwt.Env, at: IssueTimes, salt: string)
    requires Valid(s)
    requires SignUp(body, s, env, at, salt).0.Success?
    ensures var (email, password) := ParseAuthRequest(body).value;
            var s' := SignUp(body, s, env, at, salt).1;
            && Valid(s')
            && FindById(s'.docs, s.nextId) == FindByEmail(s'.docs, email)
            && FindByEmail(s'.docs, email).Some?
            && Email.EmailShape(email)
            && Accounts.Matches(password, FindByEmail(s'.docs, email).value.password)
            && FindByEmail(s'.docs, email).value.id == s.nextId
  {
    var (email, password) := ParseAuthRequest(body).value;
    var raw := StrField(body, "email").value;
    Email.NormalisedForm(raw);
    CreateUserKeepsValid(s, email, password, salt);
    var s' := CreateUser(s, email, password, salt).1;
    var doc := s'.docs[|s.docs|];
    assert s'.docs == s.docs + [doc];
    assert FindById(s.docs, s.nextId).None?;
    FindByIdAppend(s.docs, doc, s.nextId);
    FindByEmailAppend(s.docs, doc, email);
  }

  /** Signing in with the body that signed up gives a token pair for the
      same user. */
  lemma SignUpThenSignIn(body: Json, s: Store, env: Jwt.Env, at: IssueTimes, salt: string, later: IssueTimes)
    requires Valid(s)
    requires SignUp(body, s, env, at, salt).0.Success?
    ensures var s' := SignUp(body, s, env, at, salt).1;
            var r := SignIn(body, s', env, later);
            r.Success? && PairFor(r.value, NatText(s.nextId), env, later)
  {
    SignUpStoresUser(body, s, env, at, salt);
  }

  /** A refresh token issued to a stored user at `issuedMs`, presented at
      `atMs` before it expires, gets a fresh pair for that user. */
  lemma RefreshIssuedToken(t: string, s: Store, env: Jwt.Env, n: nat, issuedMs: nat, atMs: nat, at: IssueTimes)
    requires env.jwtSecret != "" && env.refreshSecret != ""
    requires var d := TokenCodec.Decode(t, env.refreshSecret, issuedMs);
             d.Success? && Jwt.IssuedClaims(d.value, NatText(n), issuedMs, Jwt.RefreshTokenExpiry)
    requires atMs <= Jwt.LastValidMs(issuedMs, Jwt.RefreshTokenExpiry)
    requires FindById(s.docs, n).Some? && Email.EmailShape(FindById(s.docs, n).value.email)
    ensures var r := TokenRefresh(JObj([Member("refreshToken", JStr(t))]), s, env, atMs, at);
            r.Success? && PairFor(r.value, NatText(n), env, at)
  {
    var key := env.refreshSecret;
    var p := TokenCodec.Decode(t, key, issuedMs).value;
    Jwt.IssuedTokenStaysValid(t, key, NatText(n), issuedMs, Jwt.RefreshTokenExpiry, atMs);
    assert Jwt.DecodeRefreshToken(t, env, atMs) == Success(p);
    var refresh := JObj([Member("refreshToken", JStr(t))]);
    assert Get(refresh.members, "refreshToken") == Some(JStr(t));
    assert RefreshSubject(refresh, env, atMs) == Success(Some(NatText(n)));
    ParseNatText(n);
    assert GetUserById(s, NatText(n)).Success?;
  }

  /** The refresh token a sign-up hands out, presented before it expires,
      gets a fresh pair for the same user. */
  lemma SignUpThenRefresh(body: Json, s: Store, env: Jwt.Env, at: IssueTimes, salt: string,
                          atMs: nat, again: IssueTimes)
    requires Valid(s)
    requires SignUp(body, s, env, at, salt).0.Success?
    requires atMs <= Jwt.LastValidMs(at.refreshMs, Jwt.RefreshTokenExpiry)
    ensures var (reply, s') := SignUp(body, s, env, at, salt);
            var r := TokenRefresh(JObj([Member("refreshToken", JStr(reply.value.refreshToken))]), s', env, atMs, again);
            r.Success? && PairFor(r.value, NatText(s.nextId), env, again)
  {
    var (reply, s') := SignUp(body, s, env, at, salt);
    SignUpStoresUser(body, s, env, at, salt);
    assert env.jwtSecret != "" && env.refreshSecret != "";
    RefreshIssuedToken(reply.value.refreshToken, s', env, s.nextId, at.refreshMs, atMs, again);
  }
}

=== FILE: codec.dfy ===
/** The signed-token codec the JWT modules call (`jwt.encode` and `jwt.decode`
    of the jwt-simple library, which is not part of this model). A token is
    `Header` followed by two frames: the serialised payload and its signature.
    The HMAC is idealised as a tag that determines both the key and the body,
    so a token verifies under exactly one key; secrecy is not modelled.
    Decoding performs the library's own checks in the library's order:
    presence, shape, payload syntax, signature, `nbf`, then `exp`, with the
    clock in milliseconds. The time checks read fields of the payload, which
    throws when the payload is `null`. */
module TokenCodec {
  import opened Wrappers
  import opened Text
  import opened Json
  import opened Frames
  import opened JsonWire
  import opened Errors

  /** Every token starts like a base64url-encoded JSON object, "eyJ". */
  const Header: string := "eyJ"

  const RequireKey: string := "Require key"
  const NoToken: string := "No token supplied"
  const BadSegments: string := "Not enough or too many segments"
  const BadJson: string := "Unexpected token in JSON"
  const BadSignature: string := "Signature verification failed"
  const NotYetActive: string := "Token not yet active"
  const Expired: string := "Token expired"
  /** The TypeError of reading `payload.nbf` when the payload is `null`. */
  const NullPayload: string := "Cannot read properties of null " + "(reading 'nbf')"

  /** The idealised HMAC-SHA256 of `body` under `key`. */
  function Tag(key: string, body: string): string {
    "HS256." + EncodeFrames([key, body])
  }

  /** `jwt.encode(payload, key)`: refuses an empty key. */
  function Encode(payload: Json, key: string): (r: Result<string, Error>)
    ensures r.Failure? <==> key == ""
    ensures r.Failure? ==> r.error == Thrown(RequireKey)
    ensures r.Success? ==> StartsWith(r.value, Header)
  {
    if key == "" then Failure(Thrown(RequireKey))
    else
      var body := Serialize(payload);
      Success(Header + EncodeFrames([body, Tag(key, body)]))
  }

  /** The payload's `nbf` lies in the future (a zero `nbf` is never checked). */
  predicate BeforeNotBefore(payload: Json, nowMs: nat) {
    match NumField(payload, "nbf")
    case Some(nbf) => nbf != 0 && nowMs < nbf * 1000
    case None => false
  }

  /** The payload's `exp` lies in the past (a zero `exp` is never checked). */
  predicate PastExpiry(payload: Json, nowMs: nat) {
    match NumField(payload, "exp")
    case Some(exp) => exp != 0 && nowMs > exp * 1000
    case None => false
  }

  /** The two frames of a well-shaped token: payload text and signature. */
  function Segments(token: string): Option<(string, string)> {
    if !StartsWith(token, Header) then None
    else
      match DecodeFrames(token[|Header|..])
      case Some(segs) => if |segs| == 2 then Some((segs[0], segs[1])) else None
      case None => None
  }

  /** What decoding a well-formed token signed with `key` yields at `nowMs`:
      the payload, unless it is `null`, not yet active or expired. */
  function Verdict(payload: Json, nowMs: nat): (r: Result<Json, Error>)
    ensures r.Success? <==>
              payload != JNull && !BeforeNotBefore(payload, nowMs) && !PastExpiry(payload, nowMs)
    ensures r.Success? ==> r.value == payload
    ensures r.Failure? ==> r.error in {Thrown(NullPayload), Thrown(NotYetActive), Thrown(Expired)}
  {
    if payload == JNull then Failure(Thrown(NullPayload))
    else if BeforeNotBefore(payload, nowMs) then Failure(Thrown(NotYetActive))
    else if PastExpiry(payload, nowMs) then Failure(Thrown(Expired))
    else Success(payload)
  }

  /** `jwt.decode(token, key)` at time `nowMs`: the shape and signature
      checks, then the payload's own verdict. */
  function Decode(token: string, key: string, nowMs: nat): (r: Result<Json, Error>)
    ensures token == "" ==> r == Failure(Thrown(NoToken))
    ensures token != "" && Segments(token).None? ==> r == Failure(Thrown(BadSegments))
    ensures r.Failure? ==> r.error.Thrown?
    ensures r.Failure? ==>
              r.error.message in {NoToken, BadSegments, BadJson, BadSignature, NullPayload, NotYetActive, Expired}
    ensures r.Success? ==>
              && Segments(token).Some?
              && Deserialize(Segments(token).value.0) == Some(r.value)
              && Segments(token).value.1 == Tag(key, Segments(token).value.0)
              && Verdict(r.value, nowMs) == r
    ensures token != "" && Segments(token).Some?
            && Deserialize(Segments(token).value.0).Some?
            && Segments(token).value.1 == Tag(key, Segments(token).value.0) ==>
              r == Verdict(Deserialize(Segments(token).value.0).value, nowMs)
  {
    if token == "" then Failure(Thrown(NoToken))
    else
      match Segments(token)
      case None => Failure(Thrown(BadSegments))
      case Some((body, signature)) =>
        match Deserialize(body)
        case None => Failure(Thrown(BadJson))
        case Some(payload) =>
          if signature != Tag(key, body) then Failure(Thrown(BadSignature))
          else Verdict(payload, nowMs)
  }

  lemma SegmentsOfEncode(payload: Json, key: string)
    requires key != ""
    ensures Segments(Encode(payload, key).value)
         == Some((Serialize(payload), Tag(key, Serialize(payload))))
  {
    var body := Serialize(payload);
    var t := Encode(payload, key).value;
    assert t[|Header|..] == EncodeFrames([body, Tag(key, body)]);
    DecodeEncodeFrames([body, Tag(key, body)]);
  }

  /** Round trip: a token decodes, under the key that signed it, to the payload
      it was made from, subject only to the payload's own verdict: a `null`
      payload never comes back, and others only inside their time window. */
  lemma DecodeEncode(payload: Json, key: string, nowMs: nat)
    requires key != ""
    ensures Decode(Encode(payload, key).value, key, nowMs) == Verdict(payload, nowMs)
  {
    SegmentsOfEncode(payload, key);
    DeserializeSerialize(payload);
  }

  /** A correctly signed `null` payload is never returned: the library
      throws on its first field access. */
  lemma NullPayloadNeverDecodes(key: string, nowMs: nat)
    requires key != ""
    ensures Decode(Encode(JNull, key).value, key, nowMs) == Failure(Thrown(NullPayload))
  {
    DecodeEncode(JNull, key, nowMs);
  }

  lemma TagDeterminesKey(k1: string, k2: string, body: string)
    requires k1 != k2
    ensures Tag(k1, body) != Tag(k2, body)
  {
    if Tag(k1, body) == Tag(k2, body) {
      var a := EncodeFrames([k1, body]);
      var b := EncodeFrames([k2, body]);
      assert Tag(k1, body)[6..] == a && Tag(k2, body)[6..] == b;
      EncodeFramesInjective([k1, body], [k2, body]);
    }
  }

  /** A token signed with one key never decodes under another: the signature
      check fails before any time check is made. */
  lemma DecodeUnderOtherKey(payload: Json, key: string, other: string, nowMs: nat)
    requires key != "" && other != key
    ensures Decode(Encode(payload, key).value, other, nowMs) == Failure(Thrown(BadSignature))
  {
    SegmentsOfEncode(payload, key);
    DeserializeSerialize(payload);
    TagDeterminesKey(key, other, Serialize(payload));
  }

  /** A well-shaped token is exactly the header and the encoding of its two
      frames. */
  lemma SegmentsInverse(token: string, body: string, signature: string)
    requires Segments(token) == Some((body, signature))
    ensures token == Header + EncodeFrames([body, signature])
  {
    var segs := DecodeFrames(token[|Header|..]).value;
    EncodeDecodeFrames(token[|Header|..], segs);
    assert segs == [body, signature];
    assert token == Header + token[|Header|..];
  }

  /** Decoding succeeds under a key only for the token that Encode made from
      the returned payload with that key, and only inside its time window. */
  lemma DecodeSound(token: string, key: string, nowMs: nat, payload: Json)
    requires key != ""
    requires Decode(token, key, nowMs) == Success(payload)
    ensures Encode(payload, key) == Success(token)
    ensures payload != JNull && !PastExpiry(payload, nowMs) && !BeforeNotBefore(payload, nowMs)
  {
    var (body, signature) := Segments(token).value;
    assert Deserialize(body) == Some(payload);
    assert signature == Tag(key, body);
    SerializeDeserialize(body, payload);
    SegmentsInverse(token, body, signature);
  }

  /** `DecodeSound` for any key and outcome, for use inside functions. */
  lemma DecodeOnlyIssued(token: string, key: string, nowMs: nat)
    ensures var d := Decode(token, key, nowMs);
            key != "" && d.Success? ==>
              Encode(d.value, key) == Success(token) && d.value != JNull && !PastExpiry(d.value, nowMs)
  {
    var d := Decode(token, key, nowMs);
    if key != "" && d.Success? {
      DecodeSound(token, key, nowMs, d.value);
    }
  }
}

=== FILE: email.dfy ===
/** The email field of the sign-up and sign-in request
    (`authRequestSchema` in backend/src/auth/auth.routes.ts): a string that
    looks like an address and holds no '"', canonicalised by lowercasing it
    and deleting every '.' before the '@'. */
module Email {
  import opened Wrappers
  import opened Text
  import opened Errors

  const InvalidEmail: string := "Invalid email"
  const QuotedEmail: string := "Invalid input"

  /** The part before the '@'. */
  function Local(s: string): string {
    Before(s, '@')
  }

  /** The part after the first '@'. */
  function Domain(s: string): string {
    After(s, '@')
  }

  /** The address check of `z.string().email()`, approximated: ASCII text
      (the pattern's character classes are all ASCII), exactly one '@', a
      local part that neither starts nor ends with '.', and a non-empty
      domain. */
  predicate EmailShape(s: string) {
    && IsAscii(s)
    && '@' in s
    && '@' !in Domain(s)
    && |Local(s)| > 0
    && Local(s)[0] != '.'
    && Local(s)[|Local(s)| - 1] != '.'
    && |Domain(s)| > 0
  }

  /** The schema's transform: `email.toLowerCase().split("@")` into name and
      domain, every '.' removed from the name, and the two joined again. */
  function Normalise(s: string): (r: string)
    requires '@' in s
    ensures '@' in r && '@' !in Domain(r) && '.' !in Local(r)
    ensures Local(r) == RemoveAll(Local(ToLower(s)), '.')
    ensures Domain(r) == Before(Domain(ToLower(s)), '@')
  {
    var lower := ToLower(s);
    var name := Before(lower, '@');
    var domain := Before(After(lower, '@'), '@');
    SplitAtFirst(RemoveAll(name, '.'), '@', domain);
    RemoveAll(name, '.') + "@" + domain
  }

  /** The email field of `authRequestSchema.parse`: format check, then the
      quote refinement, then the transform. */
  function ParseEmail(s: string): (r: Result<string, Error>)
    ensures r.Failure? <==> !EmailShape(s) || '"' in s
    ensures r.Failure? ==> r.error.Invalid?
    ensures r.Success? ==> EmailShape(r.value) && NoUpper(r.value) && '"' !in r.value
    ensures r.Success? ==> EmailShape(s) && r.value == Normalise(s)
  {
    if !EmailShape(s) then Failure(Invalid(InvalidEmail))
    else if '"' in s then Failure(Invalid(QuotedEmail))
    else
      NormalisedForm(s);
      Success(Normalise(s))
  }

  /** Lowercasing leaves the '@' where it was. */
  lemma ToLowerSplit(s: string)
    requires '@' in s
    ensures '@' in ToLower(s)
    ensures Local(ToLower(s)) == ToLower(Local(s))
    ensures Domain(ToLower(s)) == ToLower(Domain(s))
  {
    var a, b := Local(s), Domain(s);
    assert s == a + ['@'] + b;
    ToLowerConcat(a + ['@'], b);
    ToLowerConcat(a, ['@']);
    assert ToLower(['@']) == ['@'];
    assert ToLower(s) == ToLower(a) + ['@'] + ToLower(b);
    ToLowerKeeps(a, '@');
    SplitAtFirst(ToLower(a), '@', ToLower(b));
  }

  /** The canonical address is the lowercased local part without dots, an
      '@', and the lowercased domain. */
  lemma NormaliseParts(s: string)
    requires EmailShape(s)
    ensures Normalise(s) == RemoveAll(ToLower(Local(s)), '.') + "@" + ToLower(Domain(s))
  {
    ToLowerSplit(s);
    ToLowerKeeps(Domain(s), '@');
    BeforeAbsent(ToLower(Domain(s)), '@');
  }

  /** Joining a name and a domain, neither with an '@', at an '@'. */
  lemma JoinSplit(name: string, dom: string)
    requires '@' !in name && '@' !in dom
    ensures '@' in name + "@" + dom
    ensures Local(name + "@" + dom) == name && Domain(name + "@" + dom) == dom
  {
    SplitAtFirst(name, '@', dom);
  }

  /** The canonical local part is never empty: the original one starts with
      a character other than '.', which survives. */
  lemma CanonicalLocalNonEmpty(s: string)
    requires EmailShape(s)
    ensures |RemoveAll(ToLower(Local(s)), '.')| > 0
  {
    var l := ToLower(Local(s));
    assert l[0] == LowerChar(Local(s)[0]) && l[0] in l;
    assert l[0] != '.';
    assert l[0] in RemoveAll(l, '.');
  }

  /** Canonicalising an ASCII address gives ASCII text. */
  lemma NormalisedAscii(s: string)
    requires EmailShape(s)
    ensures IsAscii(Normalise(s))
  {
    var a, b := Local(s), Domain(s);
    assert s == a + ['@'] + b;
    AsciiConcat(a + ['@'], b);
    AsciiConcat(a, ['@']);
    NormaliseParts(s);
    ToLowerAscii(a);
    RemoveAllAscii(ToLower(a), '.');
    ToLowerAscii(b);
    AsciiConcat(RemoveAll(ToLower(a), '.'), "@");
    AsciiConcat(RemoveAll(ToLower(a), '.') + "@", ToLower(b));
  }

  /** The canonical address is shaped like an address, with the canonical
      local part and the lowercased domain either side of its '@'. */
  lemma NormalisedShape(s: string)
    requires EmailShape(s)
    ensures var r := Normalise(s);
            && EmailShape(r)
            && Local(r) == RemoveAll(ToLower(Local(s)), '.')
            && Domain(r) == ToLower(Domain(s))
  {
    var r := Normalise(s);
    ToLowerSplit(s);
    assert Local(r) == RemoveAll(ToLower(Local(s)), '.');
    ToLowerKeeps(Domain(s), '@');
    BeforeAbsent(ToLower(Domain(s)), '@');
    assert Domain(r) == ToLower(Domain(s));
    CanonicalLocalNonEmpty(s);
    NormalisedAscii(s);
    var name := Local(r);
    assert name[0] in name && name[|name| - 1] in name;
  }

  /** The canonical address has no capital letter. */
  lemma NormalisedNoUpper(s: string)
    requires EmailShape(s)
    ensures NoUpper(Normalise(s))
  {
    var lower := ToLower(Local(s));
    NormaliseParts(s);
    ToLowerNoUpper(Local(s));
    RemoveAllLower(lower, '.');
    ToLowerNoUpper(Domain(s));
    NoUpperJoin(RemoveAll(lower, '.'), '@', ToLower(Domain(s)));
  }

  /** Canonicalising brings in no '"' that was not there. */
  lemma NormalisedNoNewQuote(s: string)
    requires EmailShape(s)
    ensures '"' in Normalise(s) ==> '"' in s
  {
    var r := Normalise(s);
    NormalisedShape(s);
    assert r == Local(r) + ['@'] + Domain(r);
    assert s == Local(s) + ['@'] + Domain(s);
    ToLowerKeeps(Local(s), '"');
    ToLowerKeeps(Domain(s), '"');
  }

  /** What canonicalisation keeps: no capital letters anywhere, no '.' left
      in the local part, and the domain as it was apart from case. */
  lemma NormalisedForm(s: string)
    requires EmailShape(s)
    ensures var r := Normalise(s);
            && EmailShape(r)
            && NoUpper(r)
            && '.' !in Local(r)
            && Local(r) == RemoveAll(ToLower(Local(s)), '.')
            && Domain(r) == ToLower(Domain(s))
            && ('"' in r ==> '"' in s)
  {
    NormalisedShape(s);
    NormalisedNoUpper(s);
    NormalisedNoNewQuote(s);
  }

  /** Canonicalising twice is canonicalising once. */
  lemma NormaliseIdempotent(s: string)
    requires EmailShape(s)
    ensures Normalise(Normalise(s)) == Normalise(s)
  {
    var r := Normalise(s);
    NormalisedForm(s);
    NormaliseParts(r);
    assert r == Local(r) + "@" + Domain(r);
    NoUpperConcat(Local(r) + "@", Domain(r));
    NoUpperConcat(Local(r), "@");
    ToLowerFixes(Local(r));
    ToLowerFixes(Domain(r));
    RemoveAllAbsent(Local(r), '.');
  }

  /** The schema accepts its own output and maps it to itself, so parsing an
      already canonical address changes nothing. */
  lemma ParseEmailIdempotent(s: string)
    requires ParseEmail(s).Success?
    ensures ParseEmail(ParseEmail(s).value) == ParseEmail(s)
  {
    NormalisedForm(s);
    NormaliseIdempotent(s);
  }

  /** Two addresses that differ only in letter case or in dots before the
      '@' canonicalise to the same account key. */
  lemma DotsAndCaseIgnored(a: string, b: string)
    requires EmailShape(a) && EmailShape(b)
    requires RemoveAll(ToLower(Local(a)), '.') == RemoveAll(ToLower(Local(b)), '.')
    requires ToLower(Domain(a)) == ToLower(Domain(b))
    ensures Normalise(a) == Normalise(b)
  {
    NormaliseParts(a);
    NormaliseParts(b);
  }
}

=== FILE: food_entries.dfy ===
/** The food-entry collection of the backend
    (backend/src/db/FoodEntryService.ts): entries are validated against the
    base schema, stored with their owner and creation time, and read back
    with their ObjectIds as text. As in the user store, an ObjectId is a
    number whose text is its canonical decimal form, and fresh ids come from
    a counter. Times are milliseconds since the epoch. */
module FoodEntryService {
  import opened Wrappers
  import opened Text
  import opened Json
  import opened Errors

  const InvalidUserId: string := "Invalid user ID format"
  const InvalidFood: string := "Invalid food entry"

  /** Milliseconds in a day; a day's window is its first millisecond up to
      and including its last. */
  const DayMs: int := 24 * 60 * 60 * 1000

  datatype Ingredient = Ingredient(name: string, calories: int, percentage: int)

  /** What `foodEntryBaseSchema` accepts. */
  datatype FoodBase = FoodBase(name: string, calories: int, ingredients: seq<Ingredient>,
                               imageUrl: Option<string>)

  /** A stored document: `_id`, owner `userId`, the validated fields, and
      `createdAt`. */
  datatype EntryDoc = EntryDoc(id: nat, userId: nat, base: FoodBase, createdAt: int)

  datatype Store = Store(docs: seq<EntryDoc>, nextId: nat)

  /** What `foodEntryReadSchema` gives: both ObjectIds as strings, every
      other field as stored. */
  datatype FoodEntryRead = FoodEntryRead(id: string, userId: string, base: FoodBase, createdAt: int)

  // ---------------------------------------------------------------------------
  // Validation
  // ---------------------------------------------------------------------------

  function ParseIngredient(j: Json): (r: Option<Ingredient>)
    ensures r.Some? ==>
              && StrField(j, "name") == Some(r.value.name)
              && NumField(j, "calories") == Some(r.value.calories)
              && NumField(j, "percentage") == Some(r.value.percentage)
  {
    match (StrField(j, "name"), NumField(j, "calories"), NumField(j, "percentage"))
    case (Some(n), Some(c), Some(p)) => Some(Ingredient(n, c, p))
    case _ => None
  }

  function ParseIngredients(items: seq<Json>): (r: Option<seq<Ingredient>>)
    ensures r.Some? ==> |r.value| == |items|
    ensures r.Some? ==> forall i :: 0 <= i < |items| ==> ParseIngredient(items[i]) == Some(r.value[i])
    ensures r.None? ==> exists i :: 0 <= i < |items| && ParseIngredient(items[i]).None?
  {
    if |items| == 0 then Some([])
    else
      match (ParseIngredient(items[0]), ParseIngredients(items[1..]))
      case (Some(x), Some(xs)) =>
        assert forall i :: 1 <= i < |items| ==> items[i] == items[1..][i - 1];
        Some([x] + xs)
      case (None, _) => None
      case (_, None) =>
        assert forall i :: 0 <= i < |items| - 1 ==> items[1..][i] == items[i + 1];
        None
  }

  /** `imageUrl: z.string().optional()`: absent, or a string. */
  function ParseImageUrl(j: Json): (r: Option<Option<string>>)
    ensures r == Some(None) <==> Field(j, "imageUrl").None?
    ensures forall u :: r == Some(Some(u)) <==> Field(j, "imageUrl") == Some(JStr(u))
  {
    match Field(j, "imageUrl")
    case None => Some(None)
    case Some(JStr(u)) => Some(Some(u))
    case Some(_) => None
  }

  /** `foodEntryBaseSchema.parse(data)`; unknown keys are dropped. */
  function ParseFoodBase(j: Json): (r: Result<FoodBase, Error>)
    ensures r.Failure? ==> r.error == Invalid(InvalidFood)
    ensures r.Success? ==>
              && StrField(j, "name") == Some(r.value.name)
              && NumField(j, "calories") == Some(r.value.calories)
              && Field(j, "ingredients").Some? && Field(j, "ingredients").value.JArr?
              && ParseIngredients(Field(j, "ingredients").value.items) == Some(r.value.ingredients)
              && ParseImageUrl(j) == Some(r.value.imageUrl)
  {
    var name := StrField(j, "name");
    var calories := NumField(j, "calories");
    var ingredients := Field(j, "ingredients");
    var url := ParseImageUrl(j);
    if name.None? || calories.None? || url.None? then Failure(Invalid(InvalidFood))
    else if ingredients.None? || !ingredients.value.JArr? then Failure(Invalid(InvalidFood))
    else
      match ParseIngredients(ingredients.value.items)
      case Some(ings) => Success(FoodBase(name.value, calories.value, ings, url.value))
      case None => Failure(Invalid(InvalidFood))
  }

  // ---------------------------------------------------------------------------
  // The JSON form of a validated entry, and the round trip
  // ---------------------------------------------------------------------------

  function IngredientJson(i: Ingredient): Json {
    JObj([Member("name", JStr(i.name)), Member("calories", JNum(i.calories)),
          Member("percentage", JNum(i.percentage))])
  }

  function FoodBaseJson(b: FoodBase): Json {
    var fields := [Member("name", JStr(b.name)), Member("calories", JNum(b.calories)),
                   Member("ingredients", JArr(seq(|b.ingredients|, i requires 0 <= i < |b.ingredients| =>
                                                  IngredientJson(b.ingredients[i]))))];
    match b.imageUrl
    case None => JObj(fields)
    case Some(u) => JObj(fields + [Member("imageUrl", JStr(u))])
  }

  /** The member at `i` is the last one named `key`, so `Get` finds it. */
  lemma {:induction false} GetLast(ms: seq<Member>, i: nat, key: string)
    requires i < |ms| && ms[i].key == key
    requires forall j :: i < j < |ms| ==> ms[j].key != key
    ensures Get(ms, key) == Some(ms[i].value)
    decreases |ms|
  {
    if i < |ms| - 1 {
      GetLast(ms[..|ms| - 1], i, key);
    }
  }

  lemma GetAbsent(ms: seq<Member>, key: string)
    requires forall j :: 0 <= j < |ms| ==> ms[j].key != key
    ensures Get(ms, key) == None
  {
  }

  lemma ParseIngredientJson(i: Ingredient)
    ensures ParseIngredient(IngredientJson(i)) == Some(i)
  {
    var ms := IngredientJson(i).members;
    assert "name"[0] != "calories"[0] && "name"[0] != "percentage"[0];
    assert "calories"[0] != "percentage"[0];
    GetLast(ms, 0, "name");
    GetLast(ms, 1, "calories");
    GetLast(ms, 2, "percentage");
  }

  lemma KeysDiffer()
    ensures "name" != "calories" && "name" != "ingredients" && "name" != "imageUrl"
    ensures "calories" != "ingredients" && "calories" != "imageUrl"
    ensures "ingredients" != "imageUrl"
  {
    assert "name"[0] != "calories"[0] && "name"[0] != "ingredients"[0] && "name"[0] != "imageUrl"[0];
    assert "calories"[0] != "ingredients"[0] && "calories"[0] != "imageUrl"[0];
    assert "ingredients"[1] != "imageUrl"[1];
  }

  lemma FoodBaseJsonName(b: FoodBase)
    ensures StrField(FoodBaseJson(b), "name") == Some(b.name)
  {
    KeysDiffer();
    GetLast(FoodBaseJson(b).members, 0, "name");
  }

  lemma FoodBaseJsonCalories(b: FoodBase)
    ensures NumField(FoodBaseJson(b), "calories") == Some(b.calories)
  {
    KeysDiffer();
    GetLast(FoodBaseJson(b).members, 1, "calories");
  }

  lemma FoodBaseJsonIngredients(b: FoodBase)
    ensures Field(FoodBaseJson(b), "ingredients") ==
              Some(JArr(seq(|b.ingredients|, i requires 0 <= i < |b.ingredients| => IngredientJson(b.ingredients[i]))))
  {
    KeysDiffer();
    GetLast(FoodBaseJson(b).members, 2, "ingredients");
  }

  lemma FoodBaseJsonImageUrl(b: FoodBase)
    ensures ParseImageUrl(FoodBaseJson(b)) == Some(b.imageUrl)
  {
    KeysDiffer();
    var ms := FoodBaseJson(b).members;
    if b.imageUrl.Some? {
      GetLast(ms, 3, "imageUrl");
    } else {
      GetAbsent(ms, "imageUrl");
    }
  }

  /** Validation accepts the JSON form of every entry it can produce, and
      gives that entry back. */
  lemma ParseFoodBaseJson(b: FoodBase)
    ensures ParseFoodBase(FoodBaseJson(b)) == Success(b)
  {
    var items := seq(|b.ingredients|, i requires 0 <= i < |b.ingredients| => IngredientJson(b.ingredients[i]));
    forall i | 0 <= i < |items|
      ensures ParseIngredient(items[i]) == Some(b.ingredients[i])
    {
      ParseIngredientJson(b.ingredients[i]);
    }
    ParseIngredientsExact(items, b.ingredients);
    FoodBaseJsonName(b);
    FoodBaseJsonCalories(b);
    FoodBaseJsonIngredients(b);
    FoodBaseJsonImageUrl(b);
  }

  lemma {:induction false} ParseIngredientsExact(items: seq<Json>, ings: seq<Ingredient>)
    requires |items| == |ings|
    requires forall i :: 0 <= i < |items| ==> ParseIngredient(items[i]) == Some(ings[i])
    ensures ParseIngredients(items) == Some(ings)
    decreases |items|
  {
    if |items| > 0 {
      ParseIngredientsExact(items[1..], ings[1..]);
      assert ings == [ings[0]] + ings[1..];
    }
  }

  // ---------------------------------------------------------------------------
  // The read projection
  // ---------------------------------------------------------------------------

  /** `foodEntryReadSchema.parse(doc)`: `_id` and `userId` become their text. */
  function Project(d: EntryDoc): (r: FoodEntryRead)
    ensures ParseNat(r.id) == Some(d.id) && ParseNat(r.userId) == Some(d.userId)
    ensures r.base == d.base && r.createdAt == d.createdAt
  {
    ParseNatText(d.id);
    ParseNatText(d.userId);
    FoodEntryRead(NatText(d.id), NatText(d.userId), d.base, d.createdAt)
  }

  /** The document a read entry came from, when both ids are ObjectId text. */
  function Unproject(e: FoodEntryRead): Option<EntryDoc> {
    match (ParseNat(e.id), ParseNat(e.userId))
    case (Some(i), Some(u)) => Some(EntryDoc(i, u, e.base, e.createdAt))
    case _ => None
  }

  /** The projection loses nothing. */
  lemma UnprojectProject(d: EntryDoc)
    ensures Unproject(Project(d)) == Some(d)
  {
  }

  /** And every entry whose ids are ObjectId text is a projection. */
  lemma ProjectUnproject(e: FoodEntryRead)
    requires Unproject(e).Some?
    ensures Project(Unproject(e).value) == e
  {
    ParseNatOnlyText(e.id, ParseNat(e.id).value);
    ParseNatOnlyText(e.userId, ParseNat(e.userId).value);
  }

  function ProjectAll(ds: seq<EntryDoc>): (r: seq<FoodEntryRead>)
    ensures |r| == |ds|
    ensures forall i :: 0 <= i < |ds| ==> r[i] == Project(ds[i])
  {
    seq(|ds|, i requires 0 <= i < |ds| => Project(ds[i]))
  }

  /** Distinct documents read as distinct entries. */
  lemma ProjectInjective(a: EntryDoc, b: EntryDoc)
    requires Project(a) == Project(b)
    ensures a == b
  {
    UnprojectProject(a);
    UnprojectProject(b);
  }

  // ---------------------------------------------------------------------------
  // Creating and querying
  // ---------------------------------------------------------------------------

  /** `userIdSchema.parse(userId)` then `new ObjectId(userId)`. */
  function ParseUserId(userId: string): (r: Result<nat, Error>)
    ensures r.Success? <==> Canonical(userId)
    ensures r.Success? ==> userId == NatText(r.value)
    ensures r.Failure? ==> r.error == Invalid(InvalidUserId)
  {
    match ParseNat(userId)
    case None => Failure(Invalid(InvalidUserId))
    case Some(u) =>
      ParseNatOnlyText(userId, u);
      Success(u)
  }

  /** `createFoodEntry(userId, data)` at `nowMs`: the reply and the store
      afterwards. */
  function CreateFoodEntry(s: Store, userId: string, data: Json, nowMs: int)
    : (out: (Result<FoodEntryRead, Error>, Store))
    ensures out.0.Failure? ==> out.1 == s
    ensures out.0.Failure? <==> ParseUserId(userId).Failure? || ParseFoodBase(data).Failure?
    ensures out.0.Success? ==>
              && out.0.value.userId == userId
              && out.0.value.base == ParseFoodBase(data).value
              && out.0.value.createdAt == nowMs
              && Unproject(out.0.value).Some?
              && out.1.docs == s.docs + [Unproject(out.0.value).value]
  {
    match ParseUserId(userId)
    case Failure(e) => (Failure(e), s)
    case Success(u) =>
      match ParseFoodBase(data)
      case Failure(e) => (Failure(e), s)
      case Success(base) =>
        var doc := EntryDoc(s.nextId, u, base, nowMs);
        UnprojectProject(doc);
        (Success(Project(doc)), Store(s.docs + [doc], s.nextId + 1))
  }

  /** `find({userId})`, in storage order. */
  function OfUser(ds: seq<EntryDoc>, u: nat): (r: seq<EntryDoc>)
    ensures forall d :: d in r <==> d in ds && d.userId == u
    ensures |r| <= |ds|
  {
    if |ds| == 0 then []
    else if ds[0].userId == u then [ds[0]] + OfUser(ds[1..], u)
    else OfUser(ds[1..], u)
    // `ds[0]` and the members of `ds[1..]` are exactly the members of `ds`.
  }

  /** `getFoodEntries(userId)`. Its `.sort({date: -1})` names a field no
      entry has, so every entry ties and the order MongoDB returns is
      unspecified; the model fixes it to storage order. */
  function GetFoodEntries(s: Store, userId: string): (r: Result<seq<FoodEntryRead>, Error>)
    ensures r.Failure? <==> ParseUserId(userId).Failure?
    ensures r.Failure? ==> r.error == Invalid(InvalidUserId)
    ensures r.Success? ==> forall i :: 0 <= i < |r.value| ==> r.value[i].userId == userId
  {
    match ParseUserId(userId)
    case Failure(e) => Failure(e)
    case Success(u) => Success(ProjectAll(OfUser(s.docs, u)))
  }

  /** An entry is listed exactly when it is stored under the caller's id. */
  lemma GetFoodEntriesMembers(s: Store, userId: string, d: EntryDoc)
    requires ParseUserId(userId).Success?
    ensures Project(d) in GetFoodEntries(s, userId).value <==> d in s.docs && NatText(d.userId) == userId
  {
    var u := ParseUserId(userId).value;
    var ds := OfUser(s.docs, u);
    var r := ProjectAll(ds);
    if Project(d) in r {
      var i :| 0 <= i < |r| && r[i] == Project(d);
      ProjectInjective(d, ds[i]);
      assert ds[i] in ds;
    }
    if d in s.docs && NatText(d.userId) == userId {
      ParseNatText(d.userId);
      assert d in ds;
      var i :| 0 <= i < |ds| && ds[i] == d;
      assert r[i] == Project(d);
    }
  }

  /** Local midnight of the day holding `dateMs`, for a clock `offsetMs`
      ahead of UTC: `startOfDay.setHours(0, 0, 0, 0)`. */
  function DayStart(dateMs: int, offsetMs: int): (start: int)
    ensures start <= dateMs < start + DayMs
    ensures (start + offsetMs) % DayMs == 0
  {
    (dateMs + offsetMs) / DayMs * DayMs - offsetMs
  }

  /** `createdAt` lies between `setHours(0, 0, 0, 0)` and
      `setHours(23, 59, 59, 999)` of that day, both included. */
  predicate InDay(d: EntryDoc, start: int) {
    start <= d.createdAt <= start + DayMs - 1
  }

  function OfUserOnDay(ds: seq<EntryDoc>, u: nat, start: int): (r: seq<EntryDoc>)
    ensures forall d :: d in r <==> d in ds && d.userId == u && InDay(d, start)
  {
    if |ds| == 0 then []
    else if ds[0].userId == u && InDay(ds[0], start) then [ds[0]] + OfUserOnDay(ds[1..], u, start)
    else OfUserOnDay(ds[1..], u, start)
  }

  /** Newest first: `createdAt` never increases along the sequence. */
  predicate NewestFirst(es: seq<FoodEntryRead>) {
    forall i, j :: 0 <= i < j < |es| ==> es[i].createdAt >= es[j].createdAt
  }

  /** Puts `e` before the first entry that is not newer than it. */
  function Insert(e: FoodEntryRead, es: seq<FoodEntryRead>): (r: seq<FoodEntryRead>)
    ensures multiset(r) == multiset(es) + multiset{e}
    ensures |r| == |es| + 1
  {
    if |es| == 0 then [e]
    else if e.createdAt >= es[0].createdAt then [e] + es
    else
      assert es == [es[0]] + es[1..];
      [es[0]] + Insert(e, es[1..])
  }

  lemma {:induction false} InsertNewestFirst(e: FoodEntryRead, es: seq<FoodEntryRead>)
    requires NewestFirst(es)
    ensures NewestFirst(Insert(e, es))
    ensures |es| > 0 ==> Insert(e, es)[0] == (if e.createdAt >= es[0].createdAt then e else es[0])
    decreases |es|
  {
    if |es| > 0 && e.createdAt < es[0].createdAt {
      InsertNewestFirst(e, es[1..]);
      var rest := Insert(e, es[1..]);
      forall k | 0 <= k < |rest|
        ensures es[0].createdAt >= rest[k].createdAt
      {
        assert rest[k] in multiset(rest);
        assert rest[k] in multiset(es[1..]) + multiset{e};
        if rest[k] != e {
          assert rest[k] in es[1..];
        }
      }
    }
  }

  /** `.sort({createdAt: -1})`, keeping the stored order among equal times. */
  function SortNewestFirst(es: seq<FoodEntryRead>): (r: seq<FoodEntryRead>)
    ensures multiset(r) == multiset(es)
    ensures |r| == |es|
  {
    if |es| == 0 then []
    else
      assert es == [es[0]] + es[1..];
      Insert(es[0], SortNewestFirst(es[1..]))
  }

  lemma {:induction false} SortIsNewestFirst(es: seq<FoodEntryRead>)
    ensures NewestFirst(SortNewestFirst(es))
    decreases |es|
  {
    if |es| > 0 {
      SortIsNewestFirst(es[1..]);
      InsertNewestFirst(es[0], SortNewestFirst(es[1..]));
    }
  }

  /** `getFoodEntriesByDate(userId, date)` with the server's clock `offsetMs`
      ahead of UTC. */
  function GetFoodEntriesByDate(s: Store, userId: string, dateMs: int, offsetMs: int)
    : (r: Result<seq<FoodEntryRead>, Error>)
    ensures r.Failure? <==> ParseUserId(userId).Failure?
    ensures r.Success? ==>
              var start := DayStart(dateMs, offsetMs);
              && NewestFirst(r.value)
              && multiset(r.value) == multiset(ProjectAll(OfUserOnDay(s.docs, ParseUserId(userId).value, start)))
  {
    match ParseUserId(userId)
    case Failure(e) => Failure(e)
    case Success(u) =>
      var es := ProjectAll(OfUserOnDay(s.docs, u, DayStart(dateMs, offsetMs)));
      SortIsNewestFirst(es);
      Success(SortNewestFirst(es))
  }

  /** An entry is in the day's answer exactly when it is the caller's and
      was created within that day, both ends included. */
  lemma ByDateMembers(s: Store, userId: string, dateMs: int, offsetMs: int, d: EntryDoc)
    requires ParseUserId(userId).Success?
    ensures var r := GetFoodEntriesByDate(s, userId, dateMs, offsetMs).value;
            Project(d) in r <==>
              && d in s.docs
              && NatText(d.userId) == userId
              && DayStart(dateMs, offsetMs) <= d.createdAt <= DayStart(dateMs, offsetMs) + DayMs - 1
  {
    var u := ParseUserId(userId).value;
    var start := DayStart(dateMs, offsetMs);
    var ds := OfUserOnDay(s.docs, u, start);
    var es := ProjectAll(ds);
    var r := GetFoodEntriesByDate(s, userId, dateMs, offsetMs).value;
    assert Project(d) in r <==> Project(d) in multiset(es);
    if Project(d) in es {
      var i :| 0 <= i < |es| && es[i] == Project(d);
      ProjectInjective(d, ds[i]);
      assert ds[i] in ds;
    }
    if d in s.docs && NatText(d.userId) == userId && InDay(d, start) {
      ParseNatText(d.userId);
      assert d in ds;
      var i :| 0 <= i < |ds| && ds[i] == d;
      assert es[i] == Project(d);
    }
  }
}

=== FILE: frames.dfy ===
/** Length-prefixed framing: a sequence of strings packed into one string and
    read back unambiguously, whatever characters the strings contain. The
    token codec builds its wire format from it. */
module Frames {
  import opened Wrappers
  import opened Text

  /** One frame: the decimal length of `s`, a ':', then `s`. */
  function Frame(s: string): string {
    NatText(|s|) + ":" + s
  }

  function EncodeFrames(fs: seq<string>): string
    decreases |fs|
  {
    if |fs| == 0 then "" else Frame(fs[0]) + EncodeFrames(fs[1..])
  }

  /** Reads the first frame of `t`, returning its content and what follows. */
  function ReadFrame(t: string): (r: Option<(string, string)>)
    ensures r.Some? ==> |r.value.1| < |t|
  {
    if ':' !in t then None
    else
      var body := After(t, ':');
      match ParseNat(Before(t, ':'))
      case None => None
      case Some(n) => if n <= |body| then Some((body[..n], body[n..])) else None
  }

  function DecodeFrames(t: string): Option<seq<string>>
    decreases |t|
  {
    if |t| == 0 then Some([])
    else
      match ReadFrame(t)
      case None => None
      case Some((f, rest)) =>
        match DecodeFrames(rest)
        case None => None
        case Some(fs) => Some([f] + fs)
  }

  lemma ReadFrameOfFrame(s: string, rest: string)
    ensures ReadFrame(Frame(s) + rest) == Some((s, rest))
  {
    var len := NatText(|s|);
    assert ':' !in len;
    assert Frame(s) + rest == len + [':'] + (s + rest);
    SplitAtFirst(len, ':', s + rest);
    ParseNatText(|s|);
    assert (s + rest)[..|s|] == s;
    assert (s + rest)[|s|..] == rest;
  }

  /** A frame is read back only from exactly the text that wrote it. */
  lemma ReadFrameInverse(t: string, s: string, rest: string)
    requires ReadFrame(t) == Some((s, rest))
    ensures t == Frame(s) + rest
  {
    var n := ParseNat(Before(t, ':')).value;
    var body := After(t, ':');
    ParseNatOnlyText(Before(t, ':'), n);
    assert body == s + rest;
  }

  /** Decoding an encoding gives back the frames. */
  lemma {:induction false} DecodeEncodeFrames(fs: seq<string>)
    ensures DecodeFrames(EncodeFrames(fs)) == Some(fs)
    decreases |fs|
  {
    if |fs| > 0 {
      ReadFrameOfFrame(fs[0], EncodeFrames(fs[1..]));
      DecodeEncodeFrames(fs[1..]);
      assert [fs[0]] + fs[1..] == fs;
    }
  }

  /** Every text that decodes is the encoding of what it decodes to, so no two
      different frame sequences share an encoding. */
  lemma {:induction false} EncodeDecodeFrames(t: string, fs: seq<string>)
    requires DecodeFrames(t) == Some(fs)
    ensures EncodeFrames(fs) == t
    decreases |t|
  {
    if |t| > 0 {
      var (f, rest) := ReadFrame(t).value;
      ReadFrameInverse(t, f, rest);
      var fs' := DecodeFrames(rest).value;
      EncodeDecodeFrames(rest, fs');
      assert fs == [f] + fs';
      assert fs[1..] == fs';
    }
  }

  lemma EncodeFramesInjective(fs: seq<string>, gs: seq<string>)
    requires EncodeFrames(fs) == EncodeFrames(gs)
    ensures fs == gs
  {
    DecodeEncodeFrames(fs);
    DecodeEncodeFrames(gs);
  }
}

=== FILE: json.dfy ===
/** JSON values as the modelled code sees them: request and response bodies,
    and the payloads inside tokens. Numbers are integers. An object is its
    list of members; as with `JSON.parse`, a key bound twice reads as its
    last binding. */
module Json {
  import opened Wrappers

  datatype Json =
    | JNull
    | JBool(b: bool)
    | JNum(n: int)
    | JStr(s: string)
    | JArr(items: seq<Json>)
    | JObj(members: seq<Member>)

  datatype Member = Member(key: string, value: Json)

  /** `obj[key]`: the value of the last member named `key`. */
  function Get(ms: seq<Member>, key: string): (r: Option<Json>)
    ensures r.None? <==> forall i :: 0 <= i < |ms| ==> ms[i].key != key
    decreases |ms|
  {
    if |ms| == 0 then None
    else if ms[|ms| - 1].key == key then Some(ms[|ms| - 1].value)
    else Get(ms[..|ms| - 1], key)
  }

  /** `value[key]` on any JSON value; only an object has members. */
  function Field(v: Json, key: string): Option<Json> {
    if v.JObj? then Get(v.members, key) else None
  }

  /** `value[key]` when it is a string. */
  function StrField(v: Json, key: string): Option<string> {
    match Field(v, key)
    case Some(JStr(s)) => Some(s)
    case _ => None
  }

  /** `value[key]` when it is a number. */
  function NumField(v: Json, key: string): Option<int> {
    match Field(v, key)
    case Some(JNum(n)) => Some(n)
    case _ => None
  }

  /** The keys of an object, in order. */
  function Keys(ms: seq<Member>): (ks: seq<string>)
    ensures |ks| == |ms|
    ensures forall i :: 0 <= i < |ms| ==> ks[i] == ms[i].key
  {
    seq(|ms|, i requires 0 <= i < |ms| => ms[i].key)
  }

  /** `delete obj[key]`: every member named `key` removed, the rest kept in order. */
  function Remove(ms: seq<Member>, key: string): (r: seq<Member>)
    ensures forall i :: 0 <= i < |r| ==> r[i].key != key
    ensures forall m :: m in r <==> m in ms && m.key != key
    decreases |ms|
  {
    if |ms| == 0 then []
    else if ms[|ms| - 1].key == key then Remove(ms[..|ms| - 1], key)
    else Remove(ms[..|ms| - 1], key) + [ms[|ms| - 1]]
  }

  /** `{...obj, [key]: value}`: `key` bound to `value`, every other member kept. */
  function Put(ms: seq<Member>, key: string, value: Json): seq<Member> {
    Remove(ms, key) + [Member(key, value)]
  }

  lemma {:induction false} GetRemove(ms: seq<Member>, key: string, other: string)
    ensures Get(Remove(ms, key), other) == if other == key then None else Get(ms, other)
    decreases |ms|
  {
    if |ms| > 0 {
      var init := ms[..|ms| - 1];
      GetRemove(init, key, other);
      if ms[|ms| - 1].key != key {
        var r := Remove(ms, key);
        assert r[..|r| - 1] == Remove(init, key);
      }
    }
  }

  /** Reading a key after `Put` gives the value put there, and every other
      key reads as before. */
  lemma GetPut(ms: seq<Member>, key: string, value: Json, other: string)
    ensures Get(Put(ms, key, value), other) ==
              if other == key then Some(value) else Get(ms, other)
  {
    var r := Put(ms, key, value);
    assert r[..|r| - 1] == Remove(ms, key);
    GetRemove(ms, key, other);
  }
}

=== FILE: json_wire.dfy ===
/** Text form of a JSON value, the stand-in for `JSON.stringify` and
    `JSON.parse` inside the token codec. A value is flattened, in prefix order,
    into a sequence of fields, and the fields are packed with `Frames`. */
module JsonWire {
  import opened Wrappers
  import opened Text
  import opened Json
  import opened Frames

  function Flatten(v: Json): seq<string>
    decreases v
  {
    match v
    case JNull => ["null"]
    case JBool(b) => [if b then "true" else "false"]
    case JNum(n) => ["num", IntText(n)]
    case JStr(s) => ["str", s]
    case JArr(items) => ["arr", NatText(|items|)] + FlattenItems(items)
    case JObj(ms) => ["obj", NatText(|ms|)] + FlattenMembers(ms)
  }

  function FlattenItems(items: seq<Json>): seq<string>
    decreases items
  {
    if |items| == 0 then [] else Flatten(items[0]) + FlattenItems(items[1..])
  }

  function FlattenMembers(ms: seq<Member>): seq<string>
    decreases ms
  {
    if |ms| == 0 then []
    else [ms[0].key] + Flatten(ms[0].value) + FlattenMembers(ms[1..])
  }

  /** Reads one value from the front of `ts`, returning it and the fields
      after it. */
  function Parse(ts: seq<string>): (r: Option<(Json, seq<string>)>)
    ensures r.Some? ==> |r.value.1| < |ts|
    decreases |ts|, 0
  {
    if |ts| == 0 then None
    else if ts[0] == "null" then Some((JNull, ts[1..]))
    else if ts[0] == "true" then Some((JBool(true), ts[1..]))
    else if ts[0] == "false" then Some((JBool(false), ts[1..]))
    else if |ts| < 2 then None
    else if ts[0] == "num" then
      match ParseInt(ts[1])
      case Some(n) => Some((JNum(n), ts[2..]))
      case None => None
    else if ts[0] == "str" then Some((JStr(ts[1]), ts[2..]))
    else if ts[0] == "arr" then
      match ParseNat(ts[1])
      case None => None
      case Some(n) =>
        match ParseItems(n, ts[2..])
        case None => None
        case Some((items, rest)) => Some((JArr(items), rest))
    else if ts[0] == "obj" then
      match ParseNat(ts[1])
      case None => None
      case Some(n) =>
        match ParseMembers(n, ts[2..])
        case None => None
        case Some((ms, rest)) => Some((JObj(ms), rest))
    else None
  }

  /** Reads `n` values in a row. */
  function ParseItems(n: nat, ts: seq<string>): (r: Option<(seq<Json>, seq<string>)>)
    ensures r.Some? ==> |r.value.0| == n && |r.value.1| <= |ts|
    decreases |ts|, 1, n
  {
    if n == 0 then Some(([], ts))
    else
      match Parse(ts)
      case None => None
      case Some((v, rest)) =>
        match ParseItems(n - 1, rest)
        case None => None
        case Some((vs, rest')) => Some(([v] + vs, rest'))
  }

  /** Reads `n` key/value members in a row. */
  function ParseMembers(n: nat, ts: seq<string>): (r: Option<(seq<Member>, seq<string>)>)
    ensures r.Some? ==> |r.value.0| == n && |r.value.1| <= |ts|
    decreases |ts|, 1, n
  {
    if n == 0 then Some(([], ts))
    else if |ts| == 0 then None
    else
      match Parse(ts[1..])
      case None => None
      case Some((v, rest)) =>
        match ParseMembers(n - 1, rest)
        case None => None
        case Some((ms, rest')) => Some(([Member(ts[0], v)] + ms, rest'))
  }

  lemma {:induction false} ParseFlatten(v: Json, rest: seq<string>)
    ensures Parse(Flatten(v) + rest) == Some((v, rest))
    decreases v, 1
  {
    match v
    case JArr(items) =>
      ParseFlattenArr(items, rest);
    case JObj(ms) =>
      ParseFlattenObj(ms, rest);
    case _ =>
      ParseFlattenScalar(v, rest);
  }

  lemma ParseFlattenScalar(v: Json, rest: seq<string>)
    requires !v.JArr? && !v.JObj?
    ensures Parse(Flatten(v) + rest) == Some((v, rest))
  {
    var ts := Flatten(v) + rest;
    if v.JNum? {
      ParseIntText(v.n);
      assert ts[2..] == rest;
    } else if v.JStr? {
      assert ts[2..] == rest;
    } else {
      assert ts[1..] == rest;
    }
  }

  lemma {:induction false} ParseFlattenArr(items: seq<Json>, rest: seq<string>)
    ensures Parse(Flatten(JArr(items)) + rest) == Some((JArr(items), rest))
    decreases items, 1
  {
    var ts := Flatten(JArr(items)) + rest;
    ParseNatText(|items|);
    assert ts[2..] == FlattenItems(items) + rest;
    ParseItemsFlatten(items, rest);
  }

  lemma {:induction false} ParseFlattenObj(ms: seq<Member>, rest: seq<string>)
    ensures Parse(Flatten(JObj(ms)) + rest) == Some((JObj(ms), rest))
    decreases ms, 1
  {
    var ts := Flatten(JObj(ms)) + rest;
    ParseNatText(|ms|);
    assert ts[2..] == FlattenMembers(ms) + rest;
    ParseMembersFlatten(ms, rest);
  }

  lemma {:induction false} ParseItemsFlatten(items: seq<Json>, rest: seq<string>)
    ensures ParseItems(|items|, FlattenItems(items) + rest) == Some((items, rest))
    decreases items, 0
  {
    if |items| > 0 {
      var tail := FlattenItems(items[1..]) + rest;
      assert FlattenItems(items) + rest == Flatten(items[0]) + tail;
      ParseFlatten(items[0], tail);
      ParseItemsFlatten(items[1..], rest);
      assert [items[0]] + items[1..] == items;
    } else {
      assert FlattenItems(items) + rest == rest;
    }
  }

  lemma {:induction false} ParseMembersFlatten(ms: seq<Member>, rest: seq<string>)
    ensures ParseMembers(|ms|, FlattenMembers(ms) + rest) == Some((ms, rest))
    decreases ms, 0
  {
    if |ms| > 0 {
      var ts := FlattenMembers(ms) + rest;
      var tail := FlattenMembers(ms[1..]) + rest;
      assert ts == [ms[0].key] + (Flatten(ms[0].value) + tail);
      assert ts[1..] == Flatten(ms[0].value) + tail;
      ParseFlatten(ms[0].value, tail);
      ParseMembersFlatten(ms[1..], rest);
      assert [Member(ms[0].key, ms[0].value)] + ms[1..] == ms;
    } else {
      assert FlattenMembers(ms) + rest == rest;
    }
  }

  /** `JSON.stringify`. */
  function Serialize(v: Json): string {
    EncodeFrames(Flatten(v))
  }

  /** `JSON.parse`: the whole text must be exactly one value. */
  function Deserialize(t: string): Option<Json> {
    match DecodeFrames(t)
    case None => None
    case Some(ts) =>
      match Parse(ts)
      case Some((v, rest)) => if rest == [] then Some(v) else None
      case None => None
  }

  /** Parsing what was serialised gives the value back. */
  lemma DeserializeSerialize(v: Json)
    ensures Deserialize(Serialize(v)) == Some(v)
  {
    DecodeEncodeFrames(Flatten(v));
    ParseFlatten(v, []);
    assert Flatten(v) + [] == Flatten(v);
  }

  lemma FlattenItemsCons(v: Json, vs: seq<Json>)
    ensures FlattenItems([v] + vs) == Flatten(v) + FlattenItems(vs)
  {
    assert ([v] + vs)[1..] == vs;
  }

  lemma FlattenMembersCons(m: Member, ms: seq<Member>)
    ensures FlattenMembers([m] + ms) == [m.key] + Flatten(m.value) + FlattenMembers(ms)
  {
    assert ([m] + ms)[1..] == ms;
  }

  /** Parsing is exact: the value read, flattened again, is the text it
      was read from. */
  lemma {:induction false} FlattenParse(ts: seq<string>, v: Json, rest: seq<string>)
    requires Parse(ts) == Some((v, rest))
    ensures Flatten(v) + rest == ts
    decreases |ts|, 0
  {
    match v
    case JArr(items) =>
      FlattenParseArr(ts, items, rest);
    case JObj(ms) =>
      FlattenParseObj(ts, ms, rest);
    case _ =>
      FlattenParseScalar(ts, v, rest);
  }

  lemma FlattenParseScalar(ts: seq<string>, v: Json, rest: seq<string>)
    requires Parse(ts) == Some((v, rest)) && !v.JArr? && !v.JObj?
    ensures Flatten(v) + rest == ts
  {
    assert ts == [ts[0]] + ts[1..];
    if v.JNum? {
      ParseIntOnlyText(ts[1], v.n);
      assert ts == [ts[0], ts[1]] + ts[2..];
    } else if v.JStr? {
      assert ts == [ts[0], ts[1]] + ts[2..];
    }
  }

  lemma {:induction false} FlattenParseArr(ts: seq<string>, items: seq<Json>, rest: seq<string>)
    requires Parse(ts) == Some((JArr(items), rest))
    ensures Flatten(JArr(items)) + rest == ts
    decreases |ts|, 0, 0
  {
    assert ts[0] == "arr" && |ts| >= 2;
    var n := ParseNat(ts[1]).value;
    ParseNatOnlyText(ts[1], n);
    FlattenParseItems(n, ts[2..], items, rest);
    assert ts == [ts[0], ts[1]] + ts[2..];
  }

  lemma {:induction false} FlattenParseObj(ts: seq<string>, ms: seq<Member>, rest: seq<string>)
    requires Parse(ts) == Some((JObj(ms), rest))
    ensures Flatten(JObj(ms)) + rest == ts
    decreases |ts|, 0, 0
  {
    assert ts[0] == "obj" && |ts| >= 2;
    var n := ParseNat(ts[1]).value;
    ParseNatOnlyText(ts[1], n);
    FlattenParseMembers(n, ts[2..], ms, rest);
    assert ts == [ts[0], ts[1]] + ts[2..];
  }

  lemma {:induction false} FlattenParseItems(n: nat, ts: seq<string>, items: seq<Json>, rest: seq<string>)
    requires ParseItems(n, ts) == Some((items, rest))
    ensures FlattenItems(items) + rest == ts
    decreases |ts|, 1, n
  {
    if n > 0 {
      var (v, mid) := Parse(ts).value;
      var (items', rest') := ParseItems(n - 1, mid).value;
      assert items == [v] + items' && rest == rest';
      FlattenParse(ts, v, mid);
      FlattenParseItems(n - 1, mid, items', rest');
      FlattenItemsCons(v, items');
      calc {
        FlattenItems(items) + rest;
        Flatten(v) + (FlattenItems(items') + rest');
        ts;
      }
    }
  }

  /** One step of `ParseMembers`: a key, a value, then the other members. */
  lemma ParseMembersStep(n: nat, ts: seq<string>, ms: seq<Member>, rest: seq<string>)
    requires n > 0 && ParseMembers(n, ts) == Some((ms, rest))
    ensures |ts| > 0 && Parse(ts[1..]).Some?
    ensures var (v, mid) := Parse(ts[1..]).value;
            && ParseMembers(n - 1, mid).Some?
            && ms == [Member(ts[0], v)] + ParseMembers(n - 1, mid).value.0
            && rest == ParseMembers(n - 1, mid).value.1
  {
  }

  lemma JoinMember(ts: seq<string>, a: seq<string>, b: seq<string>, mid: seq<string>, rest: seq<string>)
    requires |ts| > 0 && a + mid == ts[1..] && b + rest == mid
    ensures [ts[0]] + a + b + rest == ts
  {
    assert [ts[0]] + a + b + rest == [ts[0]] + (a + (b + rest));
  }

  lemma {:induction false} FlattenParseMembers(n: nat, ts: seq<string>, ms: seq<Member>, rest: seq<string>)
    requires ParseMembers(n, ts) == Some((ms, rest))
    ensures FlattenMembers(ms) + rest == ts
    decreases |ts|, 1, n
  {
    if n > 0 {
      ParseMembersStep(n, ts, ms, rest);
      var v := Parse(ts[1..]).value.0;
      var mid := Parse(ts[1..]).value.1;
      var ms' := ParseMembers(n - 1, mid).value.0;
      FlattenParse(ts[1..], v, mid);
      FlattenParseMembers(n - 1, mid, ms', rest);
      FlattenMembersCons(Member(ts[0], v), ms');
      JoinMember(ts, Flatten(v), FlattenMembers(ms'), mid, rest);
    }
  }

  /** Every text that parses is the serialisation of what it parses to. */
  lemma SerializeDeserialize(t: string, v: Json)
    requires Deserialize(t) == Some(v)
    ensures Serialize(v) == t
  {
    var ts := DecodeFrames(t).value;
    EncodeDecodeFrames(t, ts);
    FlattenParse(ts, v, []);
    assert Flatten(v) + [] == Flatten(v);
  }
}

=== FILE: jwt.dfy ===
/** Access and refresh tokens of the current backend
    (backend/src/auth/jwt.ts). The claims are `{id, iat, exp}` and nothing
    else; access tokens live 15 minutes under `JWT_SECRET`, refresh tokens 7
    days under `REFRESH_SECRET`. The clock is `Date.now()` in milliseconds,
    passed in. */
module Jwt {
  import opened Wrappers
  import opened Text
  import opened Json
  import opened Errors
  import TokenCodec

  const AccessTokenExpiry: nat := 15 * 60
  const RefreshTokenExpiry: nat := 7 * 24 * 60 * 60

  /** The two signing secrets read from the environment. */
  datatype Env = Env(jwtSecret: string, refreshSecret: string)

  /** `Math.floor(Date.now() / 1000)`. */
  function IssuedAt(nowMs: nat): nat {
    nowMs / 1000
  }

  function Claims(id: string, iat: nat, exp: nat): Json {
    JObj([Member("id", JStr(id)), Member("iat", JNum(iat)), Member("exp", JNum(exp))])
  }

  /** `p` is the claim set of a token issued to `id` at `nowMs` that lives
      `lifetime` seconds: exactly the keys id, iat and exp, with iat the
      current second and exp that many seconds later. */
  predicate IssuedClaims(p: Json, id: string, nowMs: nat, lifetime: nat) {
    && p.JObj?
    && Keys(p.members) == ["id", "iat", "exp"]
    && StrField(p, "id") == Some(id)
    && NumField(p, "iat") == Some(nowMs / 1000)
    && NumField(p, "exp") == Some(nowMs / 1000 + lifetime)
  }

  /** The last millisecond at which a token issued at `nowMs` with that
      lifetime is still accepted. */
  function LastValidMs(nowMs: nat, lifetime: nat): nat {
    (IssuedAt(nowMs) + lifetime) * 1000
  }

  /** Reading the claims object back gives the three fields it was built from. */
  lemma ClaimsAreIssued(id: string, nowMs: nat, lifetime: nat)
    ensures var iat := IssuedAt(nowMs);
            IssuedClaims(Claims(id, iat, iat + lifetime), id, nowMs, lifetime)
  {
    var iat := IssuedAt(nowMs);
    var ms := Claims(id, iat, iat + lifetime).members;
    assert ms[..2] == [Member("id", JStr(id)), Member("iat", JNum(iat))];
    assert ms[..2][..1] == [Member("id", JStr(id))];
    assert Get(ms, "exp") == Some(JNum(iat + lifetime));
    assert Get(ms, "iat") == Some(JNum(iat));
    assert Get(ms[..2][..1], "id") == Some(JStr(id));
    assert Get(ms[..2], "id") == Some(JStr(id));
    assert Get(ms, "id") == Some(JStr(id));
    assert Keys(ms) == ["id", "iat", "exp"];
  }

  /** Claims of an issued token carry no `nbf`, and their `exp` is positive,
      so the library's time checks reduce to the expiry second. */
  lemma IssuedClaimsWindow(p: Json, id: string, nowMs: nat, lifetime: nat, atMs: nat)
    requires IssuedClaims(p, id, nowMs, lifetime) && lifetime > 0
    ensures TokenCodec.Verdict(p, atMs) ==
              if atMs > LastValidMs(nowMs, lifetime) then Failure(Thrown(TokenCodec.Expired))
              else Success(p)
  {
    forall i | 0 <= i < |p.members|
      ensures p.members[i].key != "nbf"
    {
      assert p.members[i].key == Keys(p.members)[i];
      assert p.members[i].key[0] != 'n';
    }
    assert NumField(p, "nbf") == None;
  }

  /** A token made from issued claims decodes, under its key, to those
      claims up to and including the expiry millisecond, and to the library's
      expiry error after it. */
  lemma IssuedTokenVerdict(p: Json, id: string, nowMs: nat, lifetime: nat, key: string, atMs: nat)
    requires IssuedClaims(p, id, nowMs, lifetime) && lifetime > 0 && key != ""
    ensures TokenCodec.Decode(TokenCodec.Encode(p, key).value, key, atMs) ==
              if atMs > LastValidMs(nowMs, lifetime) then Failure(Thrown(TokenCodec.Expired))
              else Success(p)
  {
    TokenCodec.DecodeEncode(p, key, atMs);
    IssuedClaimsWindow(p, id, nowMs, lifetime, atMs);
  }

  /** The claims a fresh token for `id` carries. */
  function FreshClaims(id: string, nowMs: nat, lifetime: nat): Json {
    Claims(id, IssuedAt(nowMs), IssuedAt(nowMs) + lifetime)
  }

  /** A token holding issued claims that decodes when issued keeps
      decoding, to the same claims, up to its expiry millisecond. */
  lemma IssuedTokenStaysValid(t: string, key: string, id: string, nowMs: nat, lifetime: nat, atMs: nat)
    requires key != "" && lifetime > 0
    requires var d := TokenCodec.Decode(t, key, nowMs);
             d.Success? && IssuedClaims(d.value, id, nowMs, lifetime)
    requires atMs <= LastValidMs(nowMs, lifetime)
    ensures TokenCodec.Decode(t, key, atMs) == TokenCodec.Decode(t, key, nowMs)
  {
    var p := TokenCodec.Decode(t, key, nowMs).value;
    TokenCodec.DecodeSound(t, key, nowMs, p);
    IssuedTokenVerdict(p, id, nowMs, lifetime, key, atMs);
  }

  /** A fresh token decodes, at `atMs`, to its claims until it expires. */
  lemma FreshTokenVerdict(id: string, nowMs: nat, lifetime: nat, key: string, atMs: nat)
    requires lifetime > 0 && key != ""
    ensures IssuedClaims(FreshClaims(id, nowMs, lifetime), id, nowMs, lifetime)
    ensures TokenCodec.Decode(TokenCodec.Encode(FreshClaims(id, nowMs, lifetime), key).value, key, atMs) ==
              if atMs > LastValidMs(nowMs, lifetime) then Failure(Thrown(TokenCodec.Expired))
              else Success(FreshClaims(id, nowMs, lifetime))
  {
    ClaimsAreIssued(id, nowMs, lifetime);
    IssuedTokenVerdict(FreshClaims(id, nowMs, lifetime), id, nowMs, lifetime, key, atMs);
  }

  /** Signs fresh claims for `id` that live `lifetime` seconds. */
  function Issue(id: string, nowMs: nat, lifetime: nat, key: string): (r: Result<string, Error>)
    requires lifetime > 0
    ensures r.Failure? <==> key == ""
    ensures r.Success? ==>
              var d := TokenCodec.Decode(r.value, key, nowMs);
              d.Success? && IssuedClaims(d.value, id, nowMs, lifetime)
  {
    if key != "" then FreshTokenVerdict(id, nowMs, lifetime, key, nowMs); TokenCodec.Encode(FreshClaims(id, nowMs, lifetime), key)
    else TokenCodec.Encode(FreshClaims(id, nowMs, lifetime), key)
  }

  /** `generateAccessToken({id})`. */
  function GenerateAccessToken(id: string, env: Env, nowMs: nat): (r: Result<string, Error>)
    ensures r.Failure? <==> env.jwtSecret == ""
    ensures r.Success? ==>
              var d := TokenCodec.Decode(r.value, env.jwtSecret, nowMs);
              d.Success? && IssuedClaims(d.value, id, nowMs, AccessTokenExpiry)
  {
    Issue(id, nowMs, AccessTokenExpiry, env.jwtSecret)
  }

  /** `generateRefreshToken({id})`. */
  function GenerateRefreshToken(id: string, env: Env, nowMs: nat): (r: Result<string, Error>)
    ensures r.Failure? <==> env.refreshSecret == ""
    ensures r.Success? ==>
              var d := TokenCodec.Decode(r.value, env.refreshSecret, nowMs);
              d.Success? && IssuedClaims(d.value, id, nowMs, RefreshTokenExpiry)
  {
    Issue(id, nowMs, RefreshTokenExpiry, env.refreshSecret)
  }

  /** `decodeAccessToken(token)`: a library failure whose message starts with
      "Token expired" becomes a 401; every other failure is rethrown as is. */
  function DecodeAccessToken(token: string, env: Env, nowMs: nat): (r: Result<Json, Error>)
    ensures r.Success? && env.jwtSecret != "" ==>
              TokenCodec.Encode(r.value, env.jwtSecret) == Success(token)
              && !TokenCodec.PastExpiry(r.value, nowMs)
    ensures r.Failure? ==> r.error == Unauthorized || r.error.Thrown?
    ensures var d := TokenCodec.Decode(token, env.jwtSecret, nowMs);
            && (d.Success? ==> r == d)
            && (d.Failure? && StartsWith(d.error.message, TokenCodec.Expired) ==> r == Failure(Unauthorized))
            && (d.Failure? && !StartsWith(d.error.message, TokenCodec.Expired) ==> r == d)
  {
    TokenCodec.DecodeOnlyIssued(token, env.jwtSecret, nowMs);
    match TokenCodec.Decode(token, env.jwtSecret, nowMs)
    case Success(p) => Success(p)
    case Failure(e) =>
      if StartsWith(e.message, TokenCodec.Expired) then Failure(Unauthorized) else Failure(e)
  }

  /** `decodeRefreshToken(token)`: no mapping, failures propagate as thrown. */
  function DecodeRefreshToken(token: string, env: Env, nowMs: nat): (r: Result<Json, Error>)
    ensures r.Success? && env.refreshSecret != "" ==>
              TokenCodec.Encode(r.value, env.refreshSecret) == Success(token)
              && !TokenCodec.PastExpiry(r.value, nowMs)
    ensures r.Failure? ==> r.error.Thrown? && r == TokenCodec.Decode(token, env.refreshSecret, nowMs)
  {
    TokenCodec.DecodeOnlyIssued(token, env.refreshSecret, nowMs);
    TokenCodec.Decode(token, env.refreshSecret, nowMs)
  }

  /** Round trip and expiry boundary of access tokens: decoding at `atMs`
      returns the issued claims up to and including the expiry millisecond,
      and the 401 after it. */
  lemma AccessTokenRoundTrip(id: string, env: Env, nowMs: nat, atMs: nat)
    requires env.jwtSecret != ""
    ensures var p := FreshClaims(id, nowMs, AccessTokenExpiry);
            && IssuedClaims(p, id, nowMs, AccessTokenExpiry)
            && DecodeAccessToken(GenerateAccessToken(id, env, nowMs).value, env, atMs) ==
                 if atMs > LastValidMs(nowMs, AccessTokenExpiry) then Failure(Unauthorized)
                 else Success(p)
  {
    FreshTokenVerdict(id, nowMs, AccessTokenExpiry, env.jwtSecret, atMs);
  }

  /** Round trip of refresh tokens: the issued claims up to the expiry
      millisecond, and after it the library's own "Token expired" error,
      unmapped. */
  lemma RefreshTokenRoundTrip(id: string, env: Env, nowMs: nat, atMs: nat)
    requires env.refreshSecret != ""
    ensures var p := FreshClaims(id, nowMs, RefreshTokenExpiry);
            && IssuedClaims(p, id, nowMs, RefreshTokenExpiry)
            && DecodeRefreshToken(GenerateRefreshToken(id, env, nowMs).value, env, atMs) ==
                 if atMs > LastValidMs(nowMs, RefreshTokenExpiry)
                 then Failure(Thrown(TokenCodec.Expired))
                 else Success(p)
  {
    FreshTokenVerdict(id, nowMs, RefreshTokenExpiry, env.refreshSecret, atMs);
  }

  lemma SignatureErrorIsNotExpiry()
    ensures !StartsWith(TokenCodec.BadSignature, TokenCodec.Expired)
  {
    assert TokenCodec.BadSignature[0] != TokenCodec.Expired[0];
  }

  /** Of the library's decode errors only its expiry starts with "Token
      expired". */
  lemma ExpiryPrefixOnlyExpired(m: string)
    requires m in {TokenCodec.NoToken, TokenCodec.BadSegments, TokenCodec.BadJson, TokenCodec.BadSignature,
                   TokenCodec.NullPayload, TokenCodec.NotYetActive, TokenCodec.Expired}
    ensures StartsWith(m, TokenCodec.Expired) <==> m == TokenCodec.Expired
  {
    var e := TokenCodec.Expired;
    if m == TokenCodec.NotYetActive {
      assert m[6] != e[6];
    } else if m == TokenCodec.NoToken || m == TokenCodec.BadSegments {
      assert m[0] == 'N' != e[0];
    } else if m == TokenCodec.BadJson {
      assert m[0] == 'U' != e[0];
    } else if m == TokenCodec.BadSignature {
      assert m[0] == 'S' != e[0];
    } else if m == TokenCodec.NullPayload {
      assert m[0] == 'C' != e[0];
    }
  }

  /** The 401 comes exactly from a token the library finds expired, and
      every other failure keeps the library's error. */
  lemma UnauthorizedExactlyWhenExpired(token: string, env: Env, nowMs: nat)
    ensures DecodeAccessToken(token, env, nowMs) == Failure(Unauthorized) <==>
              TokenCodec.Decode(token, env.jwtSecret, nowMs) == Failure(Thrown(TokenCodec.Expired))
    ensures TokenCodec.Decode(token, env.jwtSecret, nowMs).Failure?
            && TokenCodec.Decode(token, env.jwtSecret, nowMs).error.message != TokenCodec.Expired ==>
              DecodeAccessToken(token, env, nowMs) == TokenCodec.Decode(token, env.jwtSecret, nowMs)
  {
    var d := TokenCodec.Decode(token, env.jwtSecret, nowMs);
    if d.Failure? {
      ExpiryPrefixOnlyExpired(d.error.message);
    }
  }

  /** With distinct secrets, a refresh token is never accepted as an access
      token, at any time; the failure is the signature error, which is not
      mapped to 401. */
  lemma RefreshTokenIsNoAccessToken(id: string, env: Env, nowMs: nat, atMs: nat)
    requires env.jwtSecret != "" && env.refreshSecret != ""
    requires env.jwtSecret != env.refreshSecret
    ensures DecodeAccessToken(GenerateRefreshToken(id, env, nowMs).value, env, atMs)
         == Failure(Thrown(TokenCodec.BadSignature))
  {
    TokenCodec.DecodeUnderOtherKey(FreshClaims(id, nowMs, RefreshTokenExpiry),
                                   env.refreshSecret, env.jwtSecret, atMs);
    SignatureErrorIsNotExpiry();
  }

  /** With distinct secrets, an access token is never accepted as a refresh
      token. */
  lemma AccessTokenIsNoRefreshToken(id: string, env: Env, nowMs: nat, atMs: nat)
    requires env.jwtSecret != "" && env.refreshSecret != ""
    requires env.jwtSecret != env.refreshSecret
    ensures DecodeRefreshToken(GenerateAccessToken(id, env, nowMs).value, env, atMs)
         == Failure(Thrown(TokenCodec.BadSignature))
  {
    TokenCodec.DecodeUnderOtherKey(FreshClaims(id, nowMs, AccessTokenExpiry),
                                   env.jwtSecret, env.refreshSecret, atMs);
  }
}

=== FILE: legacy_db.dfy ===
/** The earlier server's user store (src/db/db.ts): a key-value store with
    one record per exact email string, no canonicalisation. The record keeps
    the bcrypt digest. The random UUID of a new user and the bcrypt salt are
    parameters. */
module LegacyDb {
  import opened Wrappers
  import opened Errors
  import opened Accounts

  const AlreadyExists: string := "User already exists"
  const NullUser: string := "Expected object, received null"

  datatype LegacyUser = LegacyUser(id: string, email: string, password: Hash, role: Role)

  /** The records under the key ["users", email]. */
  type Kv = map<string, LegacyUser>

  /** `getUser(email)`: an absent key reads as null, which the schema
      rejects. */
  function GetUser(kv: Kv, email: string): (r: Result<LegacyUser, Error>)
    ensures r.Success? <==> email in kv
    ensures r.Failure? ==> r.error == Invalid(NullUser)
  {
    if email in kv then Success(kv[email]) else Failure(Invalid(NullUser))
  }

  /** `createUser({email, password})` with the `id` and `salt` it draws. */
  function CreateUser(kv: Kv, email: string, password: string, id: string, salt: string)
    : (out: (Result<LegacyUser, Error>, Kv))
    ensures out.0.Failure? <==> email in kv
    ensures out.0.Failure? ==> out.0.error == Thrown(AlreadyExists) && out.1 == kv
    ensures out.0.Success? ==>
              && out.0.value.id == id
              && out.0.value.email == email
              && out.0.value.role == User
              && Matches(password, out.0.value.password)
              && out.1.Keys == kv.Keys + {email}
  {
    if GetUser(kv, email).Success? then (Failure(Thrown(AlreadyExists)), kv)
    else
      var user := LegacyUser(id, email, HashPassword(password, salt), User);
      (Success(user), kv[email := user])
  }

  /** After a successful creation, `getUser` on that exact email returns
      the record created, and every other email reads as before. */
  lemma CreateThenGet(kv: Kv, email: string, password: string, id: string, salt: string, other: string)
    requires email !in kv
    ensures var (r, kv') := CreateUser(kv, email, password, id, salt);
            && GetUser(kv', email) == r
            && (other != email ==> GetUser(kv', other) == GetUser(kv, other))
  {
  }

  /** Keys are exact: a user stored under one spelling of an address does
      not make another spelling exist, so both can be created. */
  lemma SpellingsAreDistinctUsers(email: string, variant: string, password: string,
                                  id1: string, id2: string, salt: string)
    requires email != variant
    ensures var (r1, kv1) := CreateUser(map[], email, password, id1, salt);
            var (r2, kv2) := CreateUser(kv1, variant, password, id2, salt);
            r1.Success? && r2.Success? && kv2.Keys == {email, variant}
  {
  }
}

=== FILE: legacy_jwt.dfy ===
/** Tokens of the earlier server (src/auth/jwt.ts). The payload is the
    caller's user record: its `password` is deleted, every other field is
    kept, and `iat` and `exp` are added. Decoding repeats the library's
    expiry test with a coarser one of its own, `exp < floor(now / 1000)`,
    which throws "Token expired" for access tokens and "Refresh token expired"
    for refresh tokens. */
module LegacyJwt {
  import opened Wrappers
  import opened Json
  import opened Errors
  import TokenCodec
  import opened Jwt

  const RefreshExpired: string := "Refresh token expired"

  /** `{...payload, iat, exp}` after `delete payload.password`. Key order is
      not tracked: a spread that overrides a key reads the same as one that
      appends it. */
  function LegacyClaims(payload: seq<Member>, nowMs: nat, lifetime: nat): (c: Json)
    ensures c.JObj?
  {
    var iat := IssuedAt(nowMs);
    JObj(Put(Put(Remove(payload, "password"), "iat", JNum(iat)), "exp", JNum(iat + lifetime)))
  }

  /** The payload without its password and with `iat` set. */
  lemma WithoutPasswordFields(payload: seq<Member>, iat: nat, key: string)
    ensures Get(Put(Remove(payload, "password"), "iat", JNum(iat)), key) ==
              if key == "password" then None
              else if key == "iat" then Some(JNum(iat))
              else Get(payload, key)
  {
    GetPut(Remove(payload, "password"), "iat", JNum(iat), key);
    GetRemove(payload, "password", key);
  }

  /** The claims hold no password, the issue second and its expiry, and every
      other field of the payload unchanged. */
  lemma LegacyClaimsFields(payload: seq<Member>, nowMs: nat, lifetime: nat, key: string)
    ensures var c := LegacyClaims(payload, nowMs, lifetime);
            Field(c, key) ==
              if key == "password" then None
              else if key == "iat" then Some(JNum(IssuedAt(nowMs)))
              else if key == "exp" then Some(JNum(IssuedAt(nowMs) + lifetime))
              else Get(payload, key)
  {
    var iat := IssuedAt(nowMs);
    var inner := Put(Remove(payload, "password"), "iat", JNum(iat));
    assert LegacyClaims(payload, nowMs, lifetime) == JObj(Put(inner, "exp", JNum(iat + lifetime)));
    GetPut(inner, "exp", JNum(iat + lifetime), key);
    WithoutPasswordFields(payload, iat, key);
  }

  /** `generateAccessToken(payload)`. */
  function GenerateAccessToken(payload: seq<Member>, env: Env, nowMs: nat): (r: Result<string, Error>)
    ensures r.Failure? <==> env.jwtSecret == ""
    ensures r.Success? ==>
              TokenCodec.Segments(r.value).Some?
              && TokenCodec.Decode(r.value, env.jwtSecret, nowMs)
                 == TokenCodec.Verdict(LegacyClaims(payload, nowMs, AccessTokenExpiry), nowMs)
  {
    var c := LegacyClaims(payload, nowMs, AccessTokenExpiry);
    if env.jwtSecret == "" then TokenCodec.Encode(c, env.jwtSecret)
    else
      TokenCodec.DecodeEncode(c, env.jwtSecret, nowMs);
      TokenCodec.SegmentsOfEncode(c, env.jwtSecret);
      TokenCodec.Encode(c, env.jwtSecret)
  }

  /** `generateRefreshToken(payload)`. */
  function GenerateRefreshToken(payload: seq<Member>, env: Env, nowMs: nat): (r: Result<string, Error>)
    ensures r.Failure? <==> env.refreshSecret == ""
    ensures r.Success? ==>
              TokenCodec.Segments(r.value).Some?
              && TokenCodec.Decode(r.value, env.refreshSecret, nowMs)
                 == TokenCodec.Verdict(LegacyClaims(payload, nowMs, RefreshTokenExpiry), nowMs)
  {
    var c := LegacyClaims(payload, nowMs, RefreshTokenExpiry);
    if env.refreshSecret == "" then TokenCodec.Encode(c, env.refreshSecret)
    else
      TokenCodec.DecodeEncode(c, env.refreshSecret, nowMs);
      TokenCodec.SegmentsOfEncode(c, env.refreshSecret);
      TokenCodec.Encode(c, env.refreshSecret)
  }

  lemma GenerateAccessTokenSigns(payload: seq<Member>, env: Env, nowMs: nat)
    ensures GenerateAccessToken(payload, env, nowMs)
         == TokenCodec.Encode(LegacyClaims(payload, nowMs, AccessTokenExpiry), env.jwtSecret)
  {
  }

  lemma GenerateRefreshTokenSigns(payload: seq<Member>, env: Env, nowMs: nat)
    ensures GenerateRefreshToken(payload, env, nowMs)
         == TokenCodec.Encode(LegacyClaims(payload, nowMs, RefreshTokenExpiry), env.refreshSecret)
  {
  }

  /** The module's own test `decoded.exp < Math.floor(Date.now() / 1000)`; a
      missing `exp` compares as false. */
  predicate ExpiredBySecond(p: Json, checkMs: nat) {
    match NumField(p, "exp")
    case Some(exp) => exp < checkMs / 1000
    case None => false
  }

  /** Library decode at `nowMs`, then the module's own expiry test with
      `message` at `checkMs`: the two are separate `Date.now()` readings,
      the library's first. */
  function DecodeWith(token: string, key: string, nowMs: nat, checkMs: nat, message: string)
    : (r: Result<Json, Error>)
    ensures r.Success? ==>
              TokenCodec.Decode(token, key, nowMs) == r
              && !ExpiredBySecond(r.value, checkMs)
              && (key != "" ==> TokenCodec.Encode(r.value, key) == Success(token))
    ensures r.Failure? ==>
              r.error.Thrown?
              && (r.error.message == message || TokenCodec.Decode(token, key, nowMs) == r)
    ensures TokenCodec.Decode(token, key, nowMs).Failure? ==> r == TokenCodec.Decode(token, key, nowMs)
  {
    TokenCodec.DecodeOnlyIssued(token, key, nowMs);
    match TokenCodec.Decode(token, key, nowMs)
    case Failure(e) => Failure(e)
    case Success(p) =>
      if ExpiredBySecond(p, checkMs) then Failure(Thrown(message)) else Success(p)
  }

  /** `decodeAccessToken(token)`: the library's verdict, or its own "Token
      expired" for a payload the library accepted. */
  function DecodeAccessToken(token: string, env: Env, nowMs: nat, checkMs: nat): (r: Result<Json, Error>)
    ensures r.Success? ==>
              TokenCodec.Decode(token, env.jwtSecret, nowMs) == r && !ExpiredBySecond(r.value, checkMs)
    ensures r.Failure? ==>
              r.error == Thrown(TokenCodec.Expired) || TokenCodec.Decode(token, env.jwtSecret, nowMs) == r
  {
    DecodeWith(token, env.jwtSecret, nowMs, checkMs, TokenCodec.Expired)
  }

  /** `decodeRefreshToken(token)`: the library's verdict, or "Refresh token
      expired" for a payload the library accepted. */
  function DecodeRefreshToken(token: string, env: Env, nowMs: nat, checkMs: nat): (r: Result<Json, Error>)
    ensures r.Success? ==>
              TokenCodec.Decode(token, env.refreshSecret, nowMs) == r && !ExpiredBySecond(r.value, checkMs)
    ensures r.Failure? ==>
              (r.error == Thrown(RefreshExpired)
               && TokenCodec.Decode(token, env.refreshSecret, nowMs).Success?
               && ExpiredBySecond(TokenCodec.Decode(token, env.refreshSecret, nowMs).value, checkMs))
              || TokenCodec.Decode(token, env.refreshSecret, nowMs) == r
  {
    DecodeWith(token, env.refreshSecret, nowMs, checkMs, RefreshExpired)
  }

  /** On one clock reading the module's own test only ever fires on a
      payload whose `exp` is 0: for any other `exp` an expired second means
      the library's millisecond test has already failed. */
  lemma ExpiredBySecondIsPastExpiry(p: Json, nowMs: nat)
    requires ExpiredBySecond(p, nowMs) && NumField(p, "exp") != Some(0)
    ensures TokenCodec.PastExpiry(p, nowMs)
  {
    var exp := NumField(p, "exp").value;
    assert exp < nowMs / 1000;
    assert (exp + 1) * 1000 <= nowMs / 1000 * 1000 <= nowMs;
  }

  /** A failure with the module's own message happens only for a token the
      library accepts, and only when its `exp` is 0 or a second boundary
      falls between the library's clock reading and the module's. */
  lemma OwnExpiryNeedsLateCheck(token: string, key: string, nowMs: nat, checkMs: nat, message: string)
    requires DecodeWith(token, key, nowMs, checkMs, message) == Failure(Thrown(message))
    requires TokenCodec.Decode(token, key, nowMs) != Failure(Thrown(message))
    ensures TokenCodec.Decode(token, key, nowMs).Success?
    ensures var exp := NumField(TokenCodec.Decode(token, key, nowMs).value, "exp");
            exp.Some? && exp.value < checkMs / 1000
            && (exp.value == 0 || nowMs / 1000 <= exp.value)
  {
    var p := TokenCodec.Decode(token, key, nowMs).value;
    var exp := NumField(p, "exp").value;
    if exp != 0 {
      assert !TokenCodec.PastExpiry(p, nowMs);
      assert nowMs <= exp * 1000;
    }
  }

  /** The refresh message: "Refresh token expired" comes only from a
      library-accepted token whose `exp` is 0 or whose expiry second ended
      between the two clock readings. */
  lemma RefreshExpiredNeedsLateCheck(token: string, env: Env, nowMs: nat, checkMs: nat)
    requires DecodeRefreshToken(token, env, nowMs, checkMs) == Failure(Thrown(RefreshExpired))
    ensures TokenCodec.Decode(token, env.refreshSecret, nowMs).Success?
    ensures var exp := NumField(TokenCodec.Decode(token, env.refreshSecret, nowMs).value, "exp");
            exp.Some? && (exp.value == 0 || nowMs / 1000 <= exp.value < checkMs / 1000)
  {
    OwnExpiryNeedsLateCheck(token, env.refreshSecret, nowMs, checkMs, RefreshExpired);
  }

  /** A token signed from claims without `nbf` whose `exp` is the issue
      second plus a positive lifetime decodes, under its key, to those claims
      until the expiry millisecond, and to the library's "Token expired" after
      it; the module's own test fires only when its later reading has passed
      the expiry second. */
  lemma IssuedTokenVerdict(c: Json, nowMs: nat, lifetime: nat, key: string, atMs: nat, checkMs: nat,
                           message: string)
    requires key != "" && lifetime > 0
    requires Field(c, "nbf") == None && NumField(c, "exp") == Some(IssuedAt(nowMs) + lifetime)
    ensures DecodeWith(TokenCodec.Encode(c, key).value, key, atMs, checkMs, message) ==
              if atMs > LastValidMs(nowMs, lifetime) then Failure(Thrown(TokenCodec.Expired))
              else if checkMs / 1000 > IssuedAt(nowMs) + lifetime then Failure(Thrown(message))
              else Success(c)
  {
    TokenCodec.DecodeEncode(c, key, atMs);
  }

  /** Claims built from a payload without `nbf` have no `nbf`. */
  lemma LegacyClaimsNoNotBefore(payload: seq<Member>, nowMs: nat, lifetime: nat)
    requires Get(payload, "nbf") == None
    ensures Field(LegacyClaims(payload, nowMs, lifetime), "nbf") == None
  {
    LegacyClaimsFields(payload, nowMs, lifetime, "nbf");
  }

  /** The claims' `exp` is the issue second plus the lifetime. */
  lemma LegacyClaimsExpiry(payload: seq<Member>, nowMs: nat, lifetime: nat)
    ensures NumField(LegacyClaims(payload, nowMs, lifetime), "exp") == Some(IssuedAt(nowMs) + lifetime)
  {
    LegacyClaimsFields(payload, nowMs, lifetime, "exp");
  }

  /** Decoding a legacy access token read at `atMs` and re-checked at
      `checkMs`: the claims, carrying every payload field but the password,
      until the expiry millisecond, and "Token expired" after it or once the
      re-check has passed the expiry second. A caller payload has no `nbf`. */
  lemma AccessTokenRoundTrip(payload: seq<Member>, env: Env, nowMs: nat, atMs: nat, checkMs: nat)
    requires env.jwtSecret != "" && Get(payload, "nbf") == None
    ensures DecodeAccessToken(GenerateAccessToken(payload, env, nowMs).value, env, atMs, checkMs) ==
              if atMs > LastValidMs(nowMs, AccessTokenExpiry)
                 || checkMs / 1000 > IssuedAt(nowMs) + AccessTokenExpiry
              then Failure(Thrown(TokenCodec.Expired))
              else Success(LegacyClaims(payload, nowMs, AccessTokenExpiry))
  {
    var c := LegacyClaims(payload, nowMs, AccessTokenExpiry);
    GenerateAccessTokenSigns(payload, env, nowMs);
    LegacyClaimsNoNotBefore(payload, nowMs, AccessTokenExpiry);
    LegacyClaimsExpiry(payload, nowMs, AccessTokenExpiry);
    IssuedTokenVerdict(c, nowMs, AccessTokenExpiry, env.jwtSecret, atMs, checkMs, TokenCodec.Expired);
  }

  /** The same for refresh tokens: the library's "Token expired" after the
      expiry millisecond, and the module's "Refresh token expired" when only
      the re-check has passed the expiry second. */
  lemma RefreshTokenRoundTrip(payload: seq<Member>, env: Env, nowMs: nat, atMs: nat, checkMs: nat)
    requires env.refreshSecret != "" && Get(payload, "nbf") == None
    ensures DecodeRefreshToken(GenerateRefreshToken(payload, env, nowMs).value, env, atMs, checkMs) ==
              if atMs > LastValidMs(nowMs, RefreshTokenExpiry) then Failure(Thrown(TokenCodec.Expired))
              else if checkMs / 1000 > IssuedAt(nowMs) + RefreshTokenExpiry then Failure(Thrown(RefreshExpired))
              else Success(LegacyClaims(payload, nowMs, RefreshTokenExpiry))
  {
    var c := LegacyClaims(payload, nowMs, RefreshTokenExpiry);
    GenerateRefreshTokenSigns(payload, env, nowMs);
    LegacyClaimsNoNotBefore(payload, nowMs, RefreshTokenExpiry);
    LegacyClaimsExpiry(payload, nowMs, RefreshTokenExpiry);
    IssuedTokenVerdict(c, nowMs, RefreshTokenExpiry, env.refreshSecret, atMs, checkMs, RefreshExpired);
  }

  /** The input that shows the module's own refresh message: a refresh token
      read by the library in the last millisecond of its life and re-checked
      a second later. */
  lemma RefreshExpiredAcrossSecond(payload: seq<Member>, env: Env, nowMs: nat)
    requires env.refreshSecret != "" && Get(payload, "nbf") == None
    ensures var t := GenerateRefreshToken(payload, env, nowMs).value;
            var last := LastValidMs(nowMs, RefreshTokenExpiry);
            DecodeRefreshToken(t, env, last, last + 1000) == Failure(Thrown(RefreshExpired))
  {
    var last := LastValidMs(nowMs, RefreshTokenExpiry);
    RefreshTokenRoundTrip(payload, env, nowMs, last, last + 1000);
  }

  /** Within the expiry second itself only its first millisecond is
      accepted, and only while the re-check is still inside that second: the
      module's `exp == now` (in seconds) acceptance is overruled by the
      library's millisecond test. */
  lemma ExpirySecondBoundary(payload: seq<Member>, env: Env, nowMs: nat, atMs: nat, checkMs: nat)
    requires env.jwtSecret != "" && Get(payload, "nbf") == None
    requires atMs / 1000 == IssuedAt(nowMs) + AccessTokenExpiry
    ensures DecodeAccessToken(GenerateAccessToken(payload, env, nowMs).value, env, atMs, checkMs).Success?
            <==> atMs % 1000 == 0 && checkMs / 1000 <= IssuedAt(nowMs) + AccessTokenExpiry
  {
    AccessTokenRoundTrip(payload, env, nowMs, atMs, checkMs);
  }
}

=== FILE: middleware.dfy ===
/** The bearer gate of the current backend
    (backend/src/auth/auth.middleware.ts): a missing or empty Authorization
    header is a 401; otherwise a leading "Bearer " is dropped, the rest is
    decoded as an access token, and its claims are attached before the next
    handler runs. */
module AuthMiddleware {
  import opened Wrappers
  import opened Text
  import opened Json
  import opened Errors
  import TokenCodec
  import Jwt

  const BearerPrefix: string := "Bearer "

  /** What the gate does with a request: run the next handler with
      `jwtPayload` set, or throw (which ends the request in the error
      handler, not modelled). */
  datatype Outcome = Next(jwtPayload: Json) | Raise(error: Error)

  /** `authHeader.replace(/^Bearer /, "")`. */
  function BearerToken(header: string): (t: string)
    ensures StartsWith(header, BearerPrefix) ==> header == BearerPrefix + t
    ensures !StartsWith(header, BearerPrefix) ==> t == header
  {
    StripPrefix(header, BearerPrefix)
  }

  /** `jwtAuthMiddleware` on a request whose Authorization header is `header`. */
  function JwtAuth(header: Option<string>, env: Jwt.Env, nowMs: nat): (o: Outcome)
    ensures header.None? || header == Some("") ==> o == Raise(Unauthorized)
    ensures o.Next? ==>
              header.Some? && Jwt.DecodeAccessToken(BearerToken(header.value), env, nowMs) == Success(o.jwtPayload)
    ensures o.Raise? && header.Some? && header.value != "" ==>
              Jwt.DecodeAccessToken(BearerToken(header.value), env, nowMs) == Failure(o.error)
  {
    if header.None? || header.value == "" then Raise(Unauthorized)
    else
      match Jwt.DecodeAccessToken(BearerToken(header.value), env, nowMs)
      case Success(p) => Next(p)
      case Failure(e) => Raise(e)
  }

  lemma BearerTokenOfPrefixed(token: string)
    ensures BearerToken(BearerPrefix + token) == token
  {
    assert StartsWith(BearerPrefix + token, BearerPrefix) by {
      assert (BearerPrefix + token)[..|BearerPrefix|] == BearerPrefix;
    }
    var t := BearerToken(BearerPrefix + token);
    assert BearerPrefix + token == BearerPrefix + t;
    assert token == (BearerPrefix + token)[|BearerPrefix|..] == t;
  }

  /** Every token the codec makes starts with its header, never with "Bearer ". */
  lemma TokenIsNotBearer(token: string)
    requires StartsWith(token, TokenCodec.Header)
    ensures !StartsWith(token, BearerPrefix)
  {
    assert token[0] == 'e';
  }

  /** A freshly issued access token, sent as "Bearer <token>", lets the
      request through with exactly its claims until it expires, and is a 401
      after that. */
  lemma AcceptsIssuedBearer(id: string, env: Jwt.Env, nowMs: nat, atMs: nat)
    requires env.jwtSecret != ""
    ensures var t := Jwt.GenerateAccessToken(id, env, nowMs).value;
            JwtAuth(Some(BearerPrefix + t), env, atMs) ==
              if atMs > Jwt.LastValidMs(nowMs, Jwt.AccessTokenExpiry) then Raise(Unauthorized)
              else Next(Jwt.FreshClaims(id, nowMs, Jwt.AccessTokenExpiry))
  {
    var t := Jwt.GenerateAccessToken(id, env, nowMs).value;
    BearerTokenOfPrefixed(t);
    Jwt.AccessTokenRoundTrip(id, env, nowMs, atMs);
  }

  /** Only a leading "Bearer " is removed: the bare token, with no scheme
      at all, is passed to the decoder unchanged and is accepted the same. */
  lemma AcceptsBareToken(id: string, env: Jwt.Env, nowMs: nat, atMs: nat)
    requires env.jwtSecret != ""
    ensures var t := Jwt.GenerateAccessToken(id, env, nowMs).value;
            JwtAuth(Some(t), env, atMs) == JwtAuth(Some(BearerPrefix + t), env, atMs)
  {
    var t := Jwt.GenerateAccessToken(id, env, nowMs).value;
    TokenIsNotBearer(t);
    BearerTokenOfPrefixed(t);
  }
}

/** The bearer gate of the earlier server (src/middleware/auth.middleware.ts):
    the header must be present and start with "Bearer ", else the answer is a
    401 with body `{message: "Unauthorized"}` and no token is decoded. */
module LegacyAuthMiddleware {
  import opened Wrappers
  import opened Text
  import opened Json
  import opened Errors
  import TokenCodec
  import Jwt
  import LegacyJwt
  import AuthMiddleware

  /** Run the next handler with `jwtPayload` set, answer directly, or throw. */
  datatype Outcome = Next(jwtPayload: Json) | Respond(status: nat, body: Json) | Raise(error: Error)

  function UnauthorizedBody(): Json {
    JObj([Member("message", JStr("Unauthorized"))])
  }

  /** `authHeader.replace("Bearer ", "")`: the first occurrence, wherever it
      is, is cut out; a header without one is kept whole. */
  function BearerToken(header: string): (t: string)
    ensures IndexOf(header, AuthMiddleware.BearerPrefix).None? ==> t == header
    ensures IndexOf(header, AuthMiddleware.BearerPrefix).Some? ==>
              var i := IndexOf(header, AuthMiddleware.BearerPrefix).value;
              i <= |t| && header == t[..i] + AuthMiddleware.BearerPrefix + t[i..]
  {
    CutOutFirst(header, AuthMiddleware.BearerPrefix);
    ReplaceFirst(header, AuthMiddleware.BearerPrefix, "")
  }

  /** `jwtAuthMiddleware` on a request whose Authorization header is `header`. */
  function JwtAuth(header: Option<string>, env: Jwt.Env, nowMs: nat, checkMs: nat): (o: Outcome)
    ensures o.Respond? <==>
              header.None? || !StartsWith(header.value, AuthMiddleware.BearerPrefix)
    ensures o.Respond? ==> o == Respond(401, UnauthorizedBody())
    ensures !o.Respond? ==>
              header.Some? && header.value == AuthMiddleware.BearerPrefix + BearerToken(header.value)
    ensures o.Next? ==>
              LegacyJwt.DecodeAccessToken(BearerToken(header.value), env, nowMs, checkMs) == Success(o.jwtPayload)
    ensures o.Raise? ==>
              LegacyJwt.DecodeAccessToken(BearerToken(header.value), env, nowMs, checkMs) == Failure(o.error)
  {
    if header.None? || !StartsWith(header.value, AuthMiddleware.BearerPrefix) then
      Respond(401, UnauthorizedBody())
    else
      ReplaceFirstAtStart(header.value, AuthMiddleware.BearerPrefix);
      match LegacyJwt.DecodeAccessToken(BearerToken(header.value), env, nowMs, checkMs)
      case Success(p) => Next(p)
      case Failure(e) => Raise(e)
  }

  /** Both gates read the same token out of a "Bearer " header. */
  lemma SameTokenAsBackend(header: string)
    requires StartsWith(header, AuthMiddleware.BearerPrefix)
    ensures BearerToken(header) == AuthMiddleware.BearerToken(header)
  {
    ReplaceFirstAtStart(header, AuthMiddleware.BearerPrefix);
  }

  /** A legacy access token sent as "Bearer <token>" is let through with its
      claims until it expires; the same token without the scheme is turned
      away with the 401 body, whatever it holds. `atMs` and `checkMs` are the
      decoder's two clock readings. */
  lemma IssuedBearerAndBareToken(payload: seq<Member>, env: Jwt.Env, nowMs: nat, atMs: nat, checkMs: nat)
    requires env.jwtSecret != "" && Get(payload, "nbf") == None
    ensures var t := LegacyJwt.GenerateAccessToken(payload, env, nowMs).value;
            && JwtAuth(Some(AuthMiddleware.BearerPrefix + t), env, atMs, checkMs) ==
                 (if atMs > Jwt.LastValidMs(nowMs, Jwt.AccessTokenExpiry)
                     || checkMs / 1000 > Jwt.IssuedAt(nowMs) + Jwt.AccessTokenExpiry
                  then Raise(Thrown(TokenCodec.Expired))
                  else Next(LegacyJwt.LegacyClaims(payload, nowMs, Jwt.AccessTokenExpiry)))
            && JwtAuth(Some(t), env, atMs, checkMs) == Respond(401, UnauthorizedBody())
  {
    var t := LegacyJwt.GenerateAccessToken(payload, env, nowMs).value;
    var h := AuthMiddleware.BearerPrefix + t;
    AuthMiddleware.BearerTokenOfPrefixed(t);
    assert StartsWith(h, AuthMiddleware.BearerPrefix) by {
      assert h[..|AuthMiddleware.BearerPrefix|] == AuthMiddleware.BearerPrefix;
    }
    SameTokenAsBackend(h);
    LegacyJwt.GenerateAccessTokenSigns(payload, env, nowMs);
    AuthMiddleware.TokenIsNotBearer(t);
    LegacyJwt.AccessTokenRoundTrip(payload, env, nowMs, atMs, checkMs);
  }
}

=== FILE: session_store.dfy ===
/** What the browser client sends and receives. The server is a parameter:
    a function from each request to its response, so every lemma holds for
    whatever the server answers. */
module Http {
  import opened Wrappers
  import opened Json

  const BaseUrl: string := "http://localhost:3000"
  const SignUpUrl: string := BaseUrl + "/sign-up"
  const SignInUrl: string := BaseUrl + "/sign-in"
  const MeUrl: string := BaseUrl + "/me"
  const TokenRefreshUrl: string := BaseUrl + "/token-refresh"

  datatype Method = Get | Post

  datatype Request = Request(verb: Method, url: string, authorization: Option<string>, body: Option<Json>)

  /** A 2xx answer with its body, a non-2xx status, or no answer at all
      (axios rejects the last two). */
  datatype Response = Ok(data: Json) | Status(code: nat) | NoResponse

  type Server = Request -> Response

  /** The value of an `Authorization` header carrying `token`. */
  function Bearer(token: string): string {
    "Bearer " + token
  }

  /** `z.object({accessToken: z.string(), refreshToken: z.string()}).parse(data)`. */
  function TokenPair(data: Json): (r: Option<(string, string)>)
    ensures r.Some? <==> StrField(data, "accessToken").Some? && StrField(data, "refreshToken").Some?
    ensures r.Some? ==> r.value == (StrField(data, "accessToken").value, StrField(data, "refreshToken").value)
  {
    match (StrField(data, "accessToken"), StrField(data, "refreshToken"))
    case (Some(a), Some(r)) => Some((a, r))
    case _ => None
  }

  /** The request both refresh helpers send: the stored refresh token, as
      JSON, to the token-refresh endpoint, with no Authorization header. */
  function RefreshRequest(refreshToken: string): Request {
    Request(Post, TokenRefreshUrl, None, Some(JObj([Member("refreshToken", JStr(refreshToken))])))
  }
}

/** The client's persisted session (frontend/src/data-stores/auth.ts): a
    small state machine over `{user, accessToken, refreshToken,
    isAuthenticated}`. Every `set` is written through to the `auth-storage`
    record; `logout` then removes that record. */
module SessionStore {
  import opened Wrappers
  import opened Json
  import opened Http
  import Accounts

  datatype User = User(id: string, email: string, role: Accounts.Role)

  datatype Session = Session(user: Option<User>, accessToken: Option<string>,
                             refreshToken: Option<string>, isAuthenticated: bool)

  /** The live state and the persisted record, if any. */
  datatype Client = Client(state: Session, stored: Option<Session>)

  /** Why signing up or in rejected: the request failed, or an answer did
      not have the expected shape (a ZodError). */
  datatype ClientError = HttpFailed(response: Response) | BadShape

  /** A JavaScript string is truthy when it is not empty. */
  predicate Truthy(s: Option<string>) {
    s.Some? && s.value != ""
  }

  predicate SignedOut(s: Session) {
    s.user.None? && s.accessToken.None? && s.refreshToken.None? && !s.isAuthenticated
  }

  /** The store before anything is rehydrated. */
  function Initial(): Client {
    Client(Session(None, None, None, false), None)
  }

  /** `set(...)` under `persist`: the new state is also written out. */
  function Set(s: Session): (c: Client)
    ensures c.state == s && c.stored == Some(s)
  {
    Client(s, Some(s))
  }

  /** The user schema of `authenticateUser`; the role must be one of the two. */
  function ParseUser(data: Json): (r: Option<User>)
    ensures r.Some? ==> StrField(data, "id") == Some(r.value.id) && StrField(data, "email") == Some(r.value.email)
    ensures r.Some? ==> StrField(data, "role") == Some(if r.value.role == Accounts.Admin then "admin" else "user")
    ensures r.Some? <==>
              && StrField(data, "id").Some? && StrField(data, "email").Some?
              && StrField(data, "role") in {Some("admin"), Some("user")}
  {
    match (StrField(data, "id"), StrField(data, "email"), StrField(data, "role"))
    case (Some(id), Some(email), Some(role)) =>
      if role == "admin" then Some(User(id, email, Accounts.Admin))
      else if role == "user" then Some(User(id, email, Accounts.User))
      else None
    case _ => None
  }

  function Credentials(email: string, password: string): Json {
    JObj([Member("email", JStr(email)), Member("password", JStr(password))])
  }

  /** `authenticateUser(url, email, password)`: post the credentials, read a
      token pair, then fetch `/me` with the new access token. Also gives the
      requests sent, in order. */
  function Authenticate(url: string, email: string, password: string, server: Server)
    : (out: (Result<(User, string, string), ClientError>, seq<Request>))
    ensures |out.1| >= 1 && out.1[0] == Request(Post, url, None, Some(Credentials(email, password)))
    ensures out.0.Success? ==>
              var (user, access, refresh) := out.0.value;
              && server(out.1[0]).Ok?
              && TokenPair(server(out.1[0]).data) == Some((access, refresh))
              && out.1 == [out.1[0], Request(Get, MeUrl, Some(Bearer(access)), None)]
              && server(out.1[1]).Ok?
              && ParseUser(server(out.1[1]).data) == Some(user)
    ensures var post := server(out.1[0]);
            var pair := if post.Ok? then TokenPair(post.data) else None;
            var me := if pair.Some? then server(Request(Get, MeUrl, Some(Bearer(pair.value.0)), None)) else NoResponse;
            out.0.Success? <==> post.Ok? && pair.Some? && me.Ok? && ParseUser(me.data).Some?
    ensures out.0.Failure? && out.0.error.HttpFailed? ==> !server(out.1[|out.1| - 1]).Ok? && out.0.error.response == server(out.1[|out.1| - 1])
  {
    var post := Request(Post, url, None, Some(Credentials(email, password)));
    match server(post)
    case Ok(tokenData) =>
      (match TokenPair(tokenData)
       case None => (Failure(BadShape), [post])
       case Some((access, refresh)) =>
         var me := Request(Get, MeUrl, Some(Bearer(access)), None);
         match server(me)
         case Ok(userData) =>
           (match ParseUser(userData)
            case Some(user) => (Success((user, access, refresh)), [post, me])
            case None => (Failure(BadShape), [post, me]))
         case other => (Failure(HttpFailed(other)), [post, me]))
    case other => (Failure(HttpFailed(other)), [post])
  }

  /** `signup` and `login`, which differ only in `url`: on success the user
      and both tokens are set together and the session is authenticated; on
      failure the error propagates and nothing changes. */
  function SignIn(c: Client, url: string, email: string, password: string, server: Server)
    : (out: (Option<ClientError>, Client))
    ensures out.0.Some? <==> Authenticate(url, email, password, server).0.Failure?
    ensures out.0.Some? ==> out.1 == c && out.0.value == Authenticate(url, email, password, server).0.error
    ensures out.0.None? ==>
              var (user, access, refresh) := Authenticate(url, email, password, server).0.value;
              && out.1.stored == Some(out.1.state)
              && out.1.state == Session(Some(user), Some(access), Some(refresh), true)
  {
    match Authenticate(url, email, password, server).0
    case Failure(e) => (Some(e), c)
    case Success((user, access, refresh)) =>
      (None, Set(Session(Some(user), Some(access), Some(refresh), true)))
  }

  /** `signup`: the credentials go to the sign-up endpoint. */
  function SignUp(c: Client, email: string, password: string, server: Server): (out: (Option<ClientError>, Client))
    ensures out.0.Some? ==> out.1 == c
    ensures out.0.None? ==>
              && server(Request(Post, SignUpUrl, None, Some(Credentials(email, password)))).Ok?
              && out.1.state.isAuthenticated && out.1.stored == Some(out.1.state)
              && out.1.state.user.Some?
  {
    SignIn(c, SignUpUrl, email, password, server)
  }

  /** `login`: the credentials go to the sign-in endpoint. */
  function Login(c: Client, email: string, password: string, server: Server): (out: (Option<ClientError>, Client))
    ensures out.0.Some? ==> out.1 == c
    ensures out.0.None? ==>
              && server(Request(Post, SignInUrl, None, Some(Credentials(email, password)))).Ok?
              && out.1.state.isAuthenticated && out.1.stored == Some(out.1.state)
              && out.1.state.user.Some?
  {
    SignIn(c, SignInUrl, email, password, server)
  }

  /** `logout`: everything cleared and the persisted record removed. */
  function Logout(c: Client): (c': Client)
    ensures SignedOut(c'.state) && c'.stored.None?
  {
    Client(Session(None, None, None, false), None)
  }

  /** The store's `refreshTokens`. Without a (non-empty) refresh token it
      answers false and changes nothing; a well-formed answer replaces both
      tokens, keeps the user and authenticates; any failure logs out. */
  function Refresh(c: Client, server: Server): (out: (bool, Client))
    ensures !Truthy(c.state.refreshToken) ==> out == (false, c)
    ensures Truthy(c.state.refreshToken) && !out.0 ==> out.1 == Logout(c)
    ensures out.0 <==>
              && Truthy(c.state.refreshToken)
              && server(RefreshRequest(c.state.refreshToken.value)).Ok?
              && TokenPair(server(RefreshRequest(c.state.refreshToken.value)).data).Some?
    ensures out.0 ==>
              var response := server(RefreshRequest(c.state.refreshToken.value));
              && Truthy(c.state.refreshToken)
              && response.Ok? && TokenPair(response.data).Some?
              && out.1.stored == Some(out.1.state)
              && out.1.state.user == c.state.user && out.1.state.isAuthenticated
              && out.1.state.accessToken == Some(TokenPair(response.data).value.0)
              && out.1.state.refreshToken == Some(TokenPair(response.data).value.1)
  {
    if !Truthy(c.state.refreshToken) then (false, c)
    else
      match server(RefreshRequest(c.state.refreshToken.value))
      case Ok(data) =>
        (match TokenPair(data)
         case Some((access, refresh)) =>
           (true, Set(Session(c.state.user, Some(access), Some(refresh), true)))
         case None => (false, Logout(c)))
      case _ => (false, Logout(c))
  }

  /** Loading the store: the persisted record, when there is one, replaces
      the fields of `current`; then `isAuthenticated` is raised when both a
      user and a non-empty access token are present. It is never lowered. */
  function Rehydrate(current: Session, stored: Option<Session>): (s: Session)
    ensures var merged := stored.GetOr(current);
            && s.user == merged.user && s.accessToken == merged.accessToken
            && s.refreshToken == merged.refreshToken
            && (s.isAuthenticated <==> merged.isAuthenticated || (merged.user.Some? && Truthy(merged.accessToken)))
  {
    var merged := if stored.Some? then stored.value else current;
    if merged.user.Some? && Truthy(merged.accessToken) then merged.(isAuthenticated := true) else merged
  }

  /** A fresh store, reloaded with nothing persisted, is signed out. */
  lemma InitialIsSignedOut()
    ensures SignedOut(Initial().state) && Initial().stored.None?
    ensures Rehydrate(Initial().state, Initial().stored) == Initial().state
  {
  }

  /** After logout a reload finds nothing and stays signed out, and logging
      out twice is logging out once. */
  lemma LogoutSurvivesReload(c: Client)
    ensures Rehydrate(Initial().state, Logout(c).stored) == Logout(c).state == Initial().state
    ensures Logout(Logout(c)) == Logout(c)
  {
  }

  /** A signed-in session is restored as it was by a reload. */
  lemma SignInSurvivesReload(c: Client, url: string, email: string, password: string, server: Server)
    requires SignIn(c, url, email, password, server).0.None?
    ensures var c' := SignIn(c, url, email, password, server).1;
            Rehydrate(Initial().state, c'.stored) == c'.state
  {
  }

  /** A successful refresh keeps the user signed in across a reload. */
  lemma RefreshSurvivesReload(c: Client, server: Server)
    requires Refresh(c, server).0
    ensures var c' := Refresh(c, server).1;
            Rehydrate(Initial().state, c'.stored) == c'.state && c'.state.isAuthenticated
  {
  }

  /** The session after signing in holds exactly what `/me` returned for
      its own access token. */
  lemma SignedInUserIsMe(c: Client, url: string, email: string, password: string, server: Server)
    requires SignIn(c, url, email, password, server).0.None?
    ensures var s := SignIn(c, url, email, password, server).1.state;
            && s.accessToken.Some? && s.user.Some?
            && server(Request(Get, MeUrl, Some(Bearer(s.accessToken.value)), None)).Ok?
            && ParseUser(server(Request(Get, MeUrl, Some(Bearer(s.accessToken.value)), None)).data) == s.user
  {
  }
}

=== FILE: text.dfy ===
/** String helpers the modelled code takes from JavaScript's `String` and
    `Number`: decimal text of numbers, `startsWith`, `replace` with a string
    pattern, ASCII `toLowerCase`, and splitting at a character. */
module Text {
  import opened Wrappers

  // ---------------------------------------------------------------------------
  // Decimal text of naturals and integers
  // ---------------------------------------------------------------------------

  predicate IsDigit(c: char) {
    '0' <= c <= '9'
  }

  predicate AllDigits(s: string) {
    forall i :: 0 <= i < |s| ==> IsDigit(s[i])
  }

  /** Canonical decimal text: no leading zero except for "0" itself. */
  predicate Canonical(s: string) {
    |s| > 0 && AllDigits(s) && (|s| == 1 || s[0] != '0')
  }

  function DigitChar(d: nat): (c: char)
    requires d < 10
    ensures IsDigit(c)
  {
    ('0' as int + d) as char
  }

  function DigitValue(c: char): (d: nat)
    requires IsDigit(c)
    ensures d < 10 && DigitChar(d) == c
  {
    c as int - '0' as int
  }

  /** The decimal text of `n`, as `String(n)` writes it. */
  function NatText(n: nat): (s: string)
    ensures Canonical(s)
    ensures n > 0 ==> s[0] != '0'
    decreases n
  {
    if n < 10 then [DigitChar(n)] else NatText(n / 10) + [DigitChar(n % 10)]
  }

  /** The number a string of digits denotes (leading zeros allowed). */
  function DigitsValue(s: string): nat
    requires AllDigits(s)
    decreases |s|
  {
    if |s| == 0 then 0 else DigitsValue(s[..|s| - 1]) * 10 + DigitValue(s[|s| - 1])
  }

  /** Reads canonical decimal text; anything else is rejected. */
  function ParseNat(s: string): (r: Option<nat>)
    ensures r.Some? <==> Canonical(s)
  {
    if Canonical(s) then Some(DigitsValue(s)) else None
  }

  lemma {:induction false} DigitsValueOfNatText(n: nat)
    ensures DigitsValue(NatText(n)) == n
    decreases n
  {
    if n >= 10 {
      var p := NatText(n / 10);
      var s := NatText(n);
      assert s == p + [DigitChar(n % 10)];
      assert s[..|s| - 1] == p;
      DigitsValueOfNatText(n / 10);
    }
  }

  /** Reading the text of a number gives the number back. */
  lemma ParseNatText(n: nat)
    ensures ParseNat(NatText(n)) == Some(n)
  {
    DigitsValueOfNatText(n);
  }

  lemma {:induction false} LeadingDigitPositive(s: string)
    requires |s| > 0 && AllDigits(s) && s[0] != '0'
    ensures DigitsValue(s) > 0
    decreases |s|
  {
    if |s| > 1 {
      LeadingDigitPositive(s[..|s| - 1]);
    }
  }

  lemma {:induction false} NatTextOfDigits(s: string)
    requires Canonical(s)
    ensures NatText(DigitsValue(s)) == s
    decreases |s|
  {
    if |s| > 1 {
      var p := s[..|s| - 1];
      assert Canonical(p);
      LeadingDigitPositive(p);
      NatTextOfDigits(p);
      var v := DigitsValue(s);
      assert v / 10 == DigitsValue(p) && v % 10 == DigitValue(s[|s| - 1]);
      assert s == p + [s[|s| - 1]];
    }
  }

  /** Canonical text and numbers are in one-to-one correspondence: the only
      text that reads as `n` is `NatText(n)`. */
  lemma ParseNatOnlyText(s: string, n: nat)
    ensures ParseNat(s) == Some(n) <==> s == NatText(n)
  {
    if ParseNat(s) == Some(n) {
      NatTextOfDigits(s);
    }
    if s == NatText(n) {
      ParseNatText(n);
    }
  }

  /** The decimal text of an integer, with a leading '-' when negative. */
  function IntText(n: int): (s: string)
    ensures |s| > 0
  {
    if n < 0 then "-" + NatText(-n) else NatText(n)
  }

  function ParseInt(s: string): Option<int> {
    if |s| > 0 && s[0] == '-' then
      match ParseNat(s[1..])
      case Some(k) => if k > 0 then Some(0 - k) else None
      case None => None
    else
      match ParseNat(s)
      case Some(k) => Some(k)
      case None => None
  }

  lemma ParseIntText(n: int)
    ensures ParseInt(IntText(n)) == Some(n)
  {
    if n < 0 {
      var s := IntText(n);
      assert s[1..] == NatText(-n);
      ParseNatText(-n);
    } else {
      ParseNatText(n);
    }
  }

  /** The only text that reads as the integer `n` is `IntText(n)`. */
  lemma ParseIntOnlyText(s: string, n: int)
    requires ParseInt(s) == Some(n)
    ensures IntText(n) == s
  {
    if |s| > 0 && s[0] == '-' {
      ParseNatOnlyText(s[1..], -n);
      assert s == "-" + s[1..];
    } else {
      ParseNatOnlyText(s, n);
    }
  }

  // ---------------------------------------------------------------------------
  // Searching and replacing
  // ---------------------------------------------------------------------------

  /** `s.startsWith(p)`. */
  predicate StartsWith(s: string, p: string) {
    |p| <= |s| && s[..|p|] == p
  }

  predicate MatchAt(s: string, pat: string, j: nat) {
    j + |pat| <= |s| && s[j..j + |pat|] == pat
  }

  /** The first index at or after `from` where `pat` occurs in `s`. */
  function IndexFrom(s: string, pat: string, from: nat): (r: Option<nat>)
    ensures r.Some? ==> from <= r.value && MatchAt(s, pat, r.value)
    ensures r.Some? ==> forall j :: from <= j < r.value ==> !MatchAt(s, pat, j)
    ensures r.None? ==> forall j :: from <= j ==> !MatchAt(s, pat, j)
    decreases |s| - from
  {
    if from + |pat| > |s| then None
    else if s[from..from + |pat|] == pat then Some(from)
    else IndexFrom(s, pat, from + 1)
  }

  /** `s.indexOf(pat)`, with `None` for -1. */
  function IndexOf(s: string, pat: string): Option<nat> {
    IndexFrom(s, pat, 0)
  }

  /** `s.replace(pat, rep)` with a string pattern: only the first occurrence
      is replaced, and `s` is returned unchanged when there is none. */
  function ReplaceFirst(s: string, pat: string, rep: string): (r: string)
    ensures IndexOf(s, pat).None? ==> r == s
    ensures IndexOf(s, pat).Some? ==>
              var i := IndexOf(s, pat).value;
              r == s[..i] + rep + s[i + |pat|..]
  {
    match IndexOf(s, pat)
    case None => s
    case Some(i) => s[..i] + rep + s[i + |pat|..]
  }

  /** Replacing the first `pat` by nothing cuts it out: putting it back at
      the same index gives `s`. */
  lemma CutOutFirst(s: string, pat: string)
    ensures IndexOf(s, pat).Some? ==>
              var i, r := IndexOf(s, pat).value, ReplaceFirst(s, pat, "");
              i <= |r| && s == r[..i] + pat + r[i..]
  {
    if IndexOf(s, pat).Some? {
      var i, r := IndexOf(s, pat).value, ReplaceFirst(s, pat, "");
      assert r == s[..i] + s[i + |pat|..];
      assert r[..i] == s[..i] && r[i..] == s[i + |pat|..];
      assert s[i..i + |pat|] == pat;
      assert s == s[..i] + s[i..i + |pat|] + s[i + |pat|..];
    }
  }

  /** `s.replace(/^p/, "")`: removes `p` only when `s` begins with it. */
  function StripPrefix(s: string, p: string): (r: string)
    ensures StartsWith(s, p) ==> s == p + r
    ensures !StartsWith(s, p) ==> r == s
  {
    if StartsWith(s, p) then s[|p|..] else s
  }

  /** When `s` begins with `pat`, replacing the first occurrence of `pat` by
      nothing is the same as stripping it as a prefix. */
  lemma ReplaceFirstAtStart(s: string, pat: string)
    requires StartsWith(s, pat)
    ensures ReplaceFirst(s, pat, "") == StripPrefix(s, pat)
  {
    assert MatchAt(s, pat, 0);
  }

  // ---------------------------------------------------------------------------
  // Characters
  // ---------------------------------------------------------------------------

  predicate IsUpper(c: char) {
    'A' <= c <= 'Z'
  }

  function LowerChar(c: char): (d: char)
    ensures !IsUpper(d)
    ensures !IsUpper(c) ==> d == c
  {
    if IsUpper(c) then (c as int + 32) as char else c
  }

  /** `s.toLowerCase()` restricted to ASCII letters. */
  function ToLower(s: string): (r: string)
    ensures |r| == |s|
    ensures forall i :: 0 <= i < |s| ==> r[i] == LowerChar(s[i])
  {
    seq(|s|, i requires 0 <= i < |s| => LowerChar(s[i]))
  }

  predicate NoUpper(s: string) {
    forall i :: 0 <= i < |s| ==> !IsUpper(s[i])
  }

  lemma ToLowerFixes(s: string)
    requires NoUpper(s)
    ensures ToLower(s) == s
  {
  }

  /** Lowercasing neither makes nor removes a character that is not a
      lower-case letter. */
  lemma ToLowerKeeps(s: string, c: char)
    requires !IsUpper(c) && !('a' <= c <= 'z')
    ensures c in ToLower(s) <==> c in s
  {
    if c in s {
      var i :| 0 <= i < |s| && s[i] == c;
      assert ToLower(s)[i] == c;
    }
    if c in ToLower(s) {
      var i :| 0 <= i < |s| && ToLower(s)[i] == c;
      assert s[i] == c;
    }
  }

  lemma ToLowerConcat(a: string, b: string)
    ensures ToLower(a + b) == ToLower(a) + ToLower(b)
  {
    assert forall i :: 0 <= i < |a| ==> (a + b)[i] == a[i];
    assert forall i :: |a| <= i < |a| + |b| ==> (a + b)[i] == b[i - |a|];
  }

  lemma NoUpperConcat(a: string, b: string)
    ensures NoUpper(a + b) <==> NoUpper(a) && NoUpper(b)
  {
    if NoUpper(a + b) {
      assert forall i :: 0 <= i < |a| ==> a[i] == (a + b)[i];
      assert forall i :: 0 <= i < |b| ==> b[i] == (a + b)[|a| + i];
    }
  }

  lemma ToLowerNoUpper(s: string)
    ensures NoUpper(ToLower(s))
  {
  }

  /** Two strings without capitals, joined at a character that is not one. */
  lemma NoUpperJoin(a: string, c: char, b: string)
    requires NoUpper(a) && !IsUpper(c) && NoUpper(b)
    ensures NoUpper(a + [c] + b)
  {
    NoUpperConcat(a, [c]);
    NoUpperConcat(a + [c], b);
  }

  /** Every character is in the ASCII range. */
  predicate IsAscii(s: string) {
    forall i :: 0 <= i < |s| ==> s[i] as int < 128
  }

  lemma AsciiConcat(a: string, b: string)
    ensures IsAscii(a + b) <==> IsAscii(a) && IsAscii(b)
  {
    if IsAscii(a + b) {
      assert forall i :: 0 <= i < |a| ==> a[i] == (a + b)[i];
      assert forall i :: 0 <= i < |b| ==> b[i] == (a + b)[|a| + i];
    }
  }

  /** Lowercasing ASCII text keeps it ASCII. */
  lemma ToLowerAscii(s: string)
    requires IsAscii(s)
    ensures IsAscii(ToLower(s))
  {
  }

  /** `s.replaceAll(c, "")`: every occurrence of `c` deleted. */
  function RemoveAll(s: string, c: char): (r: string)
    ensures c !in r
    ensures forall x :: x in r <==> x in s && x != c
    ensures |r| <= |s|
    decreases |s|
  {
    if |s| == 0 then ""
    else if s[0] == c then RemoveAll(s[1..], c)
    else [s[0]] + RemoveAll(s[1..], c)
  }

  lemma {:induction false} RemoveAllAbsent(s: string, c: char)
    requires c !in s
    ensures RemoveAll(s, c) == s
    decreases |s|
  {
    if |s| > 0 {
      RemoveAllAbsent(s[1..], c);
    }
  }

  lemma {:induction false} RemoveAllLower(s: string, c: char)
    requires NoUpper(s)
    ensures NoUpper(RemoveAll(s, c))
    decreases |s|
  {
    if |s| > 0 {
      RemoveAllLower(s[1..], c);
      var r := RemoveAll(s, c);
      assert forall x :: x in r ==> x in s;
    }
  }

  /** Deleting characters from ASCII text keeps it ASCII. */
  lemma RemoveAllAscii(s: string, c: char)
    requires IsAscii(s)
    ensures IsAscii(RemoveAll(s, c))
  {
    var r := RemoveAll(s, c);
    forall i | 0 <= i < |r|
      ensures r[i] as int < 128
    {
      assert r[i] in r;
      var j :| 0 <= j < |s| && s[j] == r[i];
    }
  }

  /** The part of `s` before the first `c` (all of `s` when there is none):
      the first element of `s.split(c)`. */
  function Before(s: string, c: char): (r: string)
    ensures c !in r
    ensures StartsWith(s, r)
  {
    match IndexOf(s, [c])
    case Some(i) =>
      assert forall j :: 0 <= j < i ==> s[j] != c by {
        forall j | 0 <= j < i
          ensures s[j] != c
        {
          assert !MatchAt(s, [c], j);
          assert s[j..j + 1] == [s[j]];
        }
      }
      s[..i]
    case None =>
      assert forall j :: 0 <= j < |s| ==> s[j] != c by {
        forall j | 0 <= j < |s|
          ensures s[j] != c
        {
          assert !MatchAt(s, [c], j);
          assert s[j..j + 1] == [s[j]];
        }
      }
      s
  }

  /** The part of `s` after the first `c` (empty when there is none). */
  function After(s: string, c: char): (r: string)
    ensures c in s ==> s == Before(s, c) + [c] + r
    ensures c !in s ==> r == ""
  {
    match IndexOf(s, [c])
    case Some(i) =>
      assert s[i..i + 1] == [c];
      assert s == s[..i] + [c] + s[i + 1..];
      s[i + 1..]
    case None =>
      assert forall j :: 0 <= j < |s| ==> s[j] != c by {
        forall j | 0 <= j < |s|
          ensures s[j] != c
        {
          assert !MatchAt(s, [c], j);
          assert s[j..j + 1] == [s[j]];
        }
      }
      ""
  }

  lemma BeforeAbsent(s: string, c: char)
    requires c !in s
    ensures Before(s, c) == s
  {
    forall j: nat
      ensures !MatchAt(s, [c], j)
    {
      if j + 1 <= |s| {
        assert s[j..j + 1] == [s[j]];
      }
    }
  }

  /** Splitting `a + [c] + b` at its first `c`, where `a` has none, gives back
      `a` and `b`. */
  lemma SplitAtFirst(a: string, c: char, b: string)
    requires c !in a
    ensures Before(a + [c] + b, c) == a
    ensures After(a + [c] + b, c) == b
  {
    var s := a + [c] + b;
    assert MatchAt(s, [c], |a|);
    forall j | 0 <= j < |a|
      ensures !MatchAt(s, [c], j)
    {
      assert s[j..j + 1] == [a[j]];
    }
  }
}

=== FILE: user_service.dfy ===
/** The backend's user collection (backend/src/db/UserService.ts): documents
    with an ObjectId, an email, a bcrypt digest and a role, looked up with
    `findOne` and read back through `userReadSchema`, which drops the digest
    and turns `_id` into the string `id`. An ObjectId is a number here and
    its string form is its canonical decimal text; fresh ids come from a
    counter. */
module UserService {
  import opened Wrappers
  import opened Text
  import opened Errors
  import opened Accounts
  import Email

  const InvalidObjectId: string := "input must be a 24 character hex string"
  const NullUser: string := "Expected object, received null"
  const BadUserEmail: string := "Invalid email"

  datatype UserDoc = UserDoc(id: nat, email: string, password: Hash, role: Role)

  datatype Store = Store(docs: seq<UserDoc>, nextId: nat)

  /** What the service hands out: never the digest. */
  datatype UserRead = UserRead(id: string, email: string, role: Role)

  /** Emails and ids are unique and every id is below the counter. */
  ghost predicate Valid(s: Store) {
    && (forall i, j :: 0 <= i < j < |s.docs| ==> s.docs[i].email != s.docs[j].email)
    && (forall i, j :: 0 <= i < j < |s.docs| ==> s.docs[i].id != s.docs[j].id)
    && (forall i :: 0 <= i < |s.docs| ==> s.docs[i].id < s.nextId)
  }

  /** `findOne({email})`: the first document with that email. */
  function FindByEmail(docs: seq<UserDoc>, email: string): (r: Option<UserDoc>)
    ensures r.Some? ==> r.value in docs && r.value.email == email
    ensures r.None? <==> forall i :: 0 <= i < |docs| ==> docs[i].email != email
  {
    if |docs| == 0 then None
    else if docs[0].email == email then Some(docs[0])
    else FindByEmail(docs[1..], email)
  }

  /** `findOne({_id})`: the first document with that id. */
  function FindById(docs: seq<UserDoc>, id: nat): (r: Option<UserDoc>)
    ensures r.Some? ==> r.value in docs && r.value.id == id
    ensures r.None? <==> forall i :: 0 <= i < |docs| ==> docs[i].id != id
  {
    if |docs| == 0 then None
    else if docs[0].id == id then Some(docs[0])
    else FindById(docs[1..], id)
  }

  /** `userReadSchema.parse(doc)`: null fails, an email that is not an
      address fails, anything else is read with its id as text. */
  function ReadUser(doc: Option<UserDoc>): (r: Result<UserRead, Error>)
    ensures r.Success? <==> doc.Some? && Email.EmailShape(doc.value.email)
    ensures r.Failure? ==> r.error.Invalid?
    ensures r.Success? ==>
              && ParseNat(r.value.id) == Some(doc.value.id)
              && r.value.email == doc.value.email
              && r.value.role == doc.value.role
  {
    match doc
    case None => Failure(Invalid(NullUser))
    case Some(d) =>
      if !Email.EmailShape(d.email) then Failure(Invalid(BadUserEmail))
      else
        ParseNatText(d.id);
        Success(UserRead(NatText(d.id), d.email, d.role))
  }

  /** `comparePassword({email, password})`. */
  function ComparePassword(s: Store, email: string, password: string): (r: Result<UserRead, Error>)
    ensures r == Failure(Unauthorized) <==>
              FindByEmail(s.docs, email).None?
              || !Matches(password, FindByEmail(s.docs, email).value.password)
    ensures r.Success? ==>
              r == ReadUser(FindByEmail(s.docs, email))
              && Matches(password, FindByEmail(s.docs, email).value.password)
  {
    match FindByEmail(s.docs, email)
    case None => Failure(Unauthorized)
    case Some(doc) =>
      if !Matches(password, doc.password) then Failure(Unauthorized)
      else ReadUser(Some(doc))
  }

  /** `getUserById(id)`: the id must be an ObjectId's text, and an absent
      user fails the read schema. */
  function GetUserById(s: Store, id: string): (r: Result<UserRead, Error>)
    ensures ParseNat(id).None? ==> r == Failure(Thrown(InvalidObjectId))
    ensures ParseNat(id).Some? ==> r == ReadUser(FindById(s.docs, ParseNat(id).value))
  {
    match ParseNat(id)
    case None => Failure(Thrown(InvalidObjectId))
    case Some(n) => ReadUser(FindById(s.docs, n))
  }

  /** `getUserByEmail(email)`: the stored user with that email, read without
      its digest, when its email is well-formed; an absent user fails the
      read schema on null. */
  function GetUserByEmail(s: Store, email: string): (r: Result<UserRead, Error>)
    ensures r.Success? <==>
              FindByEmail(s.docs, email).Some? && Email.EmailShape(email)
    ensures r.Success? ==>
              var doc := FindByEmail(s.docs, email).value;
              && r.value.email == email
              && ParseNat(r.value.id) == Some(doc.id)
              && r.value.role == doc.role
    ensures FindByEmail(s.docs, email).None? ==> r == Failure(Invalid(NullUser))
  {
    ReadUser(FindByEmail(s.docs, email))
  }

  /** `createUser({email, password})`, with `salt` the one bcrypt draws:
      the reply and the store afterwards. */
  function CreateUser(s: Store, email: string, password: string, salt: string)
    : (out: (Result<UserRead, Error>, Store))
    ensures out.0 == Failure(BadRequest) <==> FindByEmail(s.docs, email).Some?
    ensures FindByEmail(s.docs, email).Some? ==> out.1 == s
    ensures FindByEmail(s.docs, email).None? ==>
              && |out.1.docs| == |s.docs| + 1
              && out.1.docs[..|s.docs|] == s.docs
              && out.1.docs[|s.docs|].email == email
              && out.1.docs[|s.docs|].role == User
              && Matches(password, out.1.docs[|s.docs|].password)
              && out.1.docs[|s.docs|].id == s.nextId
              && out.0 == ReadUser(Some(out.1.docs[|s.docs|]))
    ensures FindByEmail(s.docs, email).None? && Email.EmailShape(email) ==>
              && out.0.Success?
              && out.0.value.email == email && out.0.value.role == User
              && ParseNat(out.0.value.id) == Some(s.nextId)
  {
    match FindByEmail(s.docs, email)
    case Some(_) => (Failure(BadRequest), s)
    case None =>
      var doc := UserDoc(s.nextId, email, HashPassword(password, salt), User);
      var s' := Store(s.docs + [doc], s.nextId + 1);
      assert s'.docs[..|s.docs|] == s.docs;
      (ReadUser(Some(doc)), s')
  }

  lemma {:induction false} FindByEmailAppend(docs: seq<UserDoc>, doc: UserDoc, email: string)
    requires FindByEmail(docs, doc.email).None?
    ensures FindByEmail(docs + [doc], email) ==
              if email == doc.email then Some(doc) else FindByEmail(docs, email)
    decreases |docs|
  {
    if |docs| > 0 {
      assert (docs + [doc])[1..] == docs[1..] + [doc];
      FindByEmailAppend(docs[1..], doc, email);
    } else {
      assert (docs + [doc])[1..] == [];
    }
  }

  lemma {:induction false} FindByIdAppend(docs: seq<UserDoc>, doc: UserDoc, id: nat)
    requires FindById(docs, doc.id).None?
    ensures FindById(docs + [doc], id) ==
              if id == doc.id then Some(doc) else FindById(docs, id)
    decreases |docs|
  {
    if |docs| > 0 {
      assert (docs + [doc])[1..] == docs[1..] + [doc];
      FindByIdAppend(docs[1..], doc, id);
    } else {
      assert (docs + [doc])[1..] == [];
    }
  }

  /** Creating a user keeps emails and ids unique. */
  lemma CreateUserKeepsValid(s: Store, email: string, password: string, salt: string)
    requires Valid(s)
    ensures Valid(CreateUser(s, email, password, salt).1)
  {
  }

  /** A new user can sign in with exactly the passwords whose bcrypt key
      bytes are those of the password it was created with (the password
      itself, and any other sharing its first 72 bytes); the sign-in reads
      the same user the creation returned. */
  lemma CreateThenCompare(s: Store, email: string, password: string, salt: string, attempt: string)
    requires Valid(s)
    requires FindByEmail(s.docs, email).None?
    ensures var (r, s') := CreateUser(s, email, password, salt);
            ComparePassword(s', email, attempt) ==
              if KeyBytes(attempt) == KeyBytes(password) then r else Failure(Unauthorized)
  {
    var doc := UserDoc(s.nextId, email, HashPassword(password, salt), User);
    FindByEmailAppend(s.docs, doc, email);
  }

  /** The id the creation returns finds the same user again. */
  lemma CreateThenGetById(s: Store, email: string, password: string, salt: string)
    requires Valid(s)
    requires FindByEmail(s.docs, email).None? && Email.EmailShape(email)
    ensures var (r, s') := CreateUser(s, email, password, salt);
            r.Success? && GetUserById(s', r.value.id) == r
  {
    var doc := UserDoc(s.nextId, email, HashPassword(password, salt), User);
    assert FindById(s.docs, s.nextId).None?;
    FindByIdAppend(s.docs, doc, s.nextId);
    ParseNatText(s.nextId);
  }

  /** An email can be registered once: the second attempt is a 400 and
      the store is left as the first attempt made it. */
  lemma CreateTwice(s: Store, email: string, p1: string, p2: string, salt1: string, salt2: string)
    requires FindByEmail(s.docs, email).None?
    ensures var s1 := CreateUser(s, email, p1, salt1).1;
            CreateUser(s1, email, p2, salt2) == (Failure(BadRequest), s1)
  {
    var doc := UserDoc(s.nextId, email, HashPassword(p1, salt1), User);
    FindByEmailAppend(s.docs, doc, email);
  }

  /** An absent user is never "not found": both lookups fail, the one by
      email with the read schema's error on null. */
  lemma AbsentUserThrows(s: Store, email: string, id: string)
    requires FindByEmail(s.docs, email).None?
    requires ParseNat(id).Some? ==> FindById(s.docs, ParseNat(id).value).None?
    ensures GetUserByEmail(s, email) == Failure(Invalid(NullUser))
    ensures GetUserById(s, id).Failure?
  {
  }
}

=== FILE: wrappers.dfy ===
/** Option and Result, used for every fallible operation of the model in place
    of the thrown exceptions and nullable values of the modelled code. */
module Wrappers {

  datatype Option<+T> = None | Some(value: T) {

    function GetOr(default: T): T {
      match this
      case Some(v) => v
      case None => default
    }
  }

  datatype Result<+T, +E> = Success(value: T) | Failure(error: E) {

    function ToOption(): Option<T> {
      match this
      case Success(v) => Some(v)
      case Failure(_) => None
    }
  }
}

/** The three kinds of failure the modelled code throws. */
module Errors {

  datatype Error =
      /** A plain `Error` (thrown by jwt-simple or by `new Error(message)`). */
    | Thrown(message: string)
      /** A `PlatformError(message, code)`; the app maps it to that HTTP status. */
    | Platform(message: string, code: nat)
      /** A `ZodError` from a schema `parse` that failed. */
    | Invalid(message: string)

  /** `new PlatformError("Unauthorized", 401)`. */
  const Unauthorized: Error := Platform("Unauthorized", 401)

  /** `new PlatformError("Bad Request", 400)`. */
  const BadRequest: Error := Platform("Bad Request", 400)
}
